=== FILE: README.md ===
# A verified model of the conversation store and message normaliser of `lib/simple.js`

`lib/simple.js` extends a WhatsApp connection object. Its core keeps an
in-memory table `conn.chats`, mapping each chat id to a chat record. Every
record has a message history bounded at 40 entries. The core merges contact
and group events into that table and files incoming messages into it. It also
turns raw message envelopes into a flat normalised view (`smsg`), and it
provides small string and list helpers.

This project models that core in Dafny and proves properties of the model.

Data model:

- **JavaScript objects** are ordered maps `OrderedMap.OMap<V>`: a sequence of
  `(key, value)` pairs in insertion order. This covers message payloads, the
  chat table and each history. Key order matters because the first payload
  key decides a message's type.
- **Absent string fields** are `""`. Every read of such a field in the core
  goes through `||`, and `""` and `undefined` behave the same there.
- **External collaborators** are parameters. `jidDecode`, `areJidsSameUser`
  and the phone-number formatter are function fields of `Jid.Env`. The
  group-metadata provider is an oracle argument, with `None` for a rejected
  call.
- **Errors the source throws** become `Err` results: reading a property of
  `undefined`, the undefined identifier `message`, and `logic` with lists of
  different lengths. No precondition stands in for them.
  - When `key.remoteJid` is empty, `smsg` (lib/simple.js:1374) reads the
    undefined identifier `message`. It is modelled the same way, as an error
    result rather than a precondition.

Modules, one per concern:

| module | covers |
|---|---|
| `Jid` | `decodeJid` and `String.prototype.decodeJid` |
| `Payload` | envelopes, payloads and the message-type tie-break |
| `Normalize` | `smsg` |
| `Quote` | `getQuotedObj` |
| `Names` | `m.name` and `m.quoted.name`, over `getName` |
| `Store` | the chat table, the contact and group handlers, `insertAllGroup`, `loadMessage` and `getName` |
| `Stub` | `processMessageStubType` |
| `Push` | `pushMessage` |
| `Helpers` | `parseMention`, `logic`, `msToDate`, `toTimeString`, `capitalize`, `capitalizeV2` and `filter` |
| `Forward` | `cMod` |

`Wrappers`, `OrderedMap` and `Strings` hold the shared vocabulary: results,
objects, and the string built-ins the code calls.

`Store.Valid` is the store invariant: one record per id, each filed under
its own id, with a history without duplicate ids. Every store operation
preserves it.

## Model

| member | source | states |
|---|---|---|
| Jid.HasDeviceSuffix | lib/simple.js:51 | true exactly when the id contains a `:<digits>@` device suffix, i.e. the regular expression `/:\d+@/` matches |
| Jid.DeviceSuffixFromSpec | lib/simple.js:51 | the left-to-right scan for a device suffix finds one exactly when a colon, a non-empty digit run and an `@` occur in that order from the scan position |
| Jid.DecodeJid | lib/simple.js:49-55 | an empty id, and an id without a `:<digits>@` suffix, are returned unchanged; a suffixed id becomes jidDecode's `user@server` exactly when jidDecode gives both parts non-empty, and is returned unchanged otherwise; a non-empty id never decodes to "" |
| Jid.PlainJidHasNoSuffix | lib/simple.js:49-55 | `user@server` with no colon in the user part and no `@` in the server has no device suffix |
| Jid.PlainJidFixed | lib/simple.js:49-55 | a plain `user@server` id is a fixed point of decodeJid |
| Jid.DecodeJidIdempotent | lib/simple.js:49-55 | decoding twice equals decoding once, when jidDecode's parts contain no colon in the user and no `@` in the server |
| Jid.DeviceFormsAgree | lib/simple.js:49-55 | a device-suffixed id and its plain `user@server` form canonicalise to the same id |
| Jid.DecodeJidTrimmed | lib/simple.js:1656-1661 | the string variant returns the trimmed canonical id, with no white space at either end |
| Jid.OwnJid | lib/simple.js:56 | `conn.user.jid` is never "", and it is `conn.user.id` itself when that carries no device suffix |
| Payload.ResolveType | lib/simple.js:1380-1383 | a type exists exactly when the payload has keys, and it is always one of the keys |
| Payload.TypeTieBreak | lib/simple.js:1380-1383 | a non-wrapper first key wins; after a wrapper, the second key wins when there are at least three keys and it is not `messageContextInfo`; otherwise the last key wins; `messageContextInfo` is chosen only as the last key |
| Payload.TypeTieBreakExamples | lib/simple.js:1181-1184 | `[senderKeyDistributionMessage, conversation, messageContextInfo]` gives `conversation`; `[senderKeyDistributionMessage, messageContextInfo]` gives `messageContextInfo` |
| Payload.EnvelopeChat | lib/simple.js:1185 | an envelope's chat is its decoded `remoteJid`, or else the decoded group id of its sender-key distribution message |
| Normalize.IsBaileysIdExamples | lib/simple.js:1373 | ids of 16 characters, or of 12 characters starting with `3EB0`, are the library's own; `ABC123` and "" are not |
| Normalize.IsBaileysId | lib/simple.js:1373 | the definition: an id of 16 characters, or of 12 characters starting with `3EB0` |
| Normalize.SenderOf | lib/simple.js:1376 | an outgoing message's sender is the session's own jid; otherwise it is the first non-empty of the envelope participant, the key participant and the chat, decoded |
| Normalize.FirstTextField | lib/simple.js:1392 | the text is one of `text`, `caption` and `contentText`, and is "" exactly when all three are empty |
| Normalize.DeriveText | lib/simple.js:1392-1402 | a non-empty string field wins; a bare string is its own text; the five listed types without text get ""; the content object itself stays the text exactly when no rule applies |
| Normalize.DeriveTextFromContent | lib/simple.js:1392-1402 | any string text is one of the content's own string fields, or "" |
| Normalize.MentionsOf | lib/simple.js:1403 | mentions are the context's `mentionedJid` when it is a non-empty list, and `[]` otherwise |
| Normalize.CorrectStatusChat | lib/simple.js:1385 | only a protocol or key-distribution message in `status@broadcast` is re-homed, to the raw remote id when that differs, else to the sender |
| Normalize.CorrectStatusChatLeavesBroadcast | lib/simple.js:1385 | a re-homed message never stays in `status@broadcast` and never gets chat "" while its sender is a real id |
| Normalize.RewriteProtocolKey | lib/simple.js:1386-1391 | the embedded key keeps its id; a missing or `status_me` participant becomes the sender; `fromMe` holds exactly when the decoded participant is the session's jid; the remote is the chat in place of `status@broadcast`, redirected to the sender exactly when the key is not from the session and points at the session's jid, and kept otherwise |
| Normalize.RewriteProtocolKeyIdempotent | lib/simple.js:1386-1391 | with a real chat and sender, rewriting a rewritten key changes nothing |
| Normalize.RewriteProtocol | lib/simple.js:1386-1391 | only a protocol message that carries a key is changed, and only in that key |
| Normalize.MainType | lib/simple.js:1380-1384 | a non-empty payload has a type, the tie-break's choice, and the payload holds an entry under it |
| Normalize.MainContent | lib/simple.js:1384 | `m.msg` before any rewrite is the payload's entry under that type |
| Normalize.QuoteOf | lib/simple.js:1404-1426 | the quote fails exactly when the quoted payload is empty; otherwise its type is the first quoted key, its id the `stanzaId`, `isBaileys` exactly when that id has 16 characters, its chat the first non-empty of the context remote, the chat and the sender; `fromMe` is strict equality with the session's jid; the snapshot record is the first entry (a string becomes `{ text }`) with the text set to the first of `text`, `caption`, `contentText`; its mentions are the first entry's non-empty `mentionedJid`, else `[]`; the synthetic envelope is keyed by (chat, fromMe, id), with the participant only in a group, and carries the quoted payload with that text written back |
| Normalize.QuotedOf | lib/simple.js:1404-1426 | `m.quoted` is `null` exactly when the context quotes nothing, fails exactly when it quotes an empty payload, and is otherwise the quote of that payload |
| Normalize.WriteBackText | lib/simple.js:1405-1415 | setting the snapshot's text rewrites the first quoted entry when it is a record and leaves a bare string alone; keys and the other entries are kept |
| Normalize.WriteBackKeepsText | lib/simple.js:1415 | the written-back record derives the same text as before |
| Normalize.WriteBackTextIdempotent | lib/simple.js:1415 | writing the text back twice is writing it once |
| Normalize.WithQuoteText | lib/simple.js:1404-1415 | `m.msg` after the snapshot: only the quoted payload inside its context changes, to the written-back payload |
| Normalize.QuotedOfWrittenBack | lib/simple.js:1404-1415 | taking the quote again from the written-back content gives the same snapshot |
| Normalize.Normalize | lib/simple.js:1367-1426 | an empty `remoteJid` is the ReferenceError; otherwise the result is an error exactly when the payload is empty or its content quotes an empty payload; id, `isBaileys`, `isGroup`, sender and `fromMe` follow lines 1372-1377; without a payload the chat is the decoded `remoteJid`; with one, the type is the tie-break, the chat is corrected, `quoted` is the quote of the content's context, and `msg` is the content under that type with the protocol-key rewrite and the quote's text written back into its quoted payload, which is the very payload the synthetic envelope carries; text and mentions are derived from `msg` |
| Normalize.FromMeDerivation | lib/simple.js:1376-1377 | an outgoing message is from the session with the session's jid as sender, and a sender equal to that jid makes a message count as from the session |
| Normalize.QuotedTextShowsThroughMsg | lib/simple.js:1404-1415 | when the quoted payload starts with a record, that record inside the normalised `msg` carries the quote's derived text |
| Quote.GetQuotedObj | lib/simple.js:1427-1431 | `null` exactly when the quote has no id; otherwise the normalised entry filed under the id in the first chat whose history mentions it, and the normalised synthetic envelope when there is no such chat or that chat has no entry under the id |
| Quote.FakePayloadContext | lib/simple.js:1414-1425 | the synthetic envelope's payload has the quoted payload's keys and type, and its main content carries the same context |
| Quote.SyntheticQuoteNormalizes | lib/simple.js:1418-1431 | a quote whose chat is "" cannot be normalised; otherwise normalising the synthetic envelope fails exactly when the quoted content quotes an empty payload; a success keeps the quote's id, has the tie-break type of the quoted payload (the quote's own type when its first key is not a wrapper), lands in the quote's chat unless the status correction re-homes it, and makes an outgoing quote the session's |
| Quote.QuotedIsBaileysNarrower | lib/simple.js:1412 | the quote's `isBaileys` tests the length only, so the 12-character `3EB0` form is not recognised on the quote although the message test recognises it |
| Quote.GetQuotedObjFallsBack | lib/simple.js:1427-1431 | when the first chat that mentions the id holds it only inside a stored key, the synthetic envelope is used, even though a later chat files the message under that id |
| Names.GetNameValue | lib/simple.js:1084-1100 | `getName` answers a promise exactly for a group id, settling with the looked-up name or never, and a plain name otherwise |
| Names.MsgName | lib/simple.js:1540 | the push name when there is one, else the name looked up for the sender, a promise for a group sender |
| Names.QuotedName | lib/simple.js:1416 | the name looked up for the quote's author, a promise for a group author |
| Names.MsgNameFromStore | lib/simple.js:1540 | without a push name, a user sender with a stored name is called by it, whatever the provider answers |
| Names.MsgNameIgnoresStore | lib/simple.js:1540 | a push name is used regardless of the table and the provider |
| Names.QuotedNameIsAPromiseOnlyForGroups | lib/simple.js:1088-1099 | the quote's name is a promise exactly for a group author, and for any other author the provider's answer plays no part |
| Store.TrimHistory | lib/simple.js:1257-1258 | a history of at most 40 entries is kept; a longer one loses exactly its 30 oldest entries; the result is a suffix that still ends with the newest entry; 41 entries become at most 40; ids stay distinct |
| Store.TrimHistoryAtOverflow | lib/simple.js:1258 | 41 entries trim to exactly 11, namely entries 30 to 40 |
| Store.Record | lib/simple.js:1256-1258 | writing into a history within the cap stores the message under its id and leaves at most 40 entries; overwriting an existing id keeps the order |
| Store.RecordSpec | lib/simple.js:1256-1258 | after a write, the id holds the message unless a trim dropped it, and the history stays within 40 |
| Store.MergedName | lib/simple.js:66-71 | for a group, `subject` becomes the contact's subject, else the old subject; for others, `name` becomes the contact's notify, else the old name, else the old notify; the contact's own `name` is discarded |
| Store.MergeContact | lib/simple.js:59-75 | a contact whose id decodes to "" is skipped; otherwise the record under the decoded id keeps every field the contact does not carry, takes the contact's other fields and the merged name, and keeps its history; other records are untouched |
| Store.UpdateNameToDb | lib/simple.js:59-75 | merging a batch keeps the store invariant, keeps every record that existed, and leaves every record no contact names as it was |
| Store.MergeNeverBlanks | lib/simple.js:66-71 | a non-empty name or subject is never blanked by a merge |
| Store.MergedNameStable | lib/simple.js:66-71 | a record that already carries a contact's merged name merges to the same name again |
| Store.MergedRecordStable | lib/simple.js:66-71 | a record the contact has already been merged into is unchanged by merging the same contact again |
| Store.MergeContactIdempotent | lib/simple.js:59-75 | merging the same contact twice equals merging it once |
| Store.WithMetadata | lib/simple.js:103-107 | a successful refresh sets `subject` from the metadata and stores the metadata, keeping everything else |
| Store.RefreshGroup | lib/simple.js:97-107 | the group's record exists and is flagged as a conversation, with its history kept; fetched metadata sets the subject and the metadata; a rejected fetch changes no field; other records are untouched |
| Store.Refreshed | lib/simple.js:99-107 | one refreshed record: flagged, with the fetched subject and metadata on success, and otherwise unchanged |
| Store.RefreshedTwice | lib/simple.js:117-122 | refreshing a record twice with the same answer is refreshing it once |
| Store.ParticipantsUpdate | lib/simple.js:97-108 | `group-participants.update` is the refresh of the decoded group id |
| Store.GroupUpdatePush | lib/simple.js:110-123 | an update for a non-group id changes nothing; for a group it is the refresh of that group |
| Store.GroupsUpdatePush | lib/simple.js:110-124 | the refresh listener keeps the store invariant over a batch |
| Store.GroupsUpdatePushSpec | lib/simple.js:110-124 | for one id: a group the batch names ends up refreshed with its own fetch however often it is named, and any other record is untouched |
| Store.GroupsUpdatePushAll | lib/simple.js:110-124 | the same for every id at once |
| Store.OnGroupsUpdate | lib/simple.js:79-124 | after the name merge, a group id some update names is flagged as a conversation and, when its fetch succeeds, gets the fetched subject and metadata, keeping the merged properties and history; a rejected fetch leaves the merged record's fields; every other record is as the merge left it; the invariant is kept |
| Store.ResyncGroups | lib/simple.js:137-138 | every participating group gets a record and no record disappears |
| Store.ResyncGroupsLast | lib/simple.js:138 | a participating group's record after the resync is the fresh one built from its last entry |
| Store.ResyncAll | lib/simple.js:137-138 | over every id: ids the resync does not name keep their records, and each named group ends with the fresh record of its last entry |
| Store.ResyncUntouched | lib/simple.js:137-138 | the resync leaves every record that is not a participating group exactly as it was |
| Store.ChatsUpsert | lib/simple.js:125-140 | an upsert without id changes nothing; a non-group upsert merges the payload over the old record and flags it as a conversation; for a group the record is flagged, keeps its history, and takes the fetched metadata and the payload's `name` before the fetched subject (a rejected fetch leaves the merge alone); every participating group then gets a fresh record; records the event names nowhere are untouched |
| Store.InsertGroup | lib/simple.js:1146 | the group's record keeps its other fields and its history, takes the fetched subject and metadata, and is flagged as a conversation; other records are untouched |
| Store.InsertAllGroup | lib/simple.js:1144-1148 | a rejected fetch changes nothing; each participating group's record keeps its history and other fields and takes the subject and metadata of its last entry with the conversation flag; every other record is untouched; the store invariant is kept |
| Store.InsertGroups | lib/simple.js:1146 | no record is lost and the store invariant is kept |
| Store.InsertGroupsSpec | lib/simple.js:1146 | for one id: a record no entry names is untouched, and a named group's record is its previous record merged with its last entry |
| Store.InsertGroupsAbsent | lib/simple.js:1144-1148 | a record no group entry names is untouched by the batch of writes |
| Store.InsertGroupsLast | lib/simple.js:1144-1148 | a group's record after the batch is its previous record merged with the group's last entry: subject and metadata from that entry, conversation flag set |
| Store.InsertGroupOverwritten | lib/simple.js:1146 | a later write of the same group overrides the subject and metadata of an earlier one |
| Store.InsertAll | lib/simple.js:1144-1148 | the same over every id at once |
| Store.InsertKeepsHistoryResyncDropsIt | lib/simple.js:1144-1148 | `insertAllGroup` keeps every record's history, while the `chats.upsert` resync replaces a participating group's record with one that has none |
| Store.InsertKeepsHistory | lib/simple.js:1146 | after `insertAllGroup` every record keeps the history it had before |
| Store.ResyncDropsHistory | lib/simple.js:137-138 | a group named by the `chats.upsert` resync ends up with a record and an empty history |
| Store.FirstChatWith | lib/simple.js:1008-1012 | finds the first chat in table order whose history holds the id as a key or as a stored key's id, and no earlier one does |
| Store.LoadMessage | lib/simple.js:1007-1013 | a found message is filed under the id in some chat; an id no chat mentions gives nothing; the answer comes from the first mentioning chat only |
| Store.LoadMessageMissesByInnerId | lib/simple.js:1007-1013 | a match through a stored key's id yields nothing, even when a later chat holds the message under the id |
| Store.FirstField | lib/simple.js:1099 | the chain `a || b || ...` gives one of the named fields, and "" exactly when all are empty |
| Store.GetName | lib/simple.js:1084-1100 | a group is named by its stored name or subject, else the fetched one, else its phone format, and never settles when the fetch is rejected; the service id is "WhatsApp"; the session itself is named from `conn.user`; others are named from their record in the fixed order of fields, then the phone format |
| Store.GetNameOfService | lib/simple.js:1093-1096 | `0@s.whatsapp.net` is named "WhatsApp" |
| Store.GetNamePrefersStoredName | lib/simple.js:1093-1099 | a stored non-empty name wins for an ordinary contact, and with `withoutContact` the subject comes first |
| Stub.StubEvent | lib/simple.js:1117-1124 | REVOKE and GROUP_CHANGE_INVITE_LINK emit `{id: chat, revoke: parameters[0]}`, GROUP_CHANGE_ICON emits `{id: chat, icon: parameters[0]}`, each with that one property, and any other kind emits nothing |
| Stub.ApplyStub | lib/simple.js:1106-1143 | no stub, or a chat that is "" or `status@broadcast`, changes nothing; an unhandled stub kind on a direct chat changes nothing; the emitted update's `revoke` or `icon` lands in the chat's record (for an already decoded chat id); a group's record ends up flagged as a conversation with the fetched subject and metadata; the store invariant is kept |
| Stub.StubFieldsLand | lib/simple.js:1114-1141 | the update's property is in the record after both listeners and the refresh |
| Stub.GroupsUpdateKeepsFields | lib/simple.js:79-124 | the `groups.update` listeners change no property but the subject after the name merge |
| Stub.StubMergeLands | lib/simple.js:62-73 | the name merge writes the update's properties into the chat's record |
| Stub.RefreshGroupKeepsFields | lib/simple.js:1134-1141 | the refresh keeps every property but the subject |
| Stub.InviteLinkStubExample | lib/simple.js:1118-1143 | an invite-link stub on a group leaves `revoke` set to the new code, the fetched subject and metadata, and the conversation flag |
| Push.ReplyContext | lib/simple.js:1186-1190 | the side-cache takes the typed content's context exactly when it quotes a payload, an empty one included |
| Push.QuoteTarget | lib/simple.js:1191-1209 | the quote is filed under its author; without an author, under the quote's chat when that ends in `g.us`, and under "" otherwise |
| Push.RewriteQuoted | lib/simple.js:1199-1207 | a leading `conversation` becomes an `extendedTextMessage` record `{ text }` and the `conversation` key is removed; the first entry keeps everything but its context, and its context keeps everything but `mentionedJid`, which becomes the reply's mentions, else its own, else `[]`; other entries are kept; an empty payload, or a leading string under another key, throws |
| Push.QuoteEntry | lib/simple.js:1210-1219 | the filed entry is keyed by the `stanzaId`, marked outgoing when the quote's chat is the session's user, and carries the participant in a group |
| Push.WithQuoted | lib/simple.js:1199-1207 | the rewrite is visible through the envelope itself, which then carries the rewritten quoted payload; the key, participant, push name, stub, the payload's keys, its other entries and the typed content apart from its context are unchanged; without a quote the envelope is unchanged |
| Push.CacheQuote | lib/simple.js:1186-1226 | without an active quote nothing changes; otherwise the target chat exists afterwards, other chats are untouched, an existing entry under the id or an outgoing quote leaves the history as it was, and a new incoming quote is filed under the `stanzaId` |
| Push.EnsureChat | lib/simple.js:1230-1234 | the chat exists afterwards; an existing one is unchanged; a new direct chat is an empty conversation and nothing else changes; an unknown group first runs `insertAllGroup`, whose result is kept, and is created as an empty conversation if still missing; histories are kept |
| Push.FillGroup | lib/simple.js:1236-1241 | a group's missing subject and metadata are filled from the provider (or `{}`), and those already set are kept |
| Push.NameIfUnnamed | lib/simple.js:1248 | a chat without a name takes the push name; a named one is unchanged |
| Push.Stored | lib/simple.js:1254-1256 | the filed copy has neither wrapper key and keeps every other payload entry and envelope field |
| Push.FileMessage | lib/simple.js:1227-1260 | an envelope whose chat is "" or `status@broadcast` changes nothing; otherwise the chat exists; a group's missing subject and metadata are filled from the provider, and a group sender's own record is named after the push name when unnamed; a direct chat is named after the push name when unnamed; nothing else changes; wrapper types stop before the conversation flag; the message is filed under its id exactly when the persist guard holds (not protocol, not from the session, not undecryptable, payload present) |
| Push.ShouldPersist | lib/simple.js:1253 | the definition of the persist guard: not a protocol message, not from the session, not undecryptable, payload present |
| Push.PushFromMe | lib/simple.js:1252 | the definition of `fromMe` when filing: the key's flag, or the same-user test on the group sender or the direct chat |
| Push.NameSender | lib/simple.js:1243-1247 | the sender's own record is created if needed and named after the push name when unnamed; nothing else changes |
| Push.PushOne | lib/simple.js:1176-1260 | one envelope (stub, side-cache, filing) keeps the store invariant |
| Push.PushMessage | lib/simple.js:1169-1264 | a batch of envelopes keeps the store invariant |
| Push.HelloEnvelopeRoute | lib/simple.js:1179-1253 | a direct text message skips the stub and the side-cache and passes the persist guard |
| Push.DirectMessageFiled | lib/simple.js:1228-1258 | a direct "hello" with id ABC123 leaves its chat flagged as a conversation with the message filed under ABC123 |
| Helpers.MentionAt | lib/simple.js:1074 | at an `@` there is no match exactly when fewer than 5 digits follow and the next character is not `0`; a long match is the digit run capped at 16 (it ends at 16 digits, the end of the text or a non-digit); a short match is `0` and only when the run is under 5; every match follows the `@` in the text |
| Helpers.MentionsStepMatch | lib/simple.js:1074 | at a match, the global scan resumes after it and the positional one at the next character, both taking the match |
| Helpers.MentionsStepSkip | lib/simple.js:1074 | at a position with no match both scans move on |
| Helpers.MentionsFrom | lib/simple.js:1074 | every mention found by the global scan is a mention number following an `@`, with the user server appended |
| Helpers.MentionsAtSkip | lib/simple.js:1074 | a stretch without `@` contributes no mention |
| Helpers.MentionsFromComplete | lib/simple.js:1074 | the global scan, resuming after each match, finds exactly the by-position matches: no `@` is skipped |
| Helpers.ParseMention | lib/simple.js:1073-1075 | equals the by-position reference: every `@` at which the pattern matches contributes its number with `@s.whatsapp.net`, in the order of the text; each result is a 5-to-16-digit number or `0` that follows an `@`; a text without `@` mentions no one |
| Helpers.ParseMentionExamples | lib/simple.js:1074 | `@62812 @0` gives both ids in order |
| Helpers.ParseMentionTooShort | lib/simple.js:1074 | `@1234` is too short to mention anyone |
| Helpers.SampleMatches | lib/simple.js:1074 | the matches at the two `@` of `@62812 @0` are `62812` and `0` |
| Helpers.SampleMentionsAt | lib/simple.js:1074 | the by-position matches of `@62812 @0` |
| Helpers.FirstIndexOf | lib/simple.js:1604 | finds the first position holding the value, or reports its absence |
| Helpers.Logic | lib/simple.js:1602-1606 | lists of different lengths are an error; otherwise the output is the one paired with the first equal input, and nothing exactly when no input is equal |
| Helpers.UnitsRecompose | lib/simple.js:1667-1671 | days, hours < 24, minutes < 60 and seconds < 60 recompose the duration to the second |
| Helpers.MsToDateUnits | lib/simple.js:250-255 | `msToDate`'s days, hours and minutes are the same units as those of `toTimeString` |
| Helpers.MsToDateWords | lib/simple.js:258 | the rendered duration splits into the three numbers and the words Hari, Jam and Menit |
| Helpers.MsToDate | lib/simple.js:250-260 | the text is the days, hours within the day and minutes within the hour of the duration, each followed by its word |
| Helpers.MsToDateParse | lib/simple.js:250-260 | `msToDate` reads back: its numbers are digits, with hours under 24 and minutes under 60, and they give the duration to the minute |
| Helpers.ToTimeString | lib/simple.js:1666-1678 | the result has no white space at either end |
| Helpers.ToTimeStringEmpty | lib/simple.js:1666-1678 | the result is "" exactly when the duration is under one second |
| Helpers.Capitalize | lib/simple.js:1646-1648 | same length, first character upper-cased, the rest kept |
| Helpers.CapitalizeIdempotent | lib/simple.js:1646-1648 | capitalising twice is capitalising once |
| Helpers.CapitalizeFrom | lib/simple.js:1652-1655 | the reference: a character is upper-cased exactly when it starts the text or follows a space |
| Helpers.CapitalizeAll | lib/simple.js:1654 | each word of the list is capitalised, in place |
| Helpers.CapitalizeV2Spec | lib/simple.js:1652-1655 | `capitalizeV2` equals the reference: the length is kept and exactly the first character and each one after a space are upper-cased |
| Helpers.CapitalizeV2 | lib/simple.js:1652-1655 | split, capitalise each word and join equals the character-wise reference |
| Helpers.ConsonantsSpec | lib/simple.js:222 | every filtered character is a consonant of the text, and every consonant of the text is among them |
| Helpers.ConsonantsAppend | lib/simple.js:222 | the filter of a concatenation is the concatenation of the filters, so order and multiplicity are kept |
| Helpers.ConsonantsSingle | lib/simple.js:222 | one character is kept exactly when it is one of `mati` |
| Helpers.LastConsonantIndex | lib/simple.js:223 | the position of the last consonant, with none after it, or nothing when there is no consonant |
| Helpers.ConsonantsLast | lib/simple.js:223 | `res[res.length - 1]` exists exactly when the text has a consonant, and is the last consonant by position |
| Helpers.StemConsonants | lib/simple.js:223-227 | the consonants of a text ending in one of `mati` are those of the rest followed by that letter |
| Helpers.ChosenConsonant | lib/simple.js:223-227 | the choice is the last consonant by position of the text without a final consonant letter (so the second-to-last when the text ends in one), and `undefined` exactly when that part has no consonant |
| Helpers.LastIndexOf | lib/simple.js:228-229 | finds the last position of the character, and nothing exactly when the text does not contain it |
| Helpers.LastPieceSuffix | lib/simple.js:228-229 | the consonant followed by the last piece of the split is the suffix starting at its last occurrence |
| Helpers.SplitLast | lib/simple.js:228-229 | the last piece of a split is what follows the last separator, or the whole text when there is none |
| Helpers.Filter | lib/simple.js:216-231 | two vowels and an optional consonant at the end give the last character; with a chosen consonant, the suffix that starts at its last occurrence; otherwise the string `undefined` in front of the text |
| Helpers.FilterKucing | lib/simple.js:216-231 | `kucing` gives `ng`: it ends in a consonant, so the one before it is chosen |
| Helpers.KucingConsonants | lib/simple.js:222 | the consonants of `kucing` are `kcng` |
| Helpers.FilterSapi | lib/simple.js:216-231 | `sapi` gives `pi` |
| Helpers.FilterShortCases | lib/simple.js:216-231 | `main` gives `n`; `a` gives `undefineda` |
| Forward.StripWrappers | lib/simple.js:934-935 | the copy has neither wrapper key and keeps every other entry |
| Forward.StripWrappersStripped | lib/simple.js:934-935 | a payload without either wrapper key is left as it is |
| Forward.StrippedEmpty | lib/simple.js:934-938 | something is left after stripping exactly when the payload has a non-wrapper key |
| Forward.RewriteText | lib/simple.js:939-941 | a string becomes the new text; a record's caption, if set, else its text, if set, becomes the new text; an empty new text changes nothing |
| Forward.WithMentions | lib/simple.js:944-947 | the mentions are those passed, else the context's own, else `[]`; every other context field is kept |
| Forward.RewriteContent | lib/simple.js:939-948 | a string gets only the text rewrite; a record also gets its context with the mentions |
| Forward.ResolveSenders | lib/simple.js:949-952 | a non-empty sender overwrites whichever participant field is set and is the resolved sender; otherwise the set participant, or a direct or broadcast chat id, is the sender |
| Forward.CMod | lib/simple.js:931-956 | fails exactly when there is no payload or only wrappers; otherwise the copy is addressed to the new chat, keeps its id, has the wrappers deleted, the first type's content rewritten and all other entries kept, and is from the session exactly when the resolved sender is the session's user |
| Forward.RewriteContentIdempotent | lib/simple.js:939-948 | rewriting twice is rewriting once |
| Forward.CModIdempotent | lib/simple.js:931-956 | forwarding the copy again with the same chat, text, mentions and a non-empty sender gives the same copy |

## Left out

- Strings are sequences of code points, while JavaScript's `.length` counts UTF-16 code units, so `isBaileys` (`|id| == 16`, length 12) differs from the source for ids with characters outside the Basic Multilingual Plane.
- `presence.update` (lib/simple.js:141-156): it dereferences `undefined` for an empty presence list and for a group whose metadata fetch fails.
- `chats.set` (lib/simple.js:80-96): it reassigns a destructured constant and throws on its first element, so it has no working behaviour.
- Sends and builders (buttons, lists, templates, vCards, `copyNForward`, `cMods`), media and file I/O, `waitEvent`, `delay`, random choice, `isNumber`, the runtime patches and the logger: network, file system, timers, randomness or foreign runtime calls.
- Commented-out and shadowed definitions (for example the first `cMod` at line 751): dead code.
- Async interleaving: awaited listeners and provider calls run to completion in order, including the stub processing that `pushMessage` starts without awaiting.
- The `chats.upsert` payload arriving as an array: it is modelled as a single object, the only shape the destructuring on line 127 reads.
- Key order: JavaScript enumerates array-index-like keys (`"0"`, `"17"`) before other keys; the ordered map keeps plain insertion order for every key.
- The protobuf schema: `fromObject` and `toJSON` are taken as the identity, and only the fields the core reads are modelled.
- `cMod` options other than `mentions`: they are spread into the content but never read by the core.
- Normalize.Normalize: the snapshot `m.quoted` is the quoted record inside `m.msg`, so the source also writes its `mtype`, `id`, `chat`, `isBaileys`, `sender`, `fromMe`, `name`, `mentionedJid`, `fakeObj` and closures into that record; the content record has none of those fields, so only the written-back `text` shows through `msg`.
- Forward.CMod: the spread `{...content, ...options}` also writes `mentions` into the content as a field of its own; the content record has no such field, so it is not kept.
- Forward.CMod: a `mentions` option that is not an array is wrapped in a list first (line 932); the model takes the list as already wrapped.
- Helpers.Logic: the source adds `getRandom` to `Array.prototype` as an enumerable property (line 1679), so `for (let i in inp)` also visits the key `"getRandom"`; the model looks at the indices only.
- Absent versus empty string fields: both are "". So a missing `key.id` (the source files it under the key `"undefined"`) and a missing `remoteJid` (which makes `cMod` throw) are not distinguished from "".
- `this.withoutContact` in `getName`: the module-level `this` is not modelled; only the argument is.
- `toUpperCase` beyond ASCII: `capitalize` upper-cases `a`-`z` only.
- Number formatting: durations are whole non-negative milliseconds, rendered in decimal without the exponent form JavaScript uses from 10^21 on.
- Store.UpdateNameToDb: the batch contract states the invariant, that no record is lost and that unnamed records are untouched; what a named record becomes is stated per contact on MergeContact.
- Store.GroupsUpdatePush: the function's own contract states only the invariant; the per-id account of the batch is GroupsUpdatePushSpec.
- Push.PushOne: states only the invariant; what one envelope does is stated by ApplyStub, CacheQuote, FileMessage and DirectMessageFiled.
- Push.PushMessage: states only the invariant over the batch.
- Helpers.ToTimeString: the contract states trimming and when the result is empty, not the exact wording of each unit.

=== FILE: cmod.dfy ===
/** `conn.cMod` (lib/simple.js:931-956, the live definition; the earlier one
    at line 751 is shadowed by it): a copy of a message envelope readdressed
    to another chat, with its text replaced, its mentions set and its sender
    fixed. `toJSON` and `fromObject` are taken as the identity.

    Of the `options` the call spreads into the content only `mentions` is
    modelled, and only as the context's `mentionedJid`: the copy the spread
    also writes into the content as a field of its own is not kept, and a
    single mention arrives already wrapped in a list (line 932 wraps it). */
module Forward {
  import opened Wrappers
  import opened OrderedMap
  import opened Strings
  import opened Jid
  import opened Payload

  const Broadcast: string := "@broadcast"

  /** `delete copy.message.messageContextInfo` and
      `delete copy.message.senderKeyDistributionMessage`. */
  function StripWrappers(m: Message): (r: Message)
    ensures !Has(r, MessageContextInfo) && !Has(r, SenderKeyDistributionMessage)
    ensures forall k {:trigger Get(r, k)} :: !IsWrapperKey(k) ==> Get(r, k) == Get(m, k)
    ensures forall e :: e in r ==> e in m
    ensures Distinct(m) ==> Distinct(r)
  {
    var m1 := Remove(m, MessageContextInfo);
    var r := Remove(m1, SenderKeyDistributionMessage);
    assert Get(r, MessageContextInfo) == Get(m1, MessageContextInfo);
    r
  }

  /** Stripping an already stripped payload changes nothing. */
  lemma StripWrappersStripped(m: Message)
    requires !Has(m, MessageContextInfo) && !Has(m, SenderKeyDistributionMessage)
    ensures StripWrappers(m) == m
  {
    RemoveAbsent(m, MessageContextInfo);
    RemoveAbsent(m, SenderKeyDistributionMessage);
  }

  /** The text rewrite: a string becomes `text || content`; in a record the
      caption, when it has one, else the text, when it has one, becomes
      `text || ` itself. */
  function RewriteText(c: Content, text: string): (r: Content)
    ensures r.Str? <==> c.Str?
    ensures r.Rec? <==> c.Rec?
    ensures text == "" ==> r == c
    ensures c.Str? && text != "" ==> r.s == text
    ensures c.Rec? && c.caption != "" && text != "" ==> r == c.(caption := text)
    ensures c.Rec? && c.caption == "" && c.text != "" && text != "" ==> r == c.(text := text)
    ensures c.Rec? && c.caption == "" && c.text == "" ==> r == c
  {
    match c
    case Str(s) => Str(Or(text, s))
    case Rec(_, _, _, _, _, _, _, _) =>
      if c.caption != "" then c.(caption := Or(text, c.caption))
      else if c.text != "" then c.(text := Or(text, c.text))
      else c
  }

  /** `{ ...(content.contextInfo || {}), mentionedJid: options.mentions ||
      content.contextInfo?.mentionedJid || [] }`. */
  function WithMentions(ctx: Option<ContextInfo>, mentions: Option<seq<string>>): (r: ContextInfo)
    ensures r.mentionedJid.Some?
    ensures mentions.Some? ==> r.mentionedJid == mentions
    ensures mentions.None? && ctx.Some? && ctx.value.mentionedJid.Some? ==> r.mentionedJid == ctx.value.mentionedJid
    ensures mentions.None? && (ctx.None? || ctx.value.mentionedJid.None?) ==> r.mentionedJid == Some([])
    ensures r.(mentionedJid := None) == ctx.GetOr(EmptyContext).(mentionedJid := None)
  {
    var base := ctx.GetOr(EmptyContext);
    var ids := if mentions.Some? then mentions.value
               else if base.mentionedJid.Some? then base.mentionedJid.value
               else [];
    base.(mentionedJid := Some(ids))
  }

  /** A content with its context dropped, to compare the rest. */
  function WithoutContext(c: Content): Content {
    if c.Rec? then c.(contextInfo := None) else c
  }

  /** The content the copy carries under its type: the text rewrite, and for
      a record the mentions as well. */
  function RewriteContent(c: Content, text: string, mentions: Option<seq<string>>): (r: Content)
    ensures c.Str? ==> r == RewriteText(c, text)
    ensures c.Rec? ==> r.Rec? && r.contextInfo == Some(WithMentions(c.contextInfo, mentions))
                       && WithoutContext(r) == WithoutContext(RewriteText(c, text))
  {
    var t := RewriteText(c, text);
    if t.Str? then t else t.(contextInfo := Some(WithMentions(c.contextInfo, mentions)))
  }

  /** Who the copy is from, and the two participant fields after the call:
      the envelope's `participant` if set, else the key's, is overwritten by a
      non-empty sender and otherwise becomes the sender; a direct or broadcast
      chat's id is the last resort. */
  datatype Senders = Senders(participant: string, keyParticipant: string, sender: string)

  function ResolveSenders(e: Envelope, sender: string): (r: Senders)
    ensures sender != "" ==> r.sender == sender
    ensures e.participant != "" ==> r.participant == Or(sender, e.participant) && r.keyParticipant == e.key.participant
                                    && r.sender == r.participant
    ensures e.participant == "" && e.key.participant != "" ==>
              r.participant == "" && r.keyParticipant == Or(sender, e.key.participant) && r.sender == r.keyParticipant
    ensures e.participant == "" && e.key.participant == "" ==> r.participant == "" && r.keyParticipant == ""
    ensures e.participant == "" && e.key.participant == "" && sender == "" ==>
              r.sender == (if Includes(e.key.remoteJid, UserServer) || Includes(e.key.remoteJid, Broadcast)
                           then e.key.remoteJid else "")
  {
    var s0 := if e.participant != "" then Or(sender, e.participant)
              else if e.key.participant != "" then Or(sender, e.key.participant)
              else sender;
    var p := if e.participant != "" then s0 else e.participant;
    var kp := if e.participant == "" && e.key.participant != "" then s0 else e.key.participant;
    var s := if Includes(e.key.remoteJid, UserServer) || Includes(e.key.remoteJid, Broadcast)
             then Or(s0, e.key.remoteJid) else s0;
    Senders(p, kp, s)
  }

  /** The payload has a content key, i.e. one that is not a wrapper. */
  predicate HasContent(m: Message) {
    exists i :: 0 <= i < |m| && !IsWrapperKey(m[i].0)
  }

  /** A content key survives the stripping; nothing else does. */
  lemma StrippedEmpty(m: Message)
    ensures |StripWrappers(m)| > 0 <==> HasContent(m)
  {
    var r := StripWrappers(m);
    if HasContent(m) {
      var i :| 0 <= i < |m| && !IsWrapperKey(m[i].0);
      assert Get(m, m[i].0).Some?;
      assert Get(r, m[i].0).Some?;
    }
    if |r| > 0 {
      assert Get(r, r[0].0).Some?;
      assert r[0] in m;
      var i :| 0 <= i < |m| && m[i] == r[0];
      assert !IsWrapperKey(m[i].0);
    }
  }

  /** `conn.cMod(jid, message, text, sender, { mentions })`. Without a payload,
      or with one holding nothing but wrappers, the copy fails reading a
      property of `undefined`. Otherwise the copy has the wrappers deleted,
      the first remaining type's content rewritten and every other entry
      kept; it is addressed to `jid`, keeps its id, and is from the session
      exactly when the resolved sender is the same user as the session. An
      omitted `sender` is `conn.user.jid`, the decoded own id (line 56). */
  function CMod(env: Env, jid: string, e: Envelope, text: string, sender: Option<string>,
                mentions: Option<seq<string>>): (r: Result<Envelope, Failure>)
    ensures r.Ok? <==> e.message.Some? && HasContent(e.message.value)
    ensures r.Ok? ==>
      var m := StripWrappers(e.message.value);
      var s := ResolveSenders(e, sender.GetOr(OwnJid(env)));
      var c := r.value;
      && c.key.remoteJid == jid && c.key.id == e.key.id
      && c.key.fromMe == env.sameUser(s.sender, env.ownId)
      && c.participant == s.participant && c.key.participant == s.keyParticipant
      && c.pushName == e.pushName && c.stubType == e.stubType && c.stubParameters == e.stubParameters
      && c.message.Some? && |m| > 0
      && Keys(c.message.value) == Keys(m)
      && c.message.value[0].1 == RewriteContent(m[0].1, text, mentions)
      && !Has(c.message.value, MessageContextInfo) && !Has(c.message.value, SenderKeyDistributionMessage)
      && forall k {:trigger Get(e.message.value, k)} :: k != m[0].0 && !IsWrapperKey(k) ==>
           Get(c.message.value, k) == Get(e.message.value, k)
  {
    match e.message
    case None => Err(TypeError("copy.message"))
    case Some(m0) =>
      var m := StripWrappers(m0);
      StrippedEmpty(m0);
      if |m| == 0 then
        Err(TypeError("content"))
      else
        var mtype := m[0].0;
        var m2 := Set(m, mtype, RewriteContent(m[0].1, text, mentions));
        IndexOfAt(m, mtype, 0);
        assert m2 == m[0 := (mtype, RewriteContent(m[0].1, text, mentions))];
        var s := ResolveSenders(e, sender.GetOr(OwnJid(env)));
        Ok(Envelope(MsgKey(jid, env.sameUser(s.sender, env.ownId), e.key.id, s.keyParticipant),
                    Some(m2), s.participant, e.pushName, e.stubType, e.stubParameters))
  }

  /** Rewriting the text twice is rewriting it once. */
  lemma RewriteContentIdempotent(c: Content, text: string, mentions: Option<seq<string>>)
    ensures RewriteContent(RewriteContent(c, text, mentions), text, mentions) == RewriteContent(c, text, mentions)
  {
    var r := RewriteContent(c, text, mentions);
    assert RewriteText(r, text) == r;
    if c.Rec? {
      var w := WithMentions(c.contextInfo, mentions);
      assert WithMentions(Some(w), mentions) == w;
    }
  }

  /** Forwarding the forwarded copy again, to the same chat with the same
      text, mentions and a non-empty sender, gives the same copy. */
  lemma CModIdempotent(env: Env, jid: string, e: Envelope, text: string, sender: string,
                       mentions: Option<seq<string>>)
    requires sender != ""
    requires CMod(env, jid, e, text, Some(sender), mentions).Ok?
    ensures var c := CMod(env, jid, e, text, Some(sender), mentions).value;
            CMod(env, jid, c, text, Some(sender), mentions) == Ok(c)
  {
    var c := CMod(env, jid, e, text, Some(sender), mentions).value;
    var m := StripWrappers(e.message.value);
    var m2 := c.message.value;
    StripWrappersStripped(m2);
    StrippedEmpty(m2);
    assert m2[0].0 == m[0].0;
    RewriteContentIdempotent(m[0].1, text, mentions);
    IndexOfAt(m2, m2[0].0, 0);
    SetSame(m2, m2[0].0, RewriteContent(m2[0].1, text, mentions));
    var s1 := ResolveSenders(e, sender);
    var s2 := ResolveSenders(c, sender);
    assert s2 == s1;
  }
}

=== FILE: helpers.dfy ===
/** The small pure helpers of lib/simple.js: `parseMention` (1073-1075),
    `exports.logic` (1602-1606), `msToDate` (250-260), `toTimeString`
    (1666-1678), `capitalize` and `capitalizeV2` (1646-1655) and `filter`
    (216-230). Durations are whole non-negative milliseconds. */
module Helpers {
  import opened Wrappers
  import opened Strings
  import opened Jid

  // ---------------------------------------------------------------------
  // parseMention

  /** The number part of a mention `/@([0-9]{5,16}|0)/`. */
  predicate IsMentionNumber(d: string) {
    AllDigits(d) && (5 <= |d| <= 16 || d == "0")
  }

  /** The number `d` follows an `@` somewhere in `s`. */
  ghost predicate MentionIn(s: string, d: string) {
    exists j :: 0 <= j && j + 1 + |d| <= |s| && s[j] == '@' && s[j + 1..j + 1 + |d|] == d
  }

  /** The number of the match at an `@` at position `i`, if any: the greedy run
      of 5 to 16 digits, else a single `0`. */
  function MentionAt(s: string, i: nat): (d: Option<string>)
    requires i < |s| && s[i] == '@'
    ensures d.Some? ==> IsMentionNumber(d.value) && i + 1 + |d.value| <= |s|
                        && s[i + 1..i + 1 + |d.value|] == d.value
    ensures d.None? <==> DigitRunEnd(s, i + 1) - (i + 1) < 5 && !(i + 1 < |s| && s[i + 1] == '0')
    ensures d.Some? && |d.value| >= 5 ==>
      |d.value| == 16 || i + 1 + |d.value| == |s| || !IsDigit(s[i + 1 + |d.value|])
    ensures d.Some? && |d.value| < 5 ==> d.value == "0" && DigitRunEnd(s, i + 1) - (i + 1) < 5
  {
    var e := DigitRunEnd(s, i + 1);
    if e - (i + 1) >= 5 then
      var n := if e - (i + 1) > 16 then 16 else e - (i + 1);
      var d := s[i + 1..i + 1 + n];
      assert AllDigits(d) by {
        forall k | 0 <= k < |d| ensures IsDigit(d[k]) {
          assert d[k] == s[i + 1..e][k];
        }
      }
      Some(d)
    else if i + 1 < |s| && s[i + 1] == '0' then
      assert s[i + 1..i + 2] == "0";
      Some("0")
    else None
  }

  /** A mention as `parseMention` returns it: a mention number followed by
      the user server, the number following an `@` in `s`. */
  ghost predicate IsMentionOf(s: string, x: string) {
    |x| > |UserServer| && EndsWith(x, UserServer)
    && IsMentionNumber(x[..|x| - |UserServer|]) && MentionIn(s, x[..|x| - |UserServer|])
  }

  /** The global scan from position `i`: left to right, each match resuming
      after the previous one. */
  function MentionsFrom(s: string, i: nat): (r: seq<string>)
    requires i <= |s|
    ensures forall k :: 0 <= k < |r| ==> IsMentionOf(s, r[k])
    decreases |s| - i
  {
    if i == |s| then []
    else if s[i] == '@' && MentionAt(s, i).Some? then
      var d := MentionAt(s, i).value;
      var rest := MentionsFrom(s, i + 1 + |d|);
      var x := d + UserServer;
      assert x[..|x| - |UserServer|] == d;
      assert IsMentionOf(s, x) by {
        assert MentionIn(s, d);
      }
      [x] + rest
    else MentionsFrom(s, i + 1)
  }

  /** No `@` from `i` on, no mention. */
  lemma {:induction false} MentionsFromNone(s: string, i: nat)
    requires i <= |s| && forall j :: i <= j < |s| ==> s[j] != '@'
    ensures MentionsFrom(s, i) == []
    decreases |s| - i
  {
    if i < |s| {
      MentionsFromNone(s, i + 1);
    }
  }

  /** The matches by position: every `@` from `i` on at which the pattern
      matches contributes its number, in the order of the text. */
  function MentionsAt(s: string, i: nat): seq<string>
    requires i <= |s|
    decreases |s| - i
  {
    if i == |s| then []
    else (if s[i] == '@' && MentionAt(s, i).Some? then [MentionAt(s, i).value + UserServer] else [])
         + MentionsAt(s, i + 1)
  }

  /** A stretch without `@` contributes nothing. */
  lemma {:induction false} MentionsAtSkip(s: string, i: nat, k: nat)
    requires i <= k <= |s| && forall j :: i <= j < k ==> s[j] != '@'
    ensures MentionsAt(s, i) == MentionsAt(s, k)
    decreases k - i
  {
    if i < k {
      MentionsAtSkip(s, i + 1, k);
    }
  }

  /** The digits of a match hold no `@`. */
  lemma MatchHoldsNoAt(s: string, i: nat)
    requires i < |s| && s[i] == '@' && MentionAt(s, i).Some?
    ensures forall j :: i + 1 <= j < i + 1 + |MentionAt(s, i).value| ==> s[j] != '@'
  {
    var d := MentionAt(s, i).value;
    forall j | i + 1 <= j < i + 1 + |d| ensures s[j] != '@' {
      assert s[j] == s[i + 1..i + 1 + |d|][j - i - 1];
      assert IsDigit(d[j - i - 1]);
    }
  }

  /** One step of both scans at a position where the pattern matches: the
      match is taken, the global scan resumes after it, the positional one at
      the next character. */
  lemma MentionsStepMatch(s: string, i: nat)
    requires i < |s| && s[i] == '@' && MentionAt(s, i).Some?
    ensures var d := MentionAt(s, i).value;
      && MentionsFrom(s, i) == [d + UserServer] + MentionsFrom(s, i + 1 + |d|)
      && MentionsAt(s, i) == [d + UserServer] + MentionsAt(s, i + 1)
  {
  }

  /** One step of both scans at a position where the pattern does not match:
      both move on to the next character. */
  lemma MentionsStepSkip(s: string, i: nat)
    requires i < |s| && !(s[i] == '@' && MentionAt(s, i).Some?)
    ensures MentionsFrom(s, i) == MentionsFrom(s, i + 1)
    ensures MentionsAt(s, i) == MentionsAt(s, i + 1)
  {
    assert MentionsAt(s, i) == [] + MentionsAt(s, i + 1);
  }

  /** The global scan misses no match: a match is an `@` and digits, so
      resuming after it skips no other `@`. */
  lemma {:induction false} MentionsFromComplete(s: string, i: nat)
    requires i <= |s|
    ensures MentionsFrom(s, i) == MentionsAt(s, i)
    decreases |s| - i
  {
    if i == |s| {
      assert MentionsFrom(s, i) == [] == MentionsAt(s, i);
    } else if s[i] == '@' && MentionAt(s, i).Some? {
      var n := 1 + |MentionAt(s, i).value|;
      MentionsStepMatch(s, i);
      MentionsFromComplete(s, i + n);
      MatchHoldsNoAt(s, i);
      MentionsAtSkip(s, i + 1, i + n);
    } else {
      MentionsStepSkip(s, i);
      MentionsFromComplete(s, i + 1);
    }
  }

  /** `conn.parseMention(text)`: every mention number, as a user id, in order.
      Each one is 5 to 16 digits or `0` and follows an `@` in the text; every
      `@` at which the pattern matches contributes, in the order of the text;
      a text without `@` mentions no one. */
  function ParseMention(text: string): (r: seq<string>)
    ensures forall k :: 0 <= k < |r| ==> IsMentionOf(text, r[k])
    ensures r == MentionsAt(text, 0)
    ensures '@' !in text ==> r == []
  {
    MentionsFromComplete(text, 0);
    if '@' !in text then
      MentionsFromNone(text, 0);
      MentionsFrom(text, 0)
    else MentionsFrom(text, 0)
  }

  /** The two matches of "@62812 @0": a five-digit number and the `0`
      alternative. */
  lemma SampleMatches()
    ensures MentionAt("@62812 @0", 0) == Some("62812")
    ensures MentionAt("@62812 @0", 7) == Some("0")
  {
    var s1 := "@62812 @0";
    assert DigitRunEnd(s1, 6) == 6;
    assert DigitRunEnd(s1, 1) == 6;
    assert s1[1..6] == "62812";
    assert DigitRunEnd(s1, 8) == 9;
  }

  /** The matches of "@62812 @0" by position. */
  lemma SampleMentionsAt()
    ensures MentionsAt("@62812 @0", 0) == ["62812" + UserServer, "0" + UserServer]
  {
    var s1 := "@62812 @0";
    SampleMatches();
    assert MentionsAt(s1, 8) == [];
    assert MentionsAt(s1, 7) == ["0" + UserServer];
    MentionsAtSkip(s1, 1, 7);
  }

  /** Two mentions, the second the `0` alternative, in the order of the text. */
  lemma ParseMentionExamples()
    ensures ParseMention("@62812 @0") == ["62812@s.whatsapp.net", "0@s.whatsapp.net"]
  {
    assert "62812" + UserServer == "62812@s.whatsapp.net";
    assert "0" + UserServer == "0@s.whatsapp.net";
    SampleMentionsAt();
  }

  /** Four digits are too few for a number, and are not the `0` alternative. */
  lemma ParseMentionTooShort()
    ensures ParseMention("@1234") == []
  {
    var s2 := "@1234";
    assert DigitRunEnd(s2, 5) == 5;
    assert DigitRunEnd(s2, 1) == 5;
    assert MentionAt(s2, 0) == None;
    MentionsFromNone(s2, 1);
  }

  // ---------------------------------------------------------------------
  // logic

  /** The first index holding `x`, if any. */
  function FirstIndexOf<T(==)>(xs: seq<T>, x: T): (r: Option<nat>)
    ensures r.Some? ==> r.value < |xs| && xs[r.value] == x && forall j :: 0 <= j < r.value ==> xs[j] != x
    ensures r.None? ==> x !in xs
  {
    if |xs| == 0 then None
    else if xs[0] == x then Some(0)
    else match FirstIndexOf(xs[1..], x)
      case None => None
      case Some(i) => Some(i + 1)
  }

  /** `exports.logic(check, inp, out)`: the output paired with the first input
      equal to `check`, nothing when there is none, and an error when the two
      lists differ in length. Deep equality is Dafny equality. */
  method Logic<T(==), U>(check: T, inp: seq<T>, out: seq<U>) returns (r: Result<Option<U>, Failure>)
    ensures |inp| != |out| <==> r == Err(InputOutputMismatch)
    ensures r.Ok? ==> (r.value.None? <==> check !in inp)
    ensures r.Ok? && r.value.Some? ==>
      exists i :: 0 <= i < |inp| && inp[i] == check && r.value.value == out[i]
                  && forall j :: 0 <= j < i ==> inp[j] != check
    ensures r.Ok? ==> r.value == (match FirstIndexOf(inp, check) case None => None case Some(i) => Some(out[i]))
  {
    if |inp| != |out| {
      return Err(InputOutputMismatch);
    }
    var i := 0;
    while i < |inp|
      invariant 0 <= i <= |inp|
      invariant forall j :: 0 <= j < i ==> inp[j] != check
    {
      if inp[i] == check {
        assert FirstIndexOf(inp, check) == Some(i);
        return Ok(Some(out[i]));
      }
      i := i + 1;
    }
    return Ok(None);
  }

  // ---------------------------------------------------------------------
  // msToDate and toTimeString

  const MsPerSecond: nat := 1000
  const MsPerMinute: nat := 60 * 1000
  const MsPerHour: nat := 60 * 60 * 1000
  const MsPerDay: nat := 24 * 60 * 60 * 1000

  /** The four units `toTimeString` shows: whole days, and the hours, minutes
      and seconds within them. */
  datatype TimeUnits = TimeUnits(days: nat, hours: nat, minutes: nat, seconds: nat)

  function UnitsOf(ms: nat): TimeUnits {
    TimeUnits(ms / MsPerDay, ms / MsPerHour % 24, ms / MsPerMinute % 60, ms / MsPerSecond % 60)
  }

  /** The units recompose the duration down to the second, each within its
      range. */
  lemma UnitsRecompose(ms: nat)
    ensures var u := UnitsOf(ms);
      && u.hours < 24 && u.minutes < 60 && u.seconds < 60
      && u.days * MsPerDay + u.hours * MsPerHour + u.minutes * MsPerMinute + u.seconds * MsPerSecond + ms % 1000 == ms
  {
    var s := ms / 1000;
    assert ms == s * 1000 + ms % 1000;
    var mi := s / 60;
    assert s == mi * 60 + s % 60;
    var hr := mi / 60;
    assert mi == hr * 60 + mi % 60;
    var dy := hr / 24;
    assert hr == dy * 24 + hr % 24;
    assert ms / MsPerMinute == mi;
    assert ms / MsPerHour == hr;
    assert ms / MsPerDay == dy;
  }

  /** `conn.msToDate(ms)`: whole days, the hours within the day and the
      minutes within the hour, in Indonesian ("Hari", "Jam", "Menit"). */
  function MsToDate(ms: nat): (r: string)
    ensures r == NatToString(UnitsOf(ms).days) + " Hari " + NatToString(UnitsOf(ms).hours) + " Jam "
                 + NatToString(UnitsOf(ms).minutes) + " Menit"
  {
    MsToDateUnits(ms);
    var days := ms / MsPerDay;
    var hours := (ms % MsPerDay) / MsPerHour;
    var minutes := (ms % MsPerHour) / MsPerMinute;
    NatToString(days) + " Hari " + NatToString(hours) + " Jam " + NatToString(minutes) + " Menit"
  }

  /** A part prepended to a non-empty list joins in front of a separator. */
  lemma JoinCons(p: string, rest: seq<string>, c: char)
    requires |rest| >= 1
    ensures Join([p] + rest, c) == p + [c] + Join(rest, c)
  {
    assert ([p] + rest)[1..] == rest;
  }

  /** A numeral holds no space. */
  lemma NumeralNoSpace(n: nat)
    ensures ' ' !in NatToString(n)
  {
    var d := NatToString(n);
    forall k | 0 <= k < |d| ensures d[k] != ' ' {
      assert IsDigit(d[k]);
    }
  }

  /** The `msToDate` sentence is its six words joined by spaces. */
  lemma MsToDateJoin(x: string, y: string, z: string)
    ensures Join([x, "Hari", y, "Jam", z, "Menit"], ' ') == x + " Hari " + y + " Jam " + z + " Menit"
  {
    var p5: seq<string> := ["Menit"];
    var p4 := [z] + p5;
    var p3 := ["Jam"] + p4;
    var p2 := [y] + p3;
    var p1 := ["Hari"] + p2;
    var p0 := [x] + p1;
    JoinCons(z, p5, ' ');
    JoinCons("Jam", p4, ' ');
    JoinCons(y, p3, ' ');
    JoinCons("Hari", p2, ' ');
    JoinCons(x, p1, ' ');
    assert p0 == [x, "Hari", y, "Jam", z, "Menit"];
  }

  /** The words of `msToDate`: the three numbers and their units. */
  lemma {:induction false} MsToDateWords(d: nat, h: nat, m: nat)
    ensures Split(NatToString(d) + " Hari " + NatToString(h) + " Jam " + NatToString(m) + " Menit", ' ')
            == [NatToString(d), "Hari", NatToString(h), "Jam", NatToString(m), "Menit"]
  {
    var x, y, z := NatToString(d), NatToString(h), NatToString(m);
    NumeralNoSpace(d);
    NumeralNoSpace(h);
    NumeralNoSpace(m);
    var p0 := [x, "Hari", y, "Jam", z, "Menit"];
    MsToDateJoin(x, y, z);
    SplitJoin(p0, ' ');
  }

  /** The hours and minutes `msToDate` computes are those of `UnitsOf`. */
  lemma MsToDateUnits(ms: nat)
    ensures ms / MsPerDay == UnitsOf(ms).days
    ensures (ms % MsPerDay) / MsPerHour == UnitsOf(ms).hours
    ensures (ms % MsPerHour) / MsPerMinute == UnitsOf(ms).minutes
  {
    var hr := ms / MsPerHour;
    assert ms == hr * MsPerHour + ms % MsPerHour;
    assert ms / MsPerDay == hr / 24;
    assert ms % MsPerDay == (hr % 24) * MsPerHour + ms % MsPerHour;
    var mi := ms / MsPerMinute;
    assert ms == mi * MsPerMinute + ms % MsPerMinute;
    assert hr == mi / 60;
    assert ms % MsPerHour == (mi % 60) * MsPerMinute + ms % MsPerMinute;
  }

  /** The milliseconds within the minute are the seconds and the rest. */
  lemma WithinMinute(ms: nat)
    ensures ms % MsPerMinute == UnitsOf(ms).seconds * MsPerSecond + ms % 1000
  {
    var s := ms / 1000;
    assert ms == s * 1000 + ms % 1000;
    assert ms / MsPerMinute == s / 60;
    assert ms == (s / 60) * MsPerMinute + (s % 60) * 1000 + ms % 1000;
  }

  /** `msToDate` can be read back: its words are the three numbers and their
      units, the hours are under 24 and the minutes under 60, and the numbers
      give back the duration to the minute. */
  lemma {:induction false} MsToDateParse(ms: nat)
    ensures var parts := Split(MsToDate(ms), ' ');
      && |parts| == 6
      && parts[1] == "Hari" && parts[3] == "Jam" && parts[5] == "Menit"
      && AllDigits(parts[0]) && AllDigits(parts[2]) && AllDigits(parts[4])
      && DigitsValue(parts[2]) < 24 && DigitsValue(parts[4]) < 60
      && DigitsValue(parts[0]) * MsPerDay + DigitsValue(parts[2]) * MsPerHour + DigitsValue(parts[4]) * MsPerMinute
         == ms - ms % MsPerMinute
  {
    var u := UnitsOf(ms);
    MsToDateUnits(ms);
    assert MsToDate(ms) == NatToString(u.days) + " Hari " + NatToString(u.hours) + " Jam " + NatToString(u.minutes) + " Menit";
    MsToDateWords(u.days, u.hours, u.minutes);
    var parts := Split(MsToDate(ms), ' ');
    assert parts == [NatToString(u.days), "Hari", NatToString(u.hours), "Jam", NatToString(u.minutes), "Menit"];
    NatToStringRoundTrip(u.days);
    NatToStringRoundTrip(u.hours);
    NatToStringRoundTrip(u.minutes);
    UnitsRecompose(ms);
    WithinMinute(ms);
  }

  /** `"${n} ${unit} "` when `n` is non-zero, else nothing. */
  function UnitText(n: nat, unit: string, tail: string): string {
    if n != 0 then NatToString(n) + " " + unit + tail else ""
  }

  /** `ms.toTimeString()`: the non-zero units, largest first, trimmed. */
  function ToTimeString(ms: nat): (r: string)
    ensures IsTrimmed(r)
  {
    var u := UnitsOf(ms);
    var raw := UnitText(u.days, "day(s)", " ") + UnitText(u.hours, "hour(s)", " ")
             + UnitText(u.minutes, "minute(s)", " ") + UnitText(u.seconds, "second(s)", "");
    TrimSpec(raw);
    Trim(raw)
  }

  /** A string with a non-space character does not trim to nothing. */
  lemma TrimKeepsNonSpace(s: string, k: nat)
    requires k < |s| && !IsJsSpace(s[k])
    ensures Trim(s) != ""
  {
    var e := TrimEnd(s);
    assert |e| > k;
    assert |TrimStart(e)| > 0;
  }

  /** Under a second there is nothing to show; from a second on there is. */
  lemma {:induction false} ToTimeStringEmpty(ms: nat)
    ensures ToTimeString(ms) == "" <==> ms < 1000
  {
    var u := UnitsOf(ms);
    UnitsRecompose(ms);
    var a := UnitText(u.days, "day(s)", " ");
    var b := UnitText(u.hours, "hour(s)", " ");
    var c := UnitText(u.minutes, "minute(s)", " ");
    var d := UnitText(u.seconds, "second(s)", "");
    var raw := a + b + c + d;
    if ms >= 1000 {
      assert u.days != 0 || u.hours != 0 || u.minutes != 0 || u.seconds != 0;
      // Some unit is shown, and every shown unit starts with a digit.
      var k: nat := if u.days != 0 then 0 else if u.hours != 0 then |a|
                    else if u.minutes != 0 then |a| + |b| else |a| + |b| + |c|;
      assert k < |raw| && IsDigit(raw[k]) by {
        if u.days != 0 { assert raw[0] == NatToString(u.days)[0]; }
        else if u.hours != 0 { assert raw[k] == NatToString(u.hours)[0]; }
        else if u.minutes != 0 { assert raw[k] == NatToString(u.minutes)[0]; }
        else { assert raw[k] == NatToString(u.seconds)[0]; }
      }
      TrimKeepsNonSpace(raw, k);
    } else {
      assert u == TimeUnits(0, 0, 0, 0);
      assert raw == "";
    }
  }

  // ---------------------------------------------------------------------
  // capitalize and capitalizeV2

  /** `s.capitalize()`: the first character upper-cased, the rest kept. */
  function Capitalize(s: string): (r: string)
    ensures |r| == |s|
    ensures |s| > 0 ==> r[0] == AsciiUpper(s[0]) && r[1..] == s[1..]
  {
    if |s| == 0 then "" else [AsciiUpper(s[0])] + s[1..]
  }

  /** Capitalising twice is capitalising once. */
  lemma CapitalizeIdempotent(s: string)
    ensures Capitalize(Capitalize(s)) == Capitalize(s)
  {
    if |s| > 0 {
      var r := Capitalize(s);
      assert AsciiUpper(r[0]) == r[0];
      assert r == [r[0]] + r[1..];
    }
  }

  /** Reference for `capitalizeV2`, one character at a time: a character is
      upper-cased when it starts the string (`atStart`) or follows a space. */
  function CapitalizeFrom(s: string, atStart: bool): (r: string)
    ensures |r| == |s|
    ensures forall i :: 0 <= i < |s| ==>
      r[i] == (if (i == 0 && atStart) || (i > 0 && s[i - 1] == ' ') then AsciiUpper(s[i]) else s[i])
  {
    if |s| == 0 then ""
    else
      var rest := CapitalizeFrom(s[1..], s[0] == ' ');
      [if atStart then AsciiUpper(s[0]) else s[0]] + rest
  }

  /** Each word of a list capitalised. */
  function CapitalizeAll(words: seq<string>): (r: seq<string>)
    ensures |r| == |words|
    ensures forall i :: 0 <= i < |words| ==> r[i] == Capitalize(words[i])
  {
    if |words| == 0 then [] else [Capitalize(words[0])] + CapitalizeAll(words[1..])
  }

  /** `s.capitalizeV2()`: split on single spaces, capitalise every piece,
      join them back with single spaces. */
  function CapitalizeV2(s: string): (r: string)
    ensures r == CapitalizeFrom(s, true)
  {
    CapitalizeJoin(Split(s, ' '));
    JoinSplit(s, ' ');
    Join(CapitalizeAll(Split(s, ' ')), ' ')
  }

  /** The reference run over a concatenation: the second part starts where
      the first left off. */
  lemma {:induction false} CapitalizeFromAppend(a: string, b: string, atStart: bool)
    ensures CapitalizeFrom(a + b, atStart)
         == CapitalizeFrom(a, atStart) + CapitalizeFrom(b, if |a| == 0 then atStart else a[|a| - 1] == ' ')
  {
    var l := CapitalizeFrom(a + b, atStart);
    var r := CapitalizeFrom(a, atStart) + CapitalizeFrom(b, if |a| == 0 then atStart else a[|a| - 1] == ' ');
    assert |l| == |r|;
    forall i | 0 <= i < |l| ensures l[i] == r[i] {
      if i >= |a| {
        assert (a + b)[i] == b[i - |a|];
        if i > |a| { assert (a + b)[i - 1] == b[i - |a| - 1]; }
        else if i > 0 { assert (a + b)[i - 1] == a[|a| - 1]; }
      } else {
        assert (a + b)[i] == a[i];
        if i > 0 { assert (a + b)[i - 1] == a[i - 1]; }
      }
    }
  }

  /** A word with no space in it, run from the start, is capitalised. */
  lemma CapitalizeFromWord(w: string)
    requires ' ' !in w
    ensures CapitalizeFrom(w, true) == Capitalize(w)
  {
    var l := CapitalizeFrom(w, true);
    if |w| > 0 {
      forall i | 1 <= i < |w| ensures l[i] == w[i] {
        assert w[i - 1] != ' ';
      }
      assert l == [l[0]] + l[1..];
    }
  }

  /** Capitalising space-free words and joining them is the reference run over
      the joined text. */
  lemma {:induction false} CapitalizeJoin(words: seq<string>)
    requires |words| >= 1
    requires forall i :: 0 <= i < |words| ==> ' ' !in words[i]
    ensures Join(CapitalizeAll(words), ' ') == CapitalizeFrom(Join(words, ' '), true)
  {
    CapitalizeFromWord(words[0]);
    if |words| > 1 {
      var w := words[0];
      var rest := words[1..];
      CapitalizeJoin(rest);
      assert CapitalizeAll(words)[1..] == CapitalizeAll(rest);
      CapitalizeFromAppend(w + " ", Join(rest, ' '), true);
      CapitalizeFromAppend(w, " ", true);
      assert CapitalizeFrom(" ", if |w| == 0 then true else w[|w| - 1] == ' ') == " ";
    }
  }

  /** `capitalizeV2` keeps the length and every character, except that the
      first one and each one after a space are upper-cased. */
  lemma CapitalizeV2Spec(s: string)
    ensures CapitalizeV2(s) == CapitalizeFrom(s, true)
    ensures |CapitalizeV2(s)| == |s|
    ensures forall i :: 0 <= i < |s| ==>
      CapitalizeV2(s)[i] == (if i == 0 || s[i - 1] == ' ' then AsciiUpper(s[i]) else s[i])
  {
    CapitalizeJoin(Split(s, ' '));
    JoinSplit(s, ' ');
  }

  // ---------------------------------------------------------------------
  // filter

  /** The consonants of `mati` (lower case only, as the array holds them). */
  predicate IsConsonant(c: char) {
    c in "qwrtypsdfghjklzxcvbnm"
  }

  /** The regular expression's `[aiueo]` under the `i` flag. */
  predicate IsVowelCi(c: char) {
    c in "aiueoAIUEO"
  }

  /** The regular expression's consonant class under the `i` flag. */
  predicate IsConsonantCi(c: char) {
    IsConsonant(c) || c in "QWRTYPSDFGHJKLZXCVBNM"
  }

  /** `/[aiueo][aiueo]([qwrtypsdfghjklzxcvbnm])?$/i.test(text)`: the text ends
      in two vowels, optionally followed by one consonant. */
  predicate EndsInVowelPair(t: string) {
    (|t| >= 2 && IsVowelCi(t[|t| - 2]) && IsVowelCi(t[|t| - 1]))
    || (|t| >= 3 && IsVowelCi(t[|t| - 3]) && IsVowelCi(t[|t| - 2]) && IsConsonantCi(t[|t| - 1]))
  }

  /** `Array.from(text).filter(v => mati.includes(v))`. */
  function Consonants(t: string): string {
    if |t| == 0 then ""
    else if IsConsonant(t[0]) then [t[0]] + Consonants(t[1..])
    else Consonants(t[1..])
  }

  /** Every filtered character is a consonant of the text, and every
      consonant of the text is among them (order and multiplicity:
      ConsonantsAppend). */
  lemma {:induction false} ConsonantsSpec(t: string)
    ensures forall k :: 0 <= k < |Consonants(t)| ==> IsConsonant(Consonants(t)[k]) && Consonants(t)[k] in t
    ensures forall k :: 0 <= k < |t| && IsConsonant(t[k]) ==> t[k] in Consonants(t)
  {
    if |t| > 0 {
      ConsonantsSpec(t[1..]);
      forall k | 0 <= k < |t| && IsConsonant(t[k]) ensures t[k] in Consonants(t) {
        if k > 0 { assert t[k] == t[1..][k - 1]; }
      }
    }
  }

  /** Filtering distributes over concatenation: the consonants of a text are
      those of its parts, in order and with multiplicity. */
  lemma {:induction false} ConsonantsAppend(a: string, b: string)
    ensures Consonants(a + b) == Consonants(a) + Consonants(b)
    decreases |a|
  {
    if |a| > 0 {
      assert (a + b)[0] == a[0];
      assert (a + b)[1..] == a[1..] + b;
      ConsonantsAppend(a[1..], b);
    } else {
      assert a + b == b;
    }
  }

  /** A single character is kept exactly when it is a consonant. */
  lemma ConsonantsSingle(c: char)
    ensures Consonants([c]) == if IsConsonant(c) then [c] else []
  {
    assert [c][1..] == [];
  }

  /** The position of the last consonant of `s`, scanning from the end. */
  function LastConsonantIndex(s: string): (r: Option<nat>)
    ensures r.Some? ==> r.value < |s| && IsConsonant(s[r.value])
                        && forall j :: r.value < j < |s| ==> !IsConsonant(s[j])
    ensures r.None? ==> forall j :: 0 <= j < |s| ==> !IsConsonant(s[j])
  {
    if |s| == 0 then None
    else if IsConsonant(s[|s| - 1]) then Some(|s| - 1)
    else LastConsonantIndex(s[..|s| - 1])
  }

  /** The last filtered character is the last consonant by position, and
      there is one exactly when the text has a consonant. */
  lemma {:induction false} ConsonantsLast(s: string)
    ensures |Consonants(s)| > 0 <==> LastConsonantIndex(s).Some?
    ensures |Consonants(s)| > 0 ==> Consonants(s)[|Consonants(s)| - 1] == s[LastConsonantIndex(s).value]
    decreases |s|
  {
    if |s| > 0 {
      var init := s[..|s| - 1];
      assert s == init + [s[|s| - 1]];
      ConsonantsAppend(init, [s[|s| - 1]]);
      ConsonantsSingle(s[|s| - 1]);
      ConsonantsLast(init);
    }
  }

  /** What the choice looks at: the text without its final letter when that
      letter is one of `mati`, else the whole text. */
  function Stem(t: string): string {
    if |t| > 0 && IsConsonant(t[|t| - 1]) then t[..|t| - 1] else t
  }

  /** The filtered characters of the text are those of its stem, followed by
      the final letter when that letter is a consonant. */
  lemma {:induction false} StemConsonants(t: string)
    ensures |t| > 0 && IsConsonant(t[|t| - 1]) ==> Consonants(t) == Consonants(Stem(t)) + [t[|t| - 1]]
    ensures !(|t| > 0 && IsConsonant(t[|t| - 1])) ==> Consonants(t) == Consonants(Stem(t))
  {
    if |t| > 0 && IsConsonant(t[|t| - 1]) {
      var init := t[..|t| - 1];
      var last := t[|t| - 1];
      assert Stem(t) == init;
      assert t == init + [last];
      ConsonantsSingle(last);
      ConsonantsAppend(init, [last]);
    } else {
      assert Stem(t) == t;
    }
  }

  /** `resu`: the last consonant, or the one before it when the text itself
      ends in a consonant; `None` (JavaScript's `undefined`) when there are
      too few. That is the last consonant of the stem, by position. */
  function ChosenConsonant(t: string): (c: Option<char>)
    ensures c.None? <==> LastConsonantIndex(Stem(t)).None?
    ensures c.Some? ==> c.value == Stem(t)[LastConsonantIndex(Stem(t)).value]
    ensures c.Some? ==> IsConsonant(c.value) && c.value in t
  {
    StemConsonants(t);
    ConsonantsLast(Stem(t));
    var res := Consonants(t);
    var r := if |t| > 0 && IsConsonant(t[|t| - 1]) then
      if |res| >= 2 then Some(res[|res| - 2]) else None
    else if |res| >= 1 then Some(res[|res| - 1]) else None;
    assert r.Some? ==> r.value in t by {
      if r.Some? {
        var i := LastConsonantIndex(Stem(t)).value;
        assert Stem(t)[i] == t[i];
      }
    }
    r
  }

  /** The position of the last occurrence of `c`. */
  function LastIndexOf(t: string, c: char): (r: Option<nat>)
    ensures r.Some? ==> r.value < |t| && t[r.value] == c && c !in t[r.value + 1..]
    ensures r.None? <==> c !in t
  {
    if |t| == 0 then None
    else match LastIndexOf(t[1..], c)
      case Some(i) => Some(i + 1)
      case None => if t[0] == c then Some(0) else None
  }

  /** The last piece of a split is what follows the last separator, or the
      whole string when there is none. */
  lemma {:induction false} SplitLast(t: string, c: char)
    ensures var parts := Split(t, c);
      parts[|parts| - 1] == (match LastIndexOf(t, c) case None => t case Some(i) => t[i + 1..])
  {
    if |t| > 0 {
      SplitLast(t[1..], c);
      var rest := Split(t[1..], c);
      var parts := Split(t, c);
      match LastIndexOf(t[1..], c)
      case None =>
        SplitNone(t[1..], c);
        if t[0] == c {
          assert parts == [""] + rest;
        } else {
          assert parts == [[t[0]] + t[1..]];
          assert [t[0]] + t[1..] == t;
        }
      case Some(j) =>
        assert LastIndexOf(t, c) == Some(j + 1);
        assert t[1..][j + 1..] == t[j + 2..];
        if t[0] == c {
          assert parts == [""] + rest;
        } else {
          SplitMany(t[1..], c);
          assert parts[|parts| - 1] == rest[|rest| - 1];
        }
    }
  }

  /** A string holding the separator splits into more than one piece. */
  lemma SplitMany(t: string, c: char)
    requires c in t
    ensures |Split(t, c)| >= 2
  {
    JoinSplit(t, c);
  }

  /** `conn.filter(text)`: the final syllable. A text ending in two vowels and
      an optional consonant yields its last character; otherwise the text
      from the last occurrence of the chosen consonant on, which the source
      computes as that consonant followed by the last piece of the text split
      on it. Without a chosen consonant the source concatenates the string
      `"undefined"` with the text. */
  function Filter(t: string): (r: string)
    ensures EndsInVowelPair(t) ==> r == t[|t| - 1..]
    ensures !EndsInVowelPair(t) && ChosenConsonant(t).None? ==> r == "undefined" + t
    ensures !EndsInVowelPair(t) && ChosenConsonant(t).Some? ==>
      var c := ChosenConsonant(t).value;
      && 0 < |r| <= |t| && EndsWith(t, r) && r[0] == c && c !in r[1..]
  {
    if EndsInVowelPair(t) then t[|t| - 1..]
    else match ChosenConsonant(t)
      case None => "undefined" + t
      case Some(c) =>
        var pieces := Split(t, c);
        LastPieceSuffix(t, c);
        [c] + pieces[|pieces| - 1]
  }

  /** `c + misah[misah.length - 1]` for a character `c` of the text: the
      suffix that starts at the last occurrence of `c`. */
  lemma LastPieceSuffix(t: string, c: char)
    requires c in t
    ensures var pieces := Split(t, c);
      var r := [c] + pieces[|pieces| - 1];
      && 0 < |r| <= |t| && EndsWith(t, r) && r[0] == c && c !in r[1..]
  {
    var pieces := Split(t, c);
    SplitLast(t, c);
    var i := LastIndexOf(t, c).value;
    var last := pieces[|pieces| - 1];
    assert last == t[i + 1..];
    assert t[i..] == [t[i]] + t[i + 1..];
    var r := [c] + last;
    assert r == t[i..];
    assert r[1..] == t[i + 1..];
    assert |t| - |r| == i;
  }

  /** "kucing" ends in a consonant, so the one before it is chosen. */
  lemma FilterKucing()
    ensures Filter("kucing") == "ng"
  {
    var t := "kucing";
    assert !EndsInVowelPair(t);
    KucingConsonants();
    assert ChosenConsonant(t) == Some('n');
    assert 'n' !in t[5..];
    assert Filter(t) == t[4..];
  }

  /** The consonants of "kucing", in order: the filter picks from these. */
  lemma KucingConsonants()
    ensures Consonants("kucing") == "kcng"
  {
    var t := "kucing";
    assert Consonants(t[5..]) == "g";
    assert Consonants(t[4..]) == "ng";
    assert Consonants(t[3..]) == "ng";
    assert Consonants(t[2..]) == "cng";
    assert !IsConsonant('u') && t[1..][1..] == t[2..];
    assert Consonants(t[1..]) == "cng";
    assert t[0] == 'k' && IsConsonant('k');
    assert Consonants(t) == ['k'] + Consonants(t[1..]);
    assert Consonants(t) == "kcng";
  }

  /** "sapi" has one consonant before its final vowel. */
  lemma FilterSapi()
    ensures Filter("sapi") == "pi"
  {
    var t := "sapi";
    assert !EndsInVowelPair(t);
    assert Consonants(t[3..]) == "";
    assert Consonants(t[2..]) == "p";
    assert Consonants(t[1..]) == "p";
    assert Consonants(t) == "sp";
    assert ChosenConsonant(t) == Some('p');
    assert 'p' !in t[3..];
    assert Filter(t) == t[2..];
  }

  /** A vowel pair and a consonant at the end: the last letter; no consonant
      at all: the string "undefined" in front of the text. */
  lemma FilterShortCases()
    ensures Filter("main") == "n"
    ensures Filter("a") == "undefineda"
  {
    assert EndsInVowelPair("main");
    assert !EndsInVowelPair("a");
    assert Consonants("a") == "";
  }
}

=== FILE: jid.dfy ===
/** Identity canonicalisation: `conn.decodeJid` (lib/simple.js:49-55, redefined
    identically at 488-494) and the trimming `String.prototype.decodeJid`
    (lib/simple.js:1656-1661).

    A JID ("user@server") may carry a device suffix ("user:3@server"). The
    transport library's `jidDecode`, `areJidsSameUser` and the phone-number
    formatter are not part of this model: they are uninterpreted function
    fields of `Env`, and every property that needs something of them says so
    in its `requires`. */
module Jid {
  import opened Wrappers
  import opened Strings

  /** The two fields of `jidDecode`'s result this core reads ("" when unset). */
  datatype JidParts = JidParts(user: string, server: string)

  type NonEmptyString = s: string | |s| > 0 witness "0"

  /** The connection: the session's own id and the external collaborators. */
  datatype Env = Env(
    ownId: NonEmptyString,                   // conn.user.id of a connected session
    user: map<string, string>,               // the string properties of conn.user
    jidDecode: string -> Option<JidParts>,   // Baileys jidDecode
    sameUser: (string, string) -> bool,      // Baileys areJidsSameUser
    phoneNumber: string -> string)           // PhoneNumber(x).getNumber('international')

  const StatusBroadcast: string := "status@broadcast"
  const GroupServer: string := "@g.us"
  const UserServer: string := "@s.whatsapp.net"

  predicate IsGroupJid(jid: string) {
    EndsWith(jid, GroupServer)
  }

  /** The regular expression `/:\d+@/` matches `s[i..j+1]`. */
  ghost predicate DeviceSuffixAt(s: string, i: int, j: int) {
    0 <= i && i + 1 < j < |s| && s[i] == ':' && s[j] == '@' && AllDigits(s[i + 1..j])
  }

  /** `/:\d+@/.test(s)`. */
  ghost predicate MatchesDeviceSuffix(s: string) {
    exists i, j :: DeviceSuffixAt(s, i, j)
  }

  /** The end of the run of digits that starts at `k`. */
  function DigitRunEnd(s: string, k: nat): (e: nat)
    requires k <= |s|
    ensures k <= e <= |s|
    ensures AllDigits(s[k..e])
    ensures e < |s| ==> !IsDigit(s[e])
    decreases |s| - k
  {
    if k == |s| || !IsDigit(s[k]) then k
    else
      var e := DigitRunEnd(s, k + 1);
      assert s[k..e] == [s[k]] + s[k + 1..e];
      e
  }

  /** Scans for a device suffix whose colon is at position `i` or later. */
  function DeviceSuffixFrom(s: string, i: nat): bool
    decreases |s| - i
  {
    if i >= |s| then false
    else
      (s[i] == ':' && var e := DigitRunEnd(s, i + 1); i + 1 < e < |s| && s[e] == '@')
      || DeviceSuffixFrom(s, i + 1)
  }

  /** The scan agrees with the regular expression. */
  lemma {:induction false} DeviceSuffixFromSpec(s: string, i: nat)
    ensures DeviceSuffixFrom(s, i) <==> exists a, b :: i <= a && DeviceSuffixAt(s, a, b)
    decreases |s| - i
  {
    if i < |s| {
      DeviceSuffixFromSpec(s, i + 1);
      if s[i] == ':' && i + 1 < |s| {
        var e := DigitRunEnd(s, i + 1);
        if i + 1 < e < |s| && s[e] == '@' {
          assert DeviceSuffixAt(s, i, e);
        }
        forall b | DeviceSuffixAt(s, i, b) ensures b == e {
          forall k | i + 1 <= k < b ensures IsDigit(s[k]) {
            assert s[k] == s[i + 1..b][k - i - 1];
          }
          forall k | i + 1 <= k < e ensures IsDigit(s[k]) {
            assert s[k] == s[i + 1..e][k - i - 1];
          }
        }
      }
    }
  }

  /** `/:\d+@/.test(s)`, computed. */
  function HasDeviceSuffix(s: string): (r: bool)
    ensures r <==> MatchesDeviceSuffix(s)
  {
    DeviceSuffixFromSpec(s, 0);
    DeviceSuffixFrom(s, 0)
  }

  /** `conn.decodeJid(jid)`: an empty id is returned as is; an id with a device
      suffix becomes `user@server` when `jidDecode` yields both parts, and is
      otherwise returned unchanged. */
  function DecodeJid(env: Env, jid: string): (r: string)
    ensures jid == "" ==> r == ""
    ensures !MatchesDeviceSuffix(jid) ==> r == jid
    ensures r != jid ==>
      && MatchesDeviceSuffix(jid)
      && env.jidDecode(jid).Some?
      && env.jidDecode(jid).value.user != ""
      && env.jidDecode(jid).value.server != ""
      && r == env.jidDecode(jid).value.user + "@" + env.jidDecode(jid).value.server
    ensures HasDeviceSuffix(jid) && env.jidDecode(jid).Some?
            && env.jidDecode(jid).value.user != "" && env.jidDecode(jid).value.server != "" ==>
      r == env.jidDecode(jid).value.user + "@" + env.jidDecode(jid).value.server
    ensures HasDeviceSuffix(jid) && (env.jidDecode(jid).None?
            || env.jidDecode(jid).value.user == "" || env.jidDecode(jid).value.server == "") ==>
      r == jid
    ensures jid != "" ==> r != ""
  {
    if jid == "" then jid
    else if HasDeviceSuffix(jid) then
      match env.jidDecode(jid)
      case Some(JidParts(u, s)) => if u != "" && s != "" then u + "@" + s else jid
      case None => jid
    else jid
  }

  /** `conn.user.jid` (lib/simple.js:56). */
  function OwnJid(env: Env): (r: string)
    ensures r != ""
    ensures !MatchesDeviceSuffix(env.ownId) ==> r == env.ownId
  {
    DecodeJid(env, env.ownId)
  }

  /** `user@server` has no device suffix when the user part has no colon and
      the server part no `@`. */
  lemma PlainJidHasNoSuffix(u: string, s: string)
    requires ':' !in u && '@' !in s
    ensures !MatchesDeviceSuffix(u + "@" + s)
  {
    var x := u + "@" + s;
    forall i, j | 0 <= i < j < |x| ensures !(x[i] == ':' && x[j] == '@') {
      assert i < |u| ==> x[i] == u[i];
      assert j > |u| ==> x[j] == s[j - |u| - 1];
    }
  }

  /** A plain `user@server` id is a fixed point. */
  lemma PlainJidFixed(env: Env, u: string, s: string)
    requires ':' !in u && '@' !in s
    ensures DecodeJid(env, u + "@" + s) == u + "@" + s
  {
    PlainJidHasNoSuffix(u, s);
  }

  /** What `jidDecode` must give for `jid` for decoding to be idempotent on it:
      a user part without a colon and a server part without an `@` (the
      library splits at the first `@` and at the device colon). */
  predicate DecoderSplitsCleanly(env: Env, jid: string) {
    env.jidDecode(jid).Some? ==>
      ':' !in env.jidDecode(jid).value.user && '@' !in env.jidDecode(jid).value.server
  }

  /** Decoding twice is decoding once. */
  lemma DecodeJidIdempotent(env: Env, jid: string)
    requires DecoderSplitsCleanly(env, jid)
    ensures DecodeJid(env, DecodeJid(env, jid)) == DecodeJid(env, jid)
  {
    var r := DecodeJid(env, jid);
    if r != jid {
      PlainJidHasNoSuffix(env.jidDecode(jid).value.user, env.jidDecode(jid).value.server);
    }
  }

  /** A device-suffixed id and its plain counterpart canonicalise equal. */
  lemma DeviceFormsAgree(env: Env, suffixed: string, u: string, s: string)
    requires MatchesDeviceSuffix(suffixed)
    requires env.jidDecode(suffixed) == Some(JidParts(u, s))
    requires u != "" && s != "" && ':' !in u && '@' !in s
    ensures DecodeJid(env, suffixed) == u + "@" + s
    ensures DecodeJid(env, u + "@" + s) == DecodeJid(env, suffixed)
  {
    PlainJidHasNoSuffix(u, s);
  }

  /** `jid.decodeJid()` on a string (lib/simple.js:1656-1661): like
      `conn.decodeJid`, without the early return for the empty string, and the
      result trimmed. */
  function DecodeJidTrimmed(env: Env, jid: string): (r: string)
    ensures IsTrimmed(r)
    ensures r == Trim(DecodeJid(env, jid))
  {
    var d :=
      if HasDeviceSuffix(jid) then
        match env.jidDecode(jid)
        case Some(JidParts(u, s)) => if u != "" && s != "" then u + "@" + s else jid
        case None => jid
      else jid;
    TrimSpec(d);
    Trim(d)
  }
}

=== FILE: names.dfy ===
/** The display names `smsg` attaches over the chat table: `m.quoted.name`
    (lib/simple.js:1416) and `m.name` (lib/simple.js:1540). Both go through
    `conn.getName`, which answers a string for a user id but a promise for a
    group id; the promise settles with the name, or never when the provider
    rejects. */
module Names {
  import opened Wrappers
  import opened OrderedMap
  import opened Jid
  import opened Payload
  import opened Store
  import opened Normalize

  /** What `conn.getName(jid)` returns: a string, or a promise of one. */
  datatype NameValue = Plain(s: string) | Promise(settled: Option<string>)

  /** `conn.getName(jid, withoutContact)` (lib/simple.js:1084-1100)
      as the value the caller receives. `fetched` is the provider's answer for a
      group id. */
  function GetNameValue(env: Env, st: Chats, jid: string, withoutContact: bool, fetched: Option<Metadata>): (r: NameValue)
    ensures r.Promise? <==> IsGroupJid(DecodeJid(env, jid))
    ensures r.Promise? ==> r.settled == GetName(env, st, jid, withoutContact, fetched)
    ensures r.Plain? ==> GetName(env, st, jid, withoutContact, fetched) == Some(r.s)
  {
    if IsGroupJid(DecodeJid(env, jid)) then Promise(GetName(env, st, jid, withoutContact, fetched))
    else Plain(GetName(env, st, jid, withoutContact, fetched).value)
  }

  /** `m.name = m.pushName || conn.getName(m.sender)`: the push name the
      envelope carries, else the name looked up for the sender. */
  function MsgName(env: Env, st: Chats, e: Envelope, m: Msg, withoutContact: bool, fetched: Option<Metadata>): (r: NameValue)
    ensures e.pushName != "" ==> r == Plain(e.pushName)
    ensures e.pushName == "" && !IsGroupJid(DecodeJid(env, m.sender)) ==>
      r.Plain? && Some(r.s) == GetName(env, st, m.sender, withoutContact, fetched)
    ensures e.pushName == "" && IsGroupJid(DecodeJid(env, m.sender)) ==>
      r == Promise(GetName(env, st, m.sender, withoutContact, fetched))
  {
    if e.pushName != "" then Plain(e.pushName)
    else GetNameValue(env, st, m.sender, withoutContact, fetched)
  }

  /** `m.quoted.name = conn.getName(m.quoted.sender)`: the name looked up for
      the quoted message's author; a quote never carries a push name. */
  function QuotedName(env: Env, st: Chats, qu: Quoted, withoutContact: bool, fetched: Option<Metadata>): (r: NameValue)
    ensures !IsGroupJid(DecodeJid(env, qu.sender)) ==>
      r.Plain? && Some(r.s) == GetName(env, st, qu.sender, withoutContact, fetched)
    ensures IsGroupJid(DecodeJid(env, qu.sender)) ==>
      r == Promise(GetName(env, st, qu.sender, withoutContact, fetched))
  {
    GetNameValue(env, st, qu.sender, withoutContact, fetched)
  }

  /** Without a push name, a sender whose record in the table carries a name
      is called by that name, whatever the provider would answer. */
  lemma MsgNameFromStore(env: Env, st: Chats, e: Envelope, m: Msg, fetched: Option<Metadata>, c: Chat)
    requires e.pushName == ""
    requires DecodeJid(env, m.sender) == m.sender && !IsGroupJid(m.sender) && m.sender != WhatsAppJid
    requires !env.sameUser(m.sender, env.ownId)
    requires Get(st, m.sender) == Some(c) && Field(c, "name") != ""
    ensures MsgName(env, st, e, m, false, fetched) == Plain(Field(c, "name"))
  {
    GetNamePrefersStoredName(env, st, m.sender, c);
    assert GetName(env, st, m.sender, false, fetched) == GetName(env, st, m.sender, false, None);
  }

  /** A push name is used as it is: the table is not consulted and the
      provider never asked. */
  lemma MsgNameIgnoresStore(env: Env, st1: Chats, st2: Chats, e: Envelope, m: Msg,
                            withoutContact: bool, f1: Option<Metadata>, f2: Option<Metadata>)
    requires e.pushName != ""
    ensures MsgName(env, st1, e, m, withoutContact, f1) == MsgName(env, st2, e, m, withoutContact, f2)
  {
  }

  /** A quote's name is a promise exactly when its author is a group id; for
      any other author the provider's answer plays no part. */
  lemma QuotedNameIsAPromiseOnlyForGroups(env: Env, st: Chats, qu: Quoted, withoutContact: bool, fetched: Option<Metadata>)
    ensures QuotedName(env, st, qu, withoutContact, fetched).Promise? <==> IsGroupJid(DecodeJid(env, qu.sender))
    ensures !IsGroupJid(DecodeJid(env, qu.sender)) ==>
      QuotedName(env, st, qu, withoutContact, fetched) == QuotedName(env, st, qu, withoutContact, None)
  {
  }
}

=== FILE: normalize.dfy ===
/** Message normalisation: `exports.smsg` (lib/simple.js:1367-1433 and
    1497-1599), the part that derives plain fields from an envelope. The
    closures it attaches (`reply`, `download`, `forward`, ...) send or fetch
    and are not part of this model; `getQuotedObj` is in module Quote. */
module Normalize {
  import opened Wrappers
  import opened OrderedMap
  import opened Strings
  import opened Jid
  import opened Payload

  /** `m.text`: usually a string, but it stays the content object itself when
      no string field supplies it. */
  datatype MsgText = Text(s: string) | Object(c: Content)

  /** `m.quoted`: a snapshot of the message being replied to, and `fakeObj`,
      the synthetic envelope rebuilt from it. */
  datatype Quoted = Quoted(
    mtype: string,
    content: Content,
    id: string,
    chat: string,
    isBaileys: bool,
    sender: string,
    fromMe: bool,
    text: string,
    mentionedJid: seq<string>,
    fakeObj: Envelope)

  /** The fields `smsg` derives when the envelope has a payload. */
  datatype Body = Body(
    mtype: string,
    msg: Content,
    text: MsgText,
    mentionedJid: seq<string>,
    quoted: Option<Quoted>)

  /** The normalised message. */
  datatype Msg = Msg(
    id: string,
    isBaileys: bool,
    chat: string,
    isGroup: bool,
    sender: string,
    fromMe: bool,
    body: Option<Body>)

  /** `m.isBaileys` (lib/simple.js:1373): an id of 16 characters, or of 12
      starting with `3EB0`, was generated by the library itself. */
  predicate IsBaileysId(id: string) {
    |id| == 16 || (StartsWith(id, "3EB0") && |id| == 12)
  }

  lemma IsBaileysIdExamples()
    ensures IsBaileysId("3EB0AABBCCDD")
    ensures IsBaileysId("BAE5F3A1C2D4E6F8")
    ensures !IsBaileysId("ABC123")
    ensures !IsBaileysId("")
  {
  }

  /** `m.sender` (lib/simple.js:1376): the session's own id for an outgoing
      message, else the first non-empty of the envelope's participant, the
      key's participant and the chat, decoded. */
  function SenderOf(env: Env, e: Envelope, chat: string): (sender: string)
    ensures e.key.fromMe ==> sender == OwnJid(env)
    ensures !e.key.fromMe && e.participant != "" ==> sender == DecodeJid(env, e.participant)
    ensures !e.key.fromMe && e.participant == "" && e.key.participant != "" ==> sender == DecodeJid(env, e.key.participant)
    ensures !e.key.fromMe && e.participant == "" && e.key.participant == "" ==> sender == DecodeJid(env, chat)
  {
    DecodeJid(env,
      if e.key.fromMe then env.ownId
      else if e.participant != "" then e.participant
      else if e.key.participant != "" then e.key.participant
      else chat)
  }

  /** The message types whose text is forced to "" when no string field
      supplies one (lib/simple.js:1394-1400). */
  predicate IsSilentType(mtype: string) {
    mtype == ProtocolMessage || mtype == MessageContextInfo || mtype == StickerMessage
    || mtype == AudioMessage || mtype == SenderKeyDistributionMessage
  }

  /** The first non-empty of `text`, `caption` and `contentText`, or "". */
  function FirstTextField(c: Content): (t: string)
    ensures t == "" <==> c.TextField() == "" && c.CaptionField() == "" && c.ContentTextField() == ""
    ensures t in {c.TextField(), c.CaptionField(), c.ContentTextField()}
  {
    if c.TextField() != "" then c.TextField()
    else if c.CaptionField() != "" then c.CaptionField()
    else c.ContentTextField()
  }

  /** `m.text` (lib/simple.js:1392-1402): the first non-empty of the content's
      `text`, `caption`, `contentText`, or the content itself when it is a
      string. A record without those stays an object, except that silent types
      get "" and other types try `selectedDisplayText` and
      `hydratedTemplate.hydratedContentText` first. */
  function DeriveText(mtype: string, c: Content): (t: MsgText)
    ensures FirstTextField(c) != "" ==> t == Text(FirstTextField(c))
    ensures c.Str? ==> t == Text(c.s)
    ensures c.Rec? && FirstTextField(c) == "" && IsSilentType(mtype) ==> t == Text("")
    ensures t.Object? <==>
      && c.Rec? && FirstTextField(c) == "" && !IsSilentType(mtype)
      && c.selectedDisplayText == "" && c.hydratedContentText == ""
    ensures t.Object? ==> t.c == c
  {
    if FirstTextField(c) != "" then Text(FirstTextField(c))
    else match c
      case Str(s) => Text(s)
      case Rec(_, _, _, selected, hydrated, _, _, _) =>
        if IsSilentType(mtype) then Text("")
        else if selected != "" then Text(selected)
        else if hydrated != "" then Text(hydrated)
        else Object(c)
  }

  /** Text never comes from anywhere but the content: it is one of its string
      fields, or "". */
  lemma DeriveTextFromContent(mtype: string, c: Content)
    ensures DeriveText(mtype, c).Text? ==>
      DeriveText(mtype, c).s == ""
      || (c.Str? && DeriveText(mtype, c).s == c.s)
      || (c.Rec? && DeriveText(mtype, c).s in
            {c.text, c.caption, c.contentText, c.selectedDisplayText, c.hydratedContentText})
  {
  }

  /** `contextInfo.mentionedJid` when it is a non-empty list, else `[]`
      (lib/simple.js:1403 and 1417). */
  function MentionsOf(c: Content): (r: seq<string>)
    ensures |r| > 0 <==>
      c.Context().Some? && c.Context().value.mentionedJid.Some?
      && |c.Context().value.mentionedJid.value| > 0
    ensures |r| > 0 ==> r == c.Context().value.mentionedJid.value
  {
    match c.Context()
    case Some(ContextInfo(_, _, _, Some(jids), _)) => if |jids| > 0 then jids else []
    case _ => []
  }

  /** The status-broadcast correction (lib/simple.js:1385): a protocol or
      key-distribution message addressed to `status@broadcast` is re-homed to
      the raw remote id when that differs, else to the sender. */
  function CorrectStatusChat(chat: string, mtype: string, rawRemoteJid: string, sender: string): (r: string)
    ensures chat != StatusBroadcast ==> r == chat
    ensures mtype != ProtocolMessage && mtype != SenderKeyDistributionMessage ==> r == chat
    ensures chat == StatusBroadcast && (mtype == ProtocolMessage || mtype == SenderKeyDistributionMessage) ==>
      r == (if rawRemoteJid != StatusBroadcast && rawRemoteJid != "" then rawRemoteJid else sender)
  {
    if chat == StatusBroadcast && (mtype == ProtocolMessage || mtype == SenderKeyDistributionMessage) then
      if rawRemoteJid != StatusBroadcast && rawRemoteJid != "" then rawRemoteJid else sender
    else chat
  }

  /** A re-homed message always lands in a real chat: never "" and never
      `status@broadcast` again, provided its sender is neither. */
  lemma CorrectStatusChatLeavesBroadcast(chat: string, mtype: string, rawRemoteJid: string, sender: string)
    requires sender != "" && sender != StatusBroadcast
    ensures var r := CorrectStatusChat(chat, mtype, rawRemoteJid, sender);
      (chat != "" ==> r != "") && (r == StatusBroadcast ==> chat == StatusBroadcast && r == chat)
      && (chat == StatusBroadcast && (mtype == ProtocolMessage || mtype == SenderKeyDistributionMessage) ==> r != StatusBroadcast)
  {
  }

  /** The rewrite of a protocol message's embedded key (lib/simple.js:1386-1391):
      a `status@broadcast` remote becomes the chat, a missing or `status_me`
      participant becomes the sender, `fromMe` is recomputed by comparing
      decoded ids, and a key not from the session that points at the session
      itself is redirected to the sender. The message id is kept. */
  function RewriteProtocolKey(env: Env, k: MsgKey, chat: string, sender: string): (r: MsgKey)
    ensures r.id == k.id
    ensures r.participant == (if k.participant == "" || k.participant == "status_me" then sender else k.participant)
    ensures r.fromMe <==> DecodeJid(env, r.participant) == OwnJid(env)
    ensures r.fromMe ==> r.remoteJid == (if k.remoteJid == StatusBroadcast then chat else k.remoteJid)
    ensures !r.fromMe && r.remoteJid != sender ==> r.remoteJid != OwnJid(env)
    ensures k.remoteJid == StatusBroadcast ==> r.remoteJid in {chat, sender}
    ensures var remote := if k.remoteJid == StatusBroadcast then chat else k.remoteJid;
      r.remoteJid == (if !r.fromMe && remote == OwnJid(env) then sender else remote)
  {
    var remote := if k.remoteJid == StatusBroadcast then chat else k.remoteJid;
    var participant := if k.participant == "" || k.participant == "status_me" then sender else k.participant;
    var fromMe := DecodeJid(env, participant) == DecodeJid(env, env.ownId);
    var remote' := if !fromMe && remote == DecodeJid(env, env.ownId) then sender else remote;
    MsgKey(remote', fromMe, k.id, participant)
  }

  /** Rewriting an already rewritten key changes nothing, provided the chat
      and the sender are real ids: the rewrite is a normal form. */
  lemma RewriteProtocolKeyIdempotent(env: Env, k: MsgKey, chat: string, sender: string)
    requires chat != StatusBroadcast && sender != StatusBroadcast
    requires sender != "" && sender != "status_me"
    ensures var r := RewriteProtocolKey(env, k, chat, sender);
      RewriteProtocolKey(env, r, chat, sender) == r
  {
  }

  /** `m.msg` after the embedded-key rewrite. */
  function RewriteProtocol(env: Env, mtype: string, c: Content, chat: string, sender: string): (r: Content)
    ensures mtype != ProtocolMessage || c.Str? || c.key.None? ==> r == c
    ensures r.Context() == c.Context()
    ensures mtype == ProtocolMessage && c.Rec? && c.key.Some? ==>
      r == c.(key := Some(RewriteProtocolKey(env, c.key.value, chat, sender)))
  {
    if mtype == ProtocolMessage && c.Rec? && c.key.Some? then
      c.(key := Some(RewriteProtocolKey(env, c.key.value, chat, sender)))
    else c
  }

  /** `m.mtype` of a non-empty payload: the tie-break's choice, which is
      always one of its keys. */
  function MainType(p: Message): (t: string)
    requires |p| > 0
    ensures ResolveType(Keys(p)) == Some(t)
    ensures Has(p, t)
  {
    var t := ResolveType(Keys(p)).value;
    assert Has(p, t) by {
      var i :| 0 <= i < |p| && Keys(p)[i] == t;
      assert IndexOf(p, t).Some?;
    }
    t
  }

  /** `m.message[m.mtype]` before any rewrite. */
  function MainContent(p: Message): (c: Content)
    requires |p| > 0
    ensures Get(p, MainType(p)) == Some(c)
  {
    Get(p, MainType(p)).value
  }

  /** The content quotes a payload without keys, on which the source reads a
      property of `undefined`. */
  predicate QuotesEmpty(c: Content) {
    c.Context().Some? && c.Context().value.quotedMessage == Some([])
  }

  /** A quoted payload after `m.quoted.text` is set (lib/simple.js:1415). When
      the first entry is a record, the snapshot `m.quoted` is that very object,
      so its `text` becomes the derived text in the payload too; a bare string
      is copied into a fresh `{text}` and the payload keeps the string. */
  function WriteBackText(q: Message): (r: Message)
    ensures |r| == |q| && Keys(r) == Keys(q)
    ensures |q| == 0 || q[0].1.Str? ==> r == q
    ensures |q| > 0 && q[0].1.Rec? ==>
      && r[1..] == q[1..]
      && r[0].1 == q[0].1.(text := FirstTextField(q[0].1))
  {
    if |q| > 0 && q[0].1.Rec? then q[0 := (q[0].0, q[0].1.(text := FirstTextField(q[0].1)))] else q
  }

  /** The write-back keeps the text the snapshot derives: the first non-empty
      of `text`, `caption`, `contentText` is the same before and after. */
  lemma WriteBackKeepsText(c: Content)
    requires c.Rec?
    ensures FirstTextField(c.(text := FirstTextField(c))) == FirstTextField(c)
  {
  }

  /** Writing the text back twice is writing it once. */
  lemma WriteBackTextIdempotent(q: Message)
    ensures WriteBackText(WriteBackText(q)) == WriteBackText(q)
  {
    if |q| > 0 && q[0].1.Rec? {
      WriteBackKeepsText(q[0].1);
    }
  }

  /** `m.msg` once the quote snapshot has been taken: the quoted payload in
      its context carries the written-back text; nothing else changes. */
  function WithQuoteText(c: Content): (r: Content)
    ensures c.Str? ==> r == c
    ensures c.Rec? ==> r.Rec? && r.(contextInfo := c.contextInfo) == c
    ensures r.Context().Some? <==> c.Context().Some?
    ensures c.Context().Some? ==>
      && r.Context().value.(quotedMessage := c.Context().value.quotedMessage) == c.Context().value
      && r.Context().value.quotedMessage ==
           (if c.Context().value.quotedMessage.Some? then Some(WriteBackText(c.Context().value.quotedMessage.value)) else None)
  {
    match c.Context()
    case None => c
    case Some(ctx) =>
      match ctx.quotedMessage
      case None => c
      case Some(q) => c.(contextInfo := Some(ctx.(quotedMessage := Some(WriteBackText(q)))))
  }

  /** `m.quoted` (lib/simple.js:1404-1426) for a quoted payload `q` taken from
      the context `ctx` of a message in `chat` from `sender`. The snapshot is
      the first entry of `q` (a bare string becomes `{text}`); its chat falls
      back to the parent chat, then the sender; its `fromMe` is strict equality
      of the decoded participant with the session's own JID. An empty quoted
      payload makes the source throw. */
  function QuoteOf(env: Env, ctx: ContextInfo, q: Message, chat: string, sender: string, isGroup: bool): (r: Result<Quoted, Failure>)
    ensures r.Err? <==> |q| == 0
    ensures r.Ok? ==>
      && r.value.mtype == q[0].0
      && r.value.id == ctx.stanzaId
      && r.value.sender == DecodeJid(env, ctx.participant)
      && (r.value.fromMe <==> r.value.sender == OwnJid(env))
      && r.value.chat == DecodeJid(env,
           if ctx.remoteJid != "" then ctx.remoteJid else if chat != "" then chat else sender)
      && r.value.text == (if q[0].1.Str? then q[0].1.s else FirstTextField(q[0].1))
      && (r.value.isBaileys <==> |ctx.stanzaId| == 16)
      && (q[0].1.Str? ==> r.value.content == EmptyRec.(text := q[0].1.s) && r.value.mentionedJid == [])
      && (q[0].1.Rec? ==> r.value.content == q[0].1.(text := r.value.text)
                          && r.value.mentionedJid == MentionsOf(q[0].1))
      && r.value.fakeObj.key == MsgKey(r.value.chat, r.value.fromMe, ctx.stanzaId, "")
      && r.value.fakeObj.participant == (if isGroup then r.value.sender else "")
      && r.value.fakeObj.message == Some(WriteBackText(q))
      && Keys(r.value.fakeObj.message.value) == Keys(q)
  {
    if |q| == 0 then Err(TypeError("m.quoted"))
    else
      var qtype := q[0].0;
      var content := match q[0].1
        case Str(s) => EmptyRec.(text := s)
        case Rec(_, _, _, _, _, _, _, _) => q[0].1;
      var text := FirstTextField(content);
      var id := ctx.stanzaId;
      var qchat := DecodeJid(env,
        if ctx.remoteJid != "" then ctx.remoteJid else if chat != "" then chat else sender);
      var qsender := DecodeJid(env, ctx.participant);
      var fromMe := qsender == OwnJid(env);
      var fake := Envelope(MsgKey(qchat, fromMe, id, ""), Some(WriteBackText(q)),
                           if isGroup then qsender else "", "", 0, []);
      Ok(Quoted(qtype, content.(text := text), id, qchat, |id| == 16, qsender, fromMe,
                text, MentionsOf(content), fake))
  }

  /** `m.quoted` from the content's context: `null` (here `None`) when the
      context quotes nothing, an error when it quotes an empty payload. */
  function QuotedOf(env: Env, ctx: Option<ContextInfo>, chat: string, sender: string, isGroup: bool): (r: Result<Option<Quoted>, Failure>)
    ensures r.Err? <==> ctx.Some? && ctx.value.quotedMessage == Some([])
    ensures r == Ok(None) <==> ctx.None? || ctx.value.quotedMessage.None?
    ensures r.Ok? && r.value.Some? ==>
      r.value.value == QuoteOf(env, ctx.value, ctx.value.quotedMessage.value, chat, sender, isGroup).value
  {
    match ctx
    case None => Ok(None)
    case Some(c) =>
      match c.quotedMessage
      case None => Ok(None)
      case Some(q) =>
        match QuoteOf(env, c, q, chat, sender, isGroup)
        case Ok(qu) => Ok(Some(qu))
        case Err(f) => Err(f)
  }

  /** Reading the quote again from the written-back content gives the same
      snapshot: the write-back is invisible to `m.quoted` itself. */
  lemma QuotedOfWrittenBack(env: Env, c: Content, chat: string, sender: string, isGroup: bool)
    ensures QuotedOf(env, WithQuoteText(c).Context(), chat, sender, isGroup) == QuotedOf(env, c.Context(), chat, sender, isGroup)
  {
    if c.Context().Some? && c.Context().value.quotedMessage.Some? {
      var ctx := c.Context().value;
      var q := ctx.quotedMessage.value;
      WriteBackTextIdempotent(q);
      if |q| > 0 && q[0].1.Rec? {
        WriteBackKeepsText(q[0].1);
        var w := WriteBackText(q);
        assert w[0].1.(text := FirstTextField(w[0].1)) == q[0].1.(text := FirstTextField(q[0].1));
      }
    }
  }

  /** `smsg(conn, m)`: the normalised view of an envelope. The source reads an
      undefined identifier when `key.remoteJid` is empty, and a property of
      `undefined` when the payload is empty or quotes an empty payload; those
      are the errors. */
  function Normalize(env: Env, e: Envelope): (r: Result<Msg, Failure>)
    ensures e.key.remoteJid == "" ==> r == Err(ReferenceError("message"))
    ensures e.key.remoteJid != "" ==>
      (r.Err? <==> e.message.Some? && (|e.message.value| == 0 || QuotesEmpty(MainContent(e.message.value))))
    ensures r.Ok? ==>
      && r.value.id == e.key.id
      && (r.value.isBaileys <==> IsBaileysId(e.key.id))
      && r.value.isGroup == IsGroupJid(DecodeJid(env, e.key.remoteJid))
      && r.value.sender == SenderOf(env, e, DecodeJid(env, e.key.remoteJid))
      && (r.value.fromMe <==> e.key.fromMe || env.sameUser(r.value.sender, env.ownId))
      && (r.value.body.Some? <==> e.message.Some?)
    ensures r.Ok? && e.message.None? ==> r.value.chat == DecodeJid(env, e.key.remoteJid)
    ensures r.Ok? && r.value.body.Some? ==>
      var p := e.message.value;
      var b := r.value.body.value;
      && |p| > 0
      && b.mtype == MainType(p)
      && r.value.chat == CorrectStatusChat(DecodeJid(env, e.key.remoteJid), b.mtype, e.key.remoteJid, r.value.sender)
      && b.msg == WithQuoteText(RewriteProtocol(env, b.mtype, MainContent(p), r.value.chat, r.value.sender))
      && b.text == DeriveText(b.mtype, b.msg)
      && b.mentionedJid == MentionsOf(b.msg)
      && QuotedOf(env, MainContent(p).Context(), r.value.chat, r.value.sender, r.value.isGroup) == Ok(b.quoted)
      && (b.quoted.Some? ==>
            b.msg.Context().Some? && b.msg.Context().value.quotedMessage == b.quoted.value.fakeObj.message)
  {
    if e.key.remoteJid == "" then Err(ReferenceError("message"))
    else
      var chat0 := DecodeJid(env, e.key.remoteJid);
      var isGroup := IsGroupJid(chat0);
      var sender := SenderOf(env, e, chat0);
      var fromMe := e.key.fromMe || env.sameUser(sender, env.ownId);
      var head := Msg(e.key.id, IsBaileysId(e.key.id), chat0, isGroup, sender, fromMe, None);
      match e.message
      case None => Ok(head)
      case Some(p) =>
        if |p| == 0 then Err(TypeError("m.msg"))
        else
          var mtype := MainType(p);
          var chat := CorrectStatusChat(chat0, mtype, e.key.remoteJid, sender);
          var msg0 := RewriteProtocol(env, mtype, MainContent(p), chat, sender);
          match QuotedOf(env, msg0.Context(), chat, sender, isGroup)
          case Err(f) => Err(f)
          case Ok(qu) =>
            // `m.quoted` aliases the quoted payload inside `m.msg`, so the
            // text written to the snapshot shows through `m.msg` (and through
            // `m.text` when that is `m.msg` itself).
            var msg := WithQuoteText(msg0);
            Ok(head.(chat := chat, body := Some(Body(mtype, msg, DeriveText(mtype, msg), MentionsOf(msg), qu))))
  }

  /** The text derived for the quote shows through `m.msg`: when the quoted
      payload starts with a record, that record inside the normalised content
      carries the snapshot's text (a caption when `text` was unset). */
  lemma QuotedTextShowsThroughMsg(env: Env, e: Envelope)
    requires Normalize(env, e).Ok? && Normalize(env, e).value.body.Some?
    requires Normalize(env, e).value.body.value.quoted.Some?
    ensures var b := Normalize(env, e).value.body.value;
      var q := MainContent(e.message.value).Context().value.quotedMessage.value;
      && b.msg.Context().Some? && b.msg.Context().value.quotedMessage.Some?
      && |b.msg.Context().value.quotedMessage.value| == |q| > 0
      && (q[0].1.Rec? ==> b.msg.Context().value.quotedMessage.value[0].1.text == b.quoted.value.text)
  {
  }

  /** An outgoing envelope is attributed to the session; an incoming one whose
      sender decodes to the session's own JID counts as outgoing too, provided
      the library's same-user test agrees that the session's JID and id name
      the same user. */
  lemma FromMeDerivation(env: Env, e: Envelope)
    requires e.key.remoteJid != ""
    requires Normalize(env, e).Ok?
    ensures e.key.fromMe ==> Normalize(env, e).value.fromMe && Normalize(env, e).value.sender == OwnJid(env)
    ensures Normalize(env, e).value.sender == OwnJid(env) && env.sameUser(OwnJid(env), env.ownId)
            ==> Normalize(env, e).value.fromMe
  {
  }
}

=== FILE: omap.dfy ===
/** A JavaScript plain object with string keys, as the sequence of its own
    properties in enumeration order.

    Assigning to a key that is already present keeps its position; assigning
    to a new key appends it; `delete` removes it. Every object the core
    manipulates (a message payload, the per-chat `messages` object, the
    `conn.chats` table) is one of these. */
module OrderedMap {
  import opened Wrappers

  type OMap<V> = seq<(string, V)>

  /** No key occurs twice: true of every JavaScript object. */
  ghost predicate Distinct<V>(m: OMap<V>) {
    forall i, j :: 0 <= i < j < |m| ==> m[i].0 != m[j].0
  }

  /** `Object.keys(m)`. */
  function Keys<V>(m: OMap<V>): (ks: seq<string>)
    ensures |ks| == |m|
    ensures forall i :: 0 <= i < |m| ==> ks[i] == m[i].0
  {
    seq(|m|, i requires 0 <= i < |m| => m[i].0)
  }

  /** Position of the first property named `k`. */
  function IndexOf<V>(m: OMap<V>, k: string): (r: Option<nat>)
    ensures r.Some? ==> r.value < |m| && m[r.value].0 == k
    ensures r.Some? ==> forall j :: 0 <= j < r.value ==> m[j].0 != k
    ensures r.None? ==> forall j :: 0 <= j < |m| ==> m[j].0 != k
  {
    if |m| == 0 then None
    else if m[0].0 == k then Some(0)
    else match IndexOf(m[1..], k)
      case None => None
      case Some(i) => Some(i + 1)
  }

  /** `k in m`. */
  predicate Has<V>(m: OMap<V>, k: string) {
    IndexOf(m, k).Some?
  }

  /** `m[k]`, with `None` for a missing key. */
  function Get<V>(m: OMap<V>, k: string): (r: Option<V>)
    ensures r.Some? <==> Has(m, k)
    ensures r.Some? ==> (k, r.value) in m
  {
    match IndexOf(m, k)
    case None => None
    case Some(i) => Some(m[i].1)
  }

  /** The first property named `k` is at position `i`. */
  lemma IndexOfAt<V>(m: OMap<V>, k: string, i: nat)
    requires i < |m| && m[i].0 == k
    requires forall j :: 0 <= j < i ==> m[j].0 != k
    ensures IndexOf(m, k) == Some(i)
  {
  }

  /** In a distinct map, a pair that occurs in it is what `Get` returns. */
  lemma GetOfMember<V>(m: OMap<V>, k: string, v: V)
    requires Distinct(m)
    requires (k, v) in m
    ensures Get(m, k) == Some(v)
  {
    var i :| 0 <= i < |m| && m[i] == (k, v);
    IndexOfAt(m, k, i);
  }

  /** `m[k] = v`: overwrite in place, or append a new property. */
  function Set<V>(m: OMap<V>, k: string, v: V): (r: OMap<V>)
    ensures Get(r, k) == Some(v)
    ensures forall k' {:trigger Get(r, k')} :: k' != k ==> Get(r, k') == Get(m, k')
    ensures Has(m, k) ==> |r| == |m| && Keys(r) == Keys(m)
    ensures !Has(m, k) ==> Keys(r) == Keys(m) + [k]
    ensures Distinct(m) ==> Distinct(r)
    ensures forall e :: e in r ==> e in m || e == (k, v)
  {
    match IndexOf(m, k)
    case Some(i) =>
      var r := m[i := (k, v)];
      assert forall k' :: k' != k ==> IndexOf(r, k') == IndexOf(m, k') by {
        forall k' | k' != k ensures IndexOf(r, k') == IndexOf(m, k') {
          if IndexOf(m, k').Some? { IndexOfAt(r, k', IndexOf(m, k').value); }
        }
      }
      IndexOfAt(r, k, i);
      r
    case None =>
      var r := m + [(k, v)];
      assert forall k' :: k' != k ==> IndexOf(r, k') == IndexOf(m, k') by {
        forall k' | k' != k ensures IndexOf(r, k') == IndexOf(m, k') {
          if IndexOf(m, k').Some? { IndexOfAt(r, k', IndexOf(m, k').value); }
        }
      }
      IndexOfAt(r, k, |m|);
      r
  }

  /** Writing the value a key already holds changes nothing. */
  lemma SetSame<V>(m: OMap<V>, k: string, v: V)
    requires Get(m, k) == Some(v)
    ensures Set(m, k, v) == m
  {
    var i := IndexOf(m, k).value;
    assert m[i] == (k, v);
  }

  /** Looking past a first property with another name. */
  lemma GetTail<V>(m: OMap<V>, k: string)
    requires |m| > 0 && m[0].0 != k
    ensures Get(m, k) == Get(m[1..], k)
  {
  }

  /** `delete m[k]`. */
  function Remove<V>(m: OMap<V>, k: string): (r: OMap<V>)
    ensures !Has(r, k)
    ensures forall k' {:trigger Get(r, k')} :: k' != k ==> Get(r, k') == Get(m, k')
    ensures forall e :: e in r ==> e in m
    ensures Distinct(m) ==> Distinct(r)
    ensures |r| <= |m|
  {
    if |m| == 0 then []
    else
      var rest := Remove(m[1..], k);
      if m[0].0 == k then
        assert forall k' :: k' != k ==> Get(m, k') == Get(m[1..], k') by {
          forall k' | k' != k ensures Get(m, k') == Get(m[1..], k') { GetTail(m, k'); }
        }
        assert Distinct(m) ==> Distinct(m[1..]);
        rest
      else
        var r := [m[0]] + rest;
        assert r[1..] == rest;
        assert forall k' :: k' != k ==> Get(r, k') == Get(m, k') by {
          forall k' | k' != k ensures Get(r, k') == Get(m, k') {
            if m[0].0 != k' {
              GetTail(m, k');
              GetTail(r, k');
            }
          }
        }
        assert !Has(r, k) by { GetTail(r, k); }
        assert Distinct(m) ==> Distinct(r) by {
          if Distinct(m) {
            assert Distinct(m[1..]);
            forall j | 0 < j < |r| ensures r[0].0 != r[j].0 {
              assert r[j] in m[1..];
            }
          }
        }
        r
  }

  /** Deleting a key that is not there changes nothing. */
  lemma {:induction false} RemoveAbsent<V>(m: OMap<V>, k: string)
    requires !Has(m, k)
    ensures Remove(m, k) == m
  {
    if |m| > 0 {
      GetTail(m, k);
      RemoveAbsent(m[1..], k);
      assert [m[0]] + m[1..] == m;
    }
  }

  /** `Object.fromEntries(Object.entries(m).slice(n))`: the properties from
      position `n` on, in their order. */
  function DropFirst<V>(m: OMap<V>, n: nat): (r: OMap<V>)
    requires n <= |m|
    ensures |r| == |m| - n
    ensures forall i :: 0 <= i < |r| ==> r[i] == m[n + i]
    ensures Distinct(m) ==> Distinct(r)
  {
    m[n..]
  }
}

=== FILE: payload.dfy ===
/** The message envelope (`proto.WebMessageInfo`) and its payload
    (`proto.IMessage`), reduced to the fields the core reads, and the
    message-type tie-break shared by `smsg` (lib/simple.js:1380-1383) and
    `pushMessage` (lib/simple.js:1181-1184).

    A payload is an ordered map from type name (`conversation`,
    `imageMessage`, `messageContextInfo`, ...) to content, because the order in
    which the producer wrote the keys decides the type. String fields that are
    unset are "": every read of them in the core goes through `||`, for which
    "" and `undefined` behave alike. */
module Payload {
  import opened Wrappers
  import opened OrderedMap
  import opened Strings
  import opened Jid

  /** `proto.IMessageKey`. */
  datatype MsgKey = MsgKey(remoteJid: string, fromMe: bool, id: string, participant: string)

  /** `proto.IContextInfo`: who and what a message replies to, and whom it mentions. */
  datatype ContextInfo = ContextInfo(
    stanzaId: string,
    participant: string,
    remoteJid: string,
    mentionedJid: Option<seq<string>>,
    quotedMessage: Option<Message>)

  /** The value stored under one type name of a payload: a bare string (the
      `conversation` text) or a record. `hydratedContentText` stands for
      `hydratedTemplate.hydratedContentText`. */
  datatype Content =
    | Str(s: string)
    | Rec(
        text: string,
        caption: string,
        contentText: string,
        selectedDisplayText: string,
        hydratedContentText: string,
        groupId: string,
        contextInfo: Option<ContextInfo>,
        key: Option<MsgKey>)
  {
    /** `content.contextInfo`; a string has none. */
    function Context(): Option<ContextInfo> {
      if Rec? then contextInfo else None
    }

    /** `content.text`; "" on a string. */
    function TextField(): string {
      if Rec? then text else ""
    }

    /** `content.caption`; "" on a string. */
    function CaptionField(): string {
      if Rec? then caption else ""
    }

    /** `content.contentText`; "" on a string. */
    function ContentTextField(): string {
      if Rec? then contentText else ""
    }
  }

  /** `proto.IMessage`: type name to content, in key order. */
  type Message = OMap<Content>

  /** `proto.IWebMessageInfo`. A `stubType` of 0 means no stub. */
  datatype Envelope = Envelope(
    key: MsgKey,
    message: Option<Message>,
    participant: string,
    pushName: string,
    stubType: nat,
    stubParameters: seq<string>)

  /** A record with every field unset: `{}`. */
  const EmptyRec: Content := Rec("", "", "", "", "", "", None, None)

  const EmptyContext: ContextInfo := ContextInfo("", "", "", None, None)

  const Conversation: string := "conversation"
  const ExtendedTextMessage: string := "extendedTextMessage"
  const SenderKeyDistributionMessage: string := "senderKeyDistributionMessage"
  const MessageContextInfo: string := "messageContextInfo"
  const ProtocolMessage: string := "protocolMessage"
  const StickerMessage: string := "stickerMessage"
  const AudioMessage: string := "audioMessage"

  /** The two keys that wrap a payload rather than carry its content. */
  predicate IsWrapperKey(k: string) {
    k == SenderKeyDistributionMessage || k == MessageContextInfo
  }

  /** The type of a payload from its keys in order: the first key unless it is
      a wrapper key (or the empty string, which is falsy); failing that the
      second key when there are at least three and the second is not
      `messageContextInfo`; otherwise the last key. No keys, no type. */
  function ResolveType(keys: seq<string>): (r: Option<string>)
    ensures r.Some? <==> |keys| > 0
    ensures r.Some? ==> r.value in keys
  {
    if |keys| == 0 then None
    else if !IsWrapperKey(keys[0]) && keys[0] != "" then Some(keys[0])
    else if |keys| >= 3 && keys[1] != MessageContextInfo && keys[1] != "" then Some(keys[1])
    else Some(keys[|keys| - 1])
  }

  /** The tie-break, case by case: a content key in front wins; a wrapper in
      front defers to the second key when there are at least three keys and
      the second is not `messageContextInfo`; otherwise the last key wins.
      `messageContextInfo` is chosen only as the last key. */
  lemma TypeTieBreak(keys: seq<string>)
    requires |keys| > 0
    ensures keys[0] != "" && !IsWrapperKey(keys[0]) ==> ResolveType(keys) == Some(keys[0])
    ensures (keys[0] == "" || IsWrapperKey(keys[0])) && |keys| >= 3
            && keys[1] != "" && keys[1] != MessageContextInfo
            ==> ResolveType(keys) == Some(keys[1])
    ensures (keys[0] == "" || IsWrapperKey(keys[0]))
            && (|keys| < 3 || keys[1] == "" || keys[1] == MessageContextInfo)
            ==> ResolveType(keys) == Some(keys[|keys| - 1])
    ensures ResolveType(keys) == Some(MessageContextInfo) ==> keys[|keys| - 1] == MessageContextInfo
  {
  }

  /** The two worked cases of the tie-break. */
  lemma TypeTieBreakExamples()
    ensures ResolveType([SenderKeyDistributionMessage, Conversation, MessageContextInfo]) == Some(Conversation)
    ensures ResolveType([SenderKeyDistributionMessage, MessageContextInfo]) == Some(MessageContextInfo)
    ensures ResolveType([MessageContextInfo, SenderKeyDistributionMessage, Conversation]) == Some(SenderKeyDistributionMessage)
  {
  }

  /** `Object.keys(message.message || {})`. */
  function PayloadKeys(message: Option<Message>): seq<string> {
    Keys(message.GetOr([]))
  }

  /** `message.message?.senderKeyDistributionMessage?.groupId`, "" when unset. */
  function SkdGroupId(message: Option<Message>): (g: string)
    ensures message.None? ==> g == ""
  {
    match message
    case None => ""
    case Some(m) =>
      var c := Get(m, SenderKeyDistributionMessage);
      if c.Some? && c.value.Rec? then c.value.groupId else ""
  }

  /** `decodeJid(key.remoteJid || message?.senderKeyDistributionMessage?.groupId || '')`
      (lib/simple.js:1112 and 1185): the chat an envelope belongs to. */
  function EnvelopeChat(env: Env, e: Envelope): (chat: string)
    ensures e.key.remoteJid != "" ==> chat == DecodeJid(env, e.key.remoteJid)
    ensures e.key.remoteJid == "" ==> chat == DecodeJid(env, SkdGroupId(e.message))
  {
    DecodeJid(env, if e.key.remoteJid != "" then e.key.remoteJid else SkdGroupId(e.message))
  }
}

=== FILE: push.dfy ===
/** `conn.pushMessage` (lib/simple.js:1169-1264): every incoming envelope is
    folded into the store. Each envelope first has its stub applied, then a
    reply's quoted message is filed in the quoted author's history (the quote
    side-cache), then the envelope itself is filed in its chat's history
    unless it is outgoing, a protocol message or undecryptable.

    The listeners and provider calls the source awaits run to completion in
    order here; the provider's answers are the parameters of `Provider`. */
module Push {
  import opened Wrappers
  import opened OrderedMap
  import opened Strings
  import opened Jid
  import opened Payload
  import opened Store
  import opened Stub
  import opened Normalize

  /** The group-metadata provider: its answer per group id and its list of
      participating groups, `None` where the call is rejected. */
  datatype Provider = Provider(
    groupMetadata: string -> Option<Metadata>,
    allParticipating: Option<OMap<Metadata>>)

  // ---------------------------------------------------------------------
  // The quote side-cache (lib/simple.js:1186-1226)

  /** `message.message[mtype]`, when there is such a content. */
  function TypedContent(e: Envelope, mtype: Option<string>): Option<Content> {
    if e.message.Some? && mtype.Some? then Get(e.message.value, mtype.value) else None
  }

  /** `content?.contextInfo?.quotedMessage` is set (an empty payload
      included, since an empty object is truthy). */
  predicate QuotesPayload(c: Option<Content>) {
    c.Some? && c.value.Context().Some? && c.value.Context().value.quotedMessage.Some?
  }

  /** The reply context whose quote the side-cache considers: that of the
      typed content, when it carries a quoted payload (an empty payload
      included, since an empty object is truthy). */
  function ReplyContext(e: Envelope, mtype: Option<string>): (r: Option<ContextInfo>)
    ensures r.Some? ==> r.value.quotedMessage.Some?
    ensures r.Some? ==> TypedContent(e, mtype).Some? && TypedContent(e, mtype).value.Context() == r
    ensures r.Some? <==> QuotesPayload(TypedContent(e, mtype))
  {
    var c := TypedContent(e, mtype);
    if QuotesPayload(c) then c.value.Context() else None
  }

  /** `decodeJid(context.participant)`: the quoted message's author. */
  function QuoteParticipant(env: Env, ctx: ContextInfo): string {
    DecodeJid(env, ctx.participant)
  }

  /** `decodeJid(context.remoteJid || participant)`: the quoted message's chat. */
  function QuoteRemote(env: Env, ctx: ContextInfo): string {
    DecodeJid(env, Or(ctx.remoteJid, QuoteParticipant(env, ctx)))
  }

  /** `remoteJid.endsWith('g.us')`: the side-cache's group test, which omits
      the `@` every other group test in the file includes. */
  predicate QuoteInGroup(remote: string) {
    EndsWith(remote, "g.us")
  }

  /** The chat whose history receives the quote: the author, or the group
      itself when a group quote names no author. */
  function QuoteTarget(env: Env, ctx: ContextInfo): (t: string)
    ensures QuoteParticipant(env, ctx) != "" ==> t == QuoteParticipant(env, ctx)
    ensures QuoteParticipant(env, ctx) == "" ==>
      t == (if QuoteInGroup(QuoteRemote(env, ctx)) then QuoteRemote(env, ctx) else "")
  {
    var p := QuoteParticipant(env, ctx);
    if QuoteInGroup(QuoteRemote(env, ctx)) && p == "" then QuoteRemote(env, ctx) else p
  }

  /** Whether the quote is side-cached at all: there is one, and it comes from
      a real chat. */
  predicate QuoteActive(env: Env, e: Envelope, mtype: Option<string>) {
    var ctx := ReplyContext(e, mtype);
    ctx.Some? && QuoteRemote(env, ctx.value) != "" && QuoteRemote(env, ctx.value) != StatusBroadcast
  }

  /** The text of a `conversation` entry. The payload schema stores a string
      under that key. */
  function ConversationText(c: Content): string {
    if c.Str? then c.s else ""
  }

  /** `Object.keys(quoted)[0]` after the rewrite: `conversation` becomes
      `extendedTextMessage`. */
  function QuotedType(q: Message): string
    requires |q| > 0
  {
    if q[0].0 == Conversation then ExtendedTextMessage else q[0].0
  }

  /** `quoted[qMtype]` once a `conversation` string has become
      `{ text }`: the record whose context the side-cache edits. */
  function QuotedRecord(q: Message): Content
    requires |q| > 0
  {
    if q[0].0 == Conversation then EmptyRec.(text := ConversationText(q[0].1)) else q[0].1
  }

  /** The quoted payload as the side-cache leaves it (lib/simple.js:1199-1207):
      a leading `conversation` entry becomes an `extendedTextMessage` record
      with that text, and the first entry's context gets the reply's mentions,
      else its own, else none. The source throws, and so this fails, when the
      payload has no entry or its first entry is a string under any other key. */
  function RewriteQuoted(ctx: ContextInfo, q: Message): (r: Result<Message, Failure>)
    ensures r.Err? <==> |q| == 0 || (q[0].0 != Conversation && q[0].1.Str?)
    ensures r.Ok? ==>
      var t := QuotedType(q);
      && Get(r.value, t).Some? && Get(r.value, t).value.Rec?
      && Get(r.value, t).value.contextInfo.Some?
      && Get(r.value, t).value.contextInfo.value.mentionedJid.Some?
      && (ctx.mentionedJid.Some? ==> Get(r.value, t).value.contextInfo.value.mentionedJid == ctx.mentionedJid)
      && (forall k {:trigger Get(r.value, k)} :: k != t && k != Conversation ==> Get(r.value, k) == Get(q, k))
    ensures r.Ok? ==>
      var own := QuotedRecord(q);
      var qctx := own.contextInfo.GetOr(EmptyContext);
      var c := Get(r.value, QuotedType(q)).value;
      && c.(contextInfo := own.contextInfo) == own
      && c.contextInfo.value.(mentionedJid := qctx.mentionedJid) == qctx
      && (ctx.mentionedJid.None? && qctx.mentionedJid.Some? ==> c.contextInfo.value.mentionedJid == qctx.mentionedJid)
      && (ctx.mentionedJid.None? && qctx.mentionedJid.None? ==> c.contextInfo.value.mentionedJid == Some([]))
    ensures r.Ok? && q[0].0 == Conversation ==>
      && !Has(r.value, Conversation)
      && Get(r.value, ExtendedTextMessage).value.text == ConversationText(q[0].1)
    ensures r.Ok? && q[0].0 != Conversation ==>
      && Keys(r.value) == Keys(q)
      && Get(r.value, q[0].0).value == q[0].1.(contextInfo := Get(r.value, q[0].0).value.contextInfo)
  {
    if |q| == 0 then Err(TypeError("quoted[qMtype]"))
    else if q[0].0 != Conversation && q[0].1.Str? then Err(TypeError("quoted[qMtype].contextInfo"))
    else
      var t := QuotedType(q);
      var q1 := if q[0].0 == Conversation
        then Remove(Set(q, ExtendedTextMessage, EmptyRec.(text := ConversationText(q[0].1))), Conversation)
        else q;
      IndexOfAt(q, q[0].0, 0);
      var c := Get(q1, t).value;
      var qctx := c.contextInfo.GetOr(EmptyContext);
      var mentions := if ctx.mentionedJid.Some? then ctx.mentionedJid
                      else if qctx.mentionedJid.Some? then qctx.mentionedJid
                      else Some([]);
      Ok(Set(q1, t, c.(contextInfo := Some(qctx.(mentionedJid := mentions)))))
  }

  /** The history entry the side-cache files for a quote (lib/simple.js:1210-1219):
      keyed by the reply's `stanzaId`, marked outgoing when the quote's chat is
      the session's own, with the author as participant in a group. */
  function QuoteEntry(env: Env, ctx: ContextInfo, q: Message): (entry: Envelope)
    ensures entry.key.id == ctx.stanzaId && entry.key.remoteJid == QuoteRemote(env, ctx)
    ensures entry.key.participant == QuoteTarget(env, ctx)
    ensures entry.key.fromMe <==> env.sameUser(OwnJid(env), QuoteRemote(env, ctx))
    ensures entry.message == Some(q)
    ensures entry.participant == (if QuoteInGroup(QuoteRemote(env, ctx)) then QuoteTarget(env, ctx) else "")
  {
    var remote := QuoteRemote(env, ctx);
    var target := QuoteTarget(env, ctx);
    Envelope(MsgKey(remote, env.sameUser(OwnJid(env), remote), ctx.stanzaId, target), Some(q),
             if QuoteInGroup(remote) then target else "", "", 0, [])
  }

  /** The envelope with its reply's quoted payload replaced: the side-cache
      rewrites that payload in place, so the copy filed later carries it. */
  function WithQuoted(e: Envelope, mtype: Option<string>, q: Message): (r: Envelope)
    ensures r.key == e.key && r.stubType == e.stubType && r.participant == e.participant
    ensures r.pushName == e.pushName && r.stubParameters == e.stubParameters
    ensures r.message.Some? <==> e.message.Some?
    ensures ReplyContext(e, mtype).None? ==> r == e
    ensures ReplyContext(e, mtype).Some? ==> ReplyContext(r, mtype) == Some(ReplyContext(e, mtype).value.(quotedMessage := Some(q)))
    ensures ReplyContext(e, mtype).Some? ==>
      && Keys(r.message.value) == Keys(e.message.value)
      && (forall k {:trigger Get(r.message.value, k)} :: k != mtype.value ==> Get(r.message.value, k) == Get(e.message.value, k))
      && TypedContent(r, mtype).value.(contextInfo := TypedContent(e, mtype).value.contextInfo) == TypedContent(e, mtype).value
  {
    var c := TypedContent(e, mtype);
    if ReplyContext(e, mtype).Some? then
      var ctx := c.value.contextInfo.value;
      e.(message := Some(Set(e.message.value, mtype.value, c.value.(contextInfo := Some(ctx.(quotedMessage := Some(q)))))))
    else e
  }

  /** The store and the envelope after the side-cache. */
  datatype Cached = Cached(chats: Chats, envelope: Envelope)

  /** The quote side-cache (lib/simple.js:1186-1226). The quoted message is
      filed in the target chat's history under the reply's `stanzaId`, the
      chat being created if absent (flagged as a conversation unless the quote
      came from a group). An entry already under that id is never replaced
      and a quote of the session's own message is never filed. */
  function CacheQuote(env: Env, st: Chats, e: Envelope, mtype: Option<string>): (r: Result<Cached, Failure>)
    ensures !QuoteActive(env, e, mtype) ==> r == Ok(Cached(st, e))
    ensures QuoteActive(env, e, mtype) ==>
      var ctx := ReplyContext(e, mtype).value;
      (r.Err? <==> RewriteQuoted(ctx, ctx.quotedMessage.value).Err?)
    ensures QuoteActive(env, e, mtype) && r.Ok? ==>
      var ctx := ReplyContext(e, mtype).value;
      var t := QuoteTarget(env, ctx);
      var q := RewriteQuoted(ctx, ctx.quotedMessage.value).value;
      var h := ChatOr(st, t).messages;
      && Get(r.value.chats, t).Some?
      && (forall k {:trigger Get(r.value.chats, k)} :: k != t ==> Get(r.value.chats, k) == Get(st, k))
      && r.value.envelope == WithQuoted(e, mtype, q)
      && (Valid(st) && (Has(h, ctx.stanzaId) || QuoteEntry(env, ctx, q).key.fromMe) ==>
            Get(r.value.chats, t).value.messages == h)
      && (Valid(st) && !Has(h, ctx.stanzaId) && !QuoteEntry(env, ctx, q).key.fromMe ==>
            Get(Get(r.value.chats, t).value.messages, ctx.stanzaId) == Some(QuoteEntry(env, ctx, q)))
    ensures Valid(st) && r.Ok? ==> Valid(r.value.chats)
  {
    if !QuoteActive(env, e, mtype) then Ok(Cached(st, e))
    else
      var ctx := ReplyContext(e, mtype).value;
      match RewriteQuoted(ctx, ctx.quotedMessage.value)
      case Err(f) => Err(f)
      case Ok(q) =>
        var t := QuoteTarget(env, ctx);
        var entry := QuoteEntry(env, ctx, q);
        var prev := if Has(st, t) then ChatOr(st, t)
                    else Chat(t, map[], !QuoteInGroup(QuoteRemote(env, ctx)), None, []);
        var h := if !Has(prev.messages, ctx.stanzaId) && !entry.key.fromMe
                 then Record(prev.messages, ctx.stanzaId, entry)
                 else TrimHistory(prev.messages);
        ValidSet(st, t, prev.(messages := h));
        Ok(Cached(Set(st, t, prev.(messages := h)), WithQuoted(e, mtype, q)))
  }

  // ---------------------------------------------------------------------
  // Filing the envelope (lib/simple.js:1227-1260)

  /** The chat record `pushMessage` works on (lib/simple.js:1230-1234): an
      unknown group first triggers `insertAllGroup`; a chat still unknown is
      created and flagged as a conversation. Its history is the one it had. */
  function EnsureChat(st: Chats, chat: string, all: Option<OMap<Metadata>>): (r: Chats)
    ensures Has(r, chat)
    ensures Has(st, chat) ==> r == st
    ensures ChatOr(r, chat).messages == ChatOr(st, chat).messages
    ensures !Has(st, chat) && !IsGroupJid(chat) ==> Get(r, chat) == Some(Chat(chat, map[], true, None, []))
    ensures !Has(st, chat) && !IsGroupJid(chat) ==> forall k {:trigger Get(r, k)} :: k != chat ==> Get(r, k) == Get(st, k)
    ensures !Has(st, chat) && IsGroupJid(chat) ==>
      var st1 := InsertAllGroup(st, all);
      && (forall k {:trigger Get(r, k)} :: k != chat ==> Get(r, k) == Get(st1, k))
      && (Has(st1, chat) ==> Get(r, chat) == Get(st1, chat))
      && (!Has(st1, chat) ==> Get(r, chat) == Some(Chat(chat, map[], true, None, [])))
    ensures Valid(st) ==> Valid(r)
  {
    if Has(st, chat) then st
    else
      var st1 := if IsGroupJid(chat) then InsertAllGroup(st, all) else st;
      InsertKeepsHistoryResyncDropsIt(st, all.GetOr([]), chat);
      ValidSet(st1, chat, Chat(chat, map[], true, None, []));
      if Has(st1, chat) then st1 else Set(st1, chat, Chat(chat, map[], true, None, []))
  }

  /** A group record's missing subject and metadata, filled from the provider
      (lib/simple.js:1236-1240); a rejected call counts as `{}`. Present values
      are never replaced, and after this the metadata is set. */
  function FillGroup(c: Chat, fetched: Option<Metadata>): (r: Chat)
    ensures r.id == c.id && r.isChats == c.isChats && r.messages == c.messages
    ensures r.metadata.Some?
    ensures c.metadata.Some? ==> r.metadata == c.metadata
    ensures c.metadata.None? ==> r.metadata == Some(fetched.GetOr(EmptyMetadata))
    ensures Field(c, "subject") != "" ==> r.fields == c.fields
    ensures Field(c, "subject") == "" ==> r.fields == c.fields["subject" := fetched.GetOr(EmptyMetadata).subject]
  {
    if Field(c, "subject") != "" && c.metadata.Some? then c
    else
      var m := fetched.GetOr(EmptyMetadata);
      c.(fields := if Field(c, "subject") == "" then c.fields["subject" := m.subject] else c.fields,
         metadata := if c.metadata.None? then Some(m) else c.metadata)
  }

  /** `if (!chats.name) chats.name = message.pushName || ''`. */
  function NameIfUnnamed(c: Chat, pushName: string): (r: Chat)
    ensures Field(c, "name") != "" ==> r == c
    ensures Field(c, "name") == "" ==> r == c.(fields := c.fields["name" := pushName])
  {
    if Field(c, "name") == "" then c.(fields := c.fields["name" := pushName]) else c
  }

  /** Whether the envelope itself is filed (lib/simple.js:1253): not a
      protocol message, not outgoing, not undecryptable, and with a payload. */
  predicate ShouldPersist(e: Envelope, mtype: Option<string>, fromMe: bool) {
    mtype != Some(ProtocolMessage) && !fromMe && e.stubType != Ciphertext && e.message.Some?
  }

  /** The copy filed in the history (lib/simple.js:1254-1256): the envelope
      without its payload's two wrapper entries; every other entry is kept. */
  function Stored(e: Envelope): (r: Envelope)
    requires e.message.Some?
    ensures r.key == e.key && r.message.Some?
    ensures !Has(r.message.value, MessageContextInfo) && !Has(r.message.value, SenderKeyDistributionMessage)
    ensures forall k {:trigger Get(r.message.value, k)} :: !IsWrapperKey(k) ==> Get(r.message.value, k) == Get(e.message.value, k)
    ensures r.participant == e.participant && r.pushName == e.pushName && r.stubType == e.stubType
  {
    var m1 := Remove(e.message.value, MessageContextInfo);
    var m2 := Remove(m1, SenderKeyDistributionMessage);
    assert Get(m2, MessageContextInfo) == Get(m1, MessageContextInfo);
    e.(message := Some(m2))
  }

  /** `fromMe` as `pushMessage` computes it (lib/simple.js:1252): the key's
      flag, or the sender (the chat, outside a group) being the session's user. */
  function PushFromMe(env: Env, e: Envelope, chat: string): bool {
    e.key.fromMe || env.sameUser(if IsGroupJid(chat) then SenderOf(env, e, chat) else chat, env.ownId)
  }

  /** Everything after the side-cache (lib/simple.js:1227-1260). */
  function FileMessage(env: Env, prov: Provider, st: Chats, e: Envelope, mtype: Option<string>): (r: Chats)
    ensures var chat := EnvelopeChat(env, e);
      chat == "" || chat == StatusBroadcast ==> r == st
    ensures var chat := EnvelopeChat(env, e);
      chat != "" && chat != StatusBroadcast ==>
        && Get(r, chat).Some?
        && (!ShouldPersist(e, mtype, PushFromMe(env, e, chat)) || (mtype.Some? && IsWrapperKey(mtype.value)) ==>
              Get(r, chat).value.messages == ChatOr(st, chat).messages)
        && (mtype.Some? && IsWrapperKey(mtype.value) ==> ChatOr(r, chat).isChats == ChatOr(EnsureChat(st, chat, prov.allParticipating), chat).isChats)
        && (mtype.None? || !IsWrapperKey(mtype.value) ==> Get(r, chat).value.isChats)
        && (Valid(st) && !(mtype.Some? && IsWrapperKey(mtype.value)) && ShouldPersist(e, mtype, PushFromMe(env, e, chat)) ==>
              Get(Get(r, chat).value.messages, e.key.id) == Some(Stored(e)))
    ensures var chat := EnvelopeChat(env, e);
      var c := ChatOr(EnsureChat(st, chat, prov.allParticipating), chat);
      chat != "" && chat != StatusBroadcast && IsGroupJid(chat) ==>
        && Get(r, chat).value.fields == FillGroup(c, prov.groupMetadata(chat)).fields
        && Get(r, chat).value.metadata == FillGroup(c, prov.groupMetadata(chat)).metadata
    ensures var chat := EnvelopeChat(env, e);
      var c := ChatOr(EnsureChat(st, chat, prov.allParticipating), chat);
      chat != "" && chat != StatusBroadcast && !IsGroupJid(chat) ==>
        && Get(r, chat).value.fields == NameIfUnnamed(c, e.pushName).fields
        && Get(r, chat).value.metadata == c.metadata
    ensures var chat := EnvelopeChat(env, e);
      var sender := SenderOf(env, e, chat);
      var st1 := EnsureChat(st, chat, prov.allParticipating);
      chat != "" && chat != StatusBroadcast && IsGroupJid(chat) && sender != chat ==>
        Get(r, sender) == Some(NameIfUnnamed(ChatOr(st1, sender), e.pushName))
    ensures var chat := EnvelopeChat(env, e);
      var sender := SenderOf(env, e, chat);
      var st1 := EnsureChat(st, chat, prov.allParticipating);
      chat != "" && chat != StatusBroadcast ==>
        forall k {:trigger Get(r, k)} :: k != chat && (!IsGroupJid(chat) || k != sender) ==> Get(r, k) == Get(st1, k)
    ensures Valid(st) ==> Valid(r)
  {
    var chat := EnvelopeChat(env, e);
    if chat == "" || chat == StatusBroadcast then st
    else
      var st1 := EnsureChat(st, chat, prov.allParticipating);
      var c := ChatOr(st1, chat);
      var c1 := if IsGroupJid(chat) then FillGroup(c, prov.groupMetadata(chat)) else NameIfUnnamed(c, e.pushName);
      ValidSet(st1, chat, c1);
      var st2 := Set(st1, chat, c1);
      var sender := SenderOf(env, e, chat);
      var st3 := if IsGroupJid(chat) && sender != chat then NameSender(st2, sender, e.pushName) else st2;
      assert Get(st3, chat) == Some(c1);
      if mtype.Some? && IsWrapperKey(mtype.value) then st3
      else
        var c2 := c1.(isChats := true);
        var c3 := if ShouldPersist(e, mtype, PushFromMe(env, e, chat))
                  then c2.(messages := Record(c2.messages, e.key.id, Stored(e)))
                  else c2;
        ValidSet(st3, chat, c3);
        Set(st3, chat, c3)
  }

  /** A group message names its sender's own record after the sender's push
      name, creating the record if needed (lib/simple.js:1243-1247). */
  function NameSender(st: Chats, sender: string, pushName: string): (r: Chats)
    ensures Get(r, sender) == Some(NameIfUnnamed(ChatOr(st, sender), pushName))
    ensures forall k {:trigger Get(r, k)} :: k != sender ==> Get(r, k) == Get(st, k)
    ensures Valid(st) ==> Valid(r)
  {
    var c := NameIfUnnamed(ChatOr(st, sender), pushName);
    ValidSet(st, sender, c);
    Set(st, sender, c)
  }

  // ---------------------------------------------------------------------
  // The loop

  /** One envelope: the stub unless the envelope is undecryptable, then the
      side-cache, then the filing. When the side-cache throws, the envelope is
      abandoned with the stub's effect kept. */
  function PushOne(env: Env, prov: Provider, st: Chats, e: Envelope): (r: Chats)
    ensures Valid(st) ==> Valid(r)
  {
    var st1 := if e.stubType != Ciphertext then ApplyStub(env, st, e, prov.groupMetadata) else st;
    var mtype := ResolveType(PayloadKeys(e.message));
    match CacheQuote(env, st1, e, mtype)
    case Err(_) => st1
    case Ok(Cached(st2, e2)) => FileMessage(env, prov, st2, e2, mtype)
  }

  /** `conn.pushMessage(messages)`: the envelopes in order. */
  function PushMessage(env: Env, prov: Provider, st: Chats, es: seq<Envelope>): (r: Chats)
    ensures Valid(st) ==> Valid(r)
    decreases |es|
  {
    if |es| == 0 then st else PushMessage(env, prov, PushOne(env, prov, st, es[0]), es[1..])
  }

  /** The direct text message of the example below. */
  function HelloEnvelope(): Envelope {
    Envelope(MsgKey("111@s.whatsapp.net", false, "ABC123", ""),
             Some([(Conversation, Str("hello"))]), "", "", 0, [])
  }

  /** The example envelope is a direct message from 111@s.whatsapp.net. */
  lemma HelloEnvelopeChat(env: Env)
    ensures EnvelopeChat(env, HelloEnvelope()) == "111@s.whatsapp.net"
    ensures !IsGroupJid("111@s.whatsapp.net")
  {
    var chat := "111@s.whatsapp.net";
    assert "111" + "@" + "s.whatsapp.net" == chat;
    PlainJidFixed(env, "111", "s.whatsapp.net");
    assert chat[|chat| - 5..] != GroupServer by {
      assert chat[|chat| - 5] != GroupServer[0];
    }
  }

  /** The example envelope is a conversation message with no quote. */
  lemma HelloEnvelopeShape(env: Env)
    ensures var e := HelloEnvelope();
      && ResolveType(PayloadKeys(e.message)) == Some(Conversation)
      && !QuoteActive(env, e, Some(Conversation))
  {
    var e := HelloEnvelope();
    var msg := e.message.value;
    assert ResolveType(PayloadKeys(e.message)) == Some(Conversation) by {
      assert PayloadKeys(e.message) == [Conversation];
    }
    assert TypedContent(e, Some(Conversation)) == Some(Str("hello")) by {
      IndexOfAt(msg, Conversation, 0);
    }
  }

  /** The example envelope skips the stub and the side-cache, and is filed. */
  lemma HelloEnvelopeRoute(env: Env, prov: Provider, st: Chats)
    requires !env.sameUser("111@s.whatsapp.net", env.ownId)
    ensures var e := HelloEnvelope();
      && EnvelopeChat(env, e) == "111@s.whatsapp.net"
      && PushOne(env, prov, st, e) == FileMessage(env, prov, st, e, Some(Conversation))
      && ShouldPersist(e, Some(Conversation), PushFromMe(env, e, "111@s.whatsapp.net"))
  {
    var e := HelloEnvelope();
    var mtype := Some(Conversation);
    HelloEnvelopeChat(env);
    HelloEnvelopeShape(env);
    assert !StubApplies(env, e);
    assert CacheQuote(env, st, e, mtype) == Ok(Cached(st, e));
  }

  /** A direct text message "hello" with id ABC123 from 111@s.whatsapp.net
      leaves that chat flagged as a conversation, with the message filed
      under ABC123. */
  lemma DirectMessageFiled(env: Env, prov: Provider, st: Chats)
    requires Valid(st)
    requires !env.sameUser("111@s.whatsapp.net", env.ownId)
    ensures
      var r := PushOne(env, prov, st, HelloEnvelope());
      && Get(r, "111@s.whatsapp.net").Some?
      && Get(r, "111@s.whatsapp.net").value.isChats
      && Get(Get(r, "111@s.whatsapp.net").value.messages, "ABC123").Some?
      && Get(Get(r, "111@s.whatsapp.net").value.messages, "ABC123").value.message.Some?
      && Get(Get(Get(r, "111@s.whatsapp.net").value.messages, "ABC123").value.message.value, Conversation)
           == Some(Str("hello"))
  {
    var e := HelloEnvelope();
    HelloEnvelopeRoute(env, prov, st);
    assert !IsWrapperKey(Conversation);
    assert Get(Stored(e).message.value, Conversation) == Some(Str("hello")) by {
      IndexOfAt(e.message.value, Conversation, 0);
    }
  }
}

=== FILE: quote.dfy ===
/** `m.getQuotedObj` (lib/simple.js:1427-1431): the message a reply quotes,
    looked up in the store by the quoted id and normalised, with the
    synthetic envelope built from the quote as the fallback. */
module Quote {
  import opened Wrappers
  import opened OrderedMap
  import opened Strings
  import opened Jid
  import opened Payload
  import opened Normalize
  import opened Store

  /** `await m.getQuotedObj()`: `null` (here `None`) when the quote has no
      id; otherwise the normalised stored message, or the normalised
      synthetic envelope when the lookup finds nothing. The lookup answers
      from the first chat whose history mentions the id, and only with its
      entry filed under that id. */
  function GetQuotedObj(env: Env, st: Chats, qu: Quoted): (r: Option<Result<Msg, Failure>>)
    ensures r.None? <==> qu.id == ""
    ensures qu.id != "" && FirstChatWith(st, qu.id).Some?
            && Get(st[FirstChatWith(st, qu.id).value].1.messages, qu.id).Some? ==>
      r == Some(Normalize.Normalize(env, Get(st[FirstChatWith(st, qu.id).value].1.messages, qu.id).value))
    ensures qu.id != "" && (FirstChatWith(st, qu.id).None?
            || Get(st[FirstChatWith(st, qu.id).value].1.messages, qu.id).None?) ==>
      r == Some(Normalize.Normalize(env, qu.fakeObj))
  {
    if qu.id == "" then None
    else Some(Normalize.Normalize(env, LoadMessage(st, qu.id).GetOr(qu.fakeObj)))
  }

  /** The synthetic envelope's payload is the quoted payload with at most the
      first entry's text rewritten, so its main content carries the same
      context as the quoted payload's own. */
  lemma FakePayloadContext(env: Env, ctx: ContextInfo, q: Message, chat: string, sender: string, isGroup: bool)
    requires QuoteOf(env, ctx, q, chat, sender, isGroup).Ok?
    ensures var fm := QuoteOf(env, ctx, q, chat, sender, isGroup).value.fakeObj.message.value;
      && |fm| == |q| > 0
      && MainType(fm) == MainType(q)
      && MainContent(fm).Context() == MainContent(q).Context()
  {
    var fm := QuoteOf(env, ctx, q, chat, sender, isGroup).value.fakeObj.message.value;
    assert Keys(fm) == Keys(q);
    var t := MainType(q);
    if q[0].1.Rec? {
      IndexOfAt(q, q[0].0, 0);
      assert fm == Set(q, q[0].0, fm[0].1);
      if t == q[0].0 {
        IndexOfAt(fm, t, 0);
        IndexOfAt(q, t, 0);
      }
    }
  }

  /** Normalising the synthetic envelope of a quote: a quote whose chat
      resolved to "" cannot be normalised; otherwise it fails only when the
      quoted content itself quotes an empty payload. A normalised quote keeps
      the quote's id, takes the type the tie-break picks from the quoted
      payload (the quote's own type whenever that first entry is not a
      wrapper), lands in the quote's chat unless the status correction
      re-homes it, and an outgoing quote is attributed to the session. */
  lemma SyntheticQuoteNormalizes(env: Env, ctx: ContextInfo, q: Message, chat: string, sender: string, isGroup: bool)
    requires QuoteOf(env, ctx, q, chat, sender, isGroup).Ok?
    ensures var qu := QuoteOf(env, ctx, q, chat, sender, isGroup).value;
      var r := Normalize.Normalize(env, qu.fakeObj);
      && (qu.chat == "" ==> r == Err(ReferenceError("message")))
      && (qu.chat != "" ==> (r.Ok? <==> !QuotesEmpty(MainContent(q))))
      && (r.Ok? ==>
            && r.value.id == qu.id
            && (r.value.isBaileys <==> IsBaileysId(qu.id))
            && r.value.body.Some?
            && r.value.body.value.mtype == MainType(q)
            && (q[0].0 != "" && !IsWrapperKey(q[0].0) ==> r.value.body.value.mtype == qu.mtype)
            && r.value.chat == CorrectStatusChat(DecodeJid(env, qu.chat), MainType(q), qu.chat, r.value.sender)
            && (qu.fromMe ==> r.value.fromMe && r.value.sender == OwnJid(env)))
  {
    FakePayloadContext(env, ctx, q, chat, sender, isGroup);
  }

  /** The quote's own `isBaileys` looks at the length only, so a library id
      of the 12-character form is not recognised on the quote although the
      normalised quoted message recognises it. */
  lemma QuotedIsBaileysNarrower(env: Env, ctx: ContextInfo, q: Message)
    requires ctx.stanzaId == "3EB0AABBCCDD"
    requires QuoteOf(env, ctx, q, "c@s.whatsapp.net", "c@s.whatsapp.net", false).Ok?
    ensures var qu := QuoteOf(env, ctx, q, "c@s.whatsapp.net", "c@s.whatsapp.net", false).value;
      !qu.isBaileys && IsBaileysId(qu.id)
  {
  }

  /** When the only chat mentioning the id holds it just inside a stored key,
      the lookup comes back empty and the synthetic envelope is used, even
      though a later chat holds the message under that id. */
  lemma GetQuotedObjFallsBack(env: Env, qu: Quoted)
    requires qu.id == "ID1"
    ensures
      var k := MsgKey("a@s.whatsapp.net", false, "ID1", "");
      var e := Envelope(k, None, "", "", 0, []);
      var st := [("a@s.whatsapp.net", Chat("a@s.whatsapp.net", map[], true, None, [("OTHER", e)])),
                 ("b@s.whatsapp.net", Chat("b@s.whatsapp.net", map[], true, None, [("ID1", e)]))];
      GetQuotedObj(env, st, qu) == Some(Normalize.Normalize(env, qu.fakeObj))
  {
    LoadMessageMissesByInnerId();
  }
}

=== FILE: store.dfy ===
/** The conversation store `conn.chats`: one record per canonical id, each
    with a bounded message history, and the event handlers that merge into it
    (lib/simple.js:59-75, 97-140, 1007-1013, 1084-1100, 1144-1148, and the
    history trim of 1225 and 1257-1258).

    The table and each history are ordered maps, as JavaScript objects are.
    The group-metadata provider is an oracle: its answer is a parameter, with
    `None` for a rejected call. */
module Store {
  import opened Wrappers
  import opened OrderedMap
  import opened Strings
  import opened Jid
  import opened Payload

  /** A history over this many entries is trimmed... */
  const HistoryCap: nat := 40
  /** ...by dropping this many of its oldest entries. */
  const HistoryDrop: nat := 30

  /** The group metadata the provider returns. */
  datatype Metadata = Metadata(id: string, subject: string, participants: seq<string>)

  /** `{}`, which `pushMessage` stores when the provider fails (lib/simple.js:1238). */
  const EmptyMetadata: Metadata := Metadata("", "", [])

  /** A chat's `messages` object: message id to stored envelope. */
  type History = OMap<Envelope>

  /** A conversation record. `fields` holds its string properties (`name`,
      `subject`, `notify`, `vname`, `verifiedName`, and whatever else a
      contact or group update carried); `isChats` is false when unset. */
  datatype Chat = Chat(
    id: string,
    fields: map<string, string>,
    isChats: bool,
    metadata: Option<Metadata>,
    messages: History)

  /** `conn.chats`. */
  type Chats = OMap<Chat>

  /** `{ id }`. */
  function NewChat(id: string): Chat {
    Chat(id, map[], false, None, [])
  }

  /** `chat[name]`, "" when unset. */
  function Field(c: Chat, name: string): string {
    if name in c.fields then c.fields[name] else ""
  }

  /** `conn.chats[id] || { id }`. */
  function ChatOr(st: Chats, id: string): Chat {
    Get(st, id).GetOr(NewChat(id))
  }

  /** A record is filed under its own id and its history is a proper object
      within the cap. */
  ghost predicate ValidChat(id: string, c: Chat) {
    c.id == id && Distinct(c.messages) && |c.messages| <= HistoryCap
  }

  /** One record per id, each valid. */
  ghost predicate Valid(st: Chats) {
    Distinct(st) && forall i :: 0 <= i < |st| ==> ValidChat(st[i].0, st[i].1)
  }

  /** Writing a valid record under its own id keeps the table valid. */
  lemma ValidSet(st: Chats, id: string, c: Chat)
    ensures Valid(st) && ValidChat(id, c) ==> Valid(Set(st, id, c))
  {
    if Valid(st) && ValidChat(id, c) {
      var r := Set(st, id, c);
      forall i | 0 <= i < |r| ensures ValidChat(r[i].0, r[i].1) {
        assert r[i] in r;
      }
    }
  }

  // ---------------------------------------------------------------------
  // History

  /** The overflow trim (lib/simple.js:1225 and 1258): a history of more than
      40 entries loses its 30 oldest; the rest stays in order. */
  function TrimHistory(h: History): (r: History)
    ensures |h| <= HistoryCap ==> r == h
    ensures |h| > HistoryCap ==> |r| == |h| - HistoryDrop
    ensures |r| <= |h| && r == h[|h| - |r|..]
    ensures |h| > 0 ==> |r| > 0 && r[|r| - 1] == h[|h| - 1]
    ensures |h| <= HistoryCap + 1 ==> |r| <= HistoryCap
    ensures Distinct(h) ==> Distinct(r)
  {
    if |h| > HistoryCap then DropFirst(h, HistoryDrop) else h
  }

  /** Writing one more entry into a full history of 40 leaves 11. */
  lemma TrimHistoryAtOverflow(h: History)
    requires |h| == HistoryCap + 1
    ensures |TrimHistory(h)| == 11
    ensures TrimHistory(h) == h[30..]
  {
  }

  /** `messages[id] = e` followed by the trim. On a history within the cap
      with distinct keys, the entry just written always survives, the bound and
      distinct keys are kept, and every other entry is kept or dropped, never
      altered. */
  function Record(h: History, id: string, e: Envelope): (r: History)
    ensures Distinct(h) && |h| <= HistoryCap ==>
      && Distinct(r) && |r| <= HistoryCap
      && Get(r, id) == Some(e)
      && (forall k {:trigger Get(r, k)} :: k != id ==> Get(r, k) == Get(h, k) || Get(r, k).None?)
    ensures Has(h, id) && |h| <= HistoryCap ==> r == Set(h, id, e)
  {
    RecordSpec(h, id, e);
    TrimHistory(Set(h, id, e))
  }

  lemma RecordSpec(h: History, id: string, e: Envelope)
    ensures Distinct(h) && |h| <= HistoryCap ==>
      var r := TrimHistory(Set(h, id, e));
      && Get(r, id) == Some(e)
      && forall k {:trigger Get(r, k)} :: k != id ==> Get(r, k) == Get(h, k) || Get(r, k).None?
  {
    var h' := Set(h, id, e);
    var r := TrimHistory(h');
    if Distinct(h) && |h| <= HistoryCap && |h'| > HistoryCap {
      assert !Has(h, id);
      assert r[|r| - 1] == (id, e) by {
        assert Keys(h') == Keys(h) + [id];
        assert h'[|h'| - 1].0 == id;
        GetOfMember(h', id, h'[|h'| - 1].1);
      }
      GetOfMember(r, id, e);
      forall k | k != id && Get(r, k).Some? ensures Get(r, k) == Get(h, k) {
        GetOfMember(h', k, Get(r, k).value);
      }
    }
  }

  // ---------------------------------------------------------------------
  // contacts.upsert / groups.update: updateNameToDb

  /** A contact or group update: its id and its other string properties. */
  datatype Contact = Contact(id: string, fields: map<string, string>)

  function ContactField(c: Contact, name: string): string {
    if name in c.fields then c.fields[name] else ""
  }

  /** The display name a contact leaves on its record: the subject for a
      group, otherwise the contact's `notify` (its `name` is not used). */
  function MergedName(id: string, c: Contact, prev: Chat): (kv: (string, string))
    ensures IsGroupJid(id) ==> kv.0 == "subject" && kv.1 == Or(ContactField(c, "subject"), Field(prev, "subject"))
    ensures !IsGroupJid(id) ==>
      kv.0 == "name" && kv.1 == Or(ContactField(c, "notify"), Or(Field(prev, "name"), Field(prev, "notify")))
  {
    if IsGroupJid(id) then ("subject", Or(ContactField(c, "subject"), Field(prev, "subject")))
    else ("name", Or(ContactField(c, "notify"), Or(Field(prev, "name"), Field(prev, "notify"))))
  }

  /** One step of `updateNameToDb` (lib/simple.js:62-73): the record under the
      decoded id gets the contact's properties over its own, then the merged
      name or subject. Nothing else changes. */
  function MergeContact(env: Env, st: Chats, c: Contact): (r: Chats)
    ensures DecodeJid(env, c.id) == "" ==> r == st
    ensures DecodeJid(env, c.id) != "" ==>
      var id := DecodeJid(env, c.id);
      var prev := ChatOr(st, id);
      var kv := MergedName(id, c, prev);
      && Get(r, id).Some?
      && Get(r, id).value.id == id
      && Get(r, id).value.fields == prev.fields + c.fields + map[kv.0 := kv.1]
      && Get(r, id).value.isChats == prev.isChats
      && Get(r, id).value.metadata == prev.metadata
      && Get(r, id).value.messages == prev.messages
      && (forall k {:trigger Get(r, k)} :: k != id ==> Get(r, k) == Get(st, k))
    ensures Valid(st) ==> Valid(r)
  {
    var id := DecodeJid(env, c.id);
    if id == "" then st
    else
      var prev := ChatOr(st, id);
      var kv := MergedName(id, c, prev);
      var chat := prev.(id := id, fields := prev.fields + c.fields + map[kv.0 := kv.1]);
      ValidSet(st, id, chat);
      Set(st, id, chat)
  }

  /** `updateNameToDb(contacts)`: the contacts merged one after another. */
  function UpdateNameToDb(env: Env, st: Chats, contacts: seq<Contact>): (r: Chats)
    ensures Valid(st) ==> Valid(r)
    ensures |r| >= |st|
    ensures forall k {:trigger Get(r, k)} :: Get(st, k).Some? ==> Get(r, k).Some?
    ensures forall k {:trigger Get(r, k)} :: !NamesContact(env, contacts, k) ==> Get(r, k) == Get(st, k)
    decreases |contacts|
  {
    if |contacts| == 0 then st
    else UpdateNameToDb(env, MergeContact(env, st, contacts[0]), contacts[1..])
  }

  /** Some contact of the batch decodes to `k`. */
  predicate NamesContact(env: Env, contacts: seq<Contact>, k: string)
    decreases |contacts|
  {
    |contacts| > 0 && (DecodeJid(env, contacts[0].id) == k || NamesContact(env, contacts[1..], k))
  }

  /** A name or subject that is already set is never blanked by a merge:
      a contact with an empty `notify` or `subject` keeps the prev one. */
  lemma MergeNeverBlanks(env: Env, st: Chats, c: Contact)
    requires DecodeJid(env, c.id) != ""
    ensures var id := DecodeJid(env, c.id);
      var key := if IsGroupJid(id) then "subject" else "name";
      Field(ChatOr(st, id), key) != "" ==> Field(ChatOr(MergeContact(env, st, c), id), key) != ""
  {
  }

  /** The merged name is stable: a record that already carries a contact's
      properties and merged name gets the same name from it again. */
  lemma MergedNameStable(id: string, c: Contact, prev: Chat)
    ensures var kv := MergedName(id, c, prev);
      MergedName(id, c, prev.(fields := prev.fields + c.fields + map[kv.0 := kv.1])) == kv
  {
  }

  /** A record the contact has been merged into is left as it is by merging
      the contact again. */
  lemma MergedRecordStable(id: string, c: Contact, prev: Chat)
    ensures var kv := MergedName(id, c, prev);
      var chat1 := prev.(id := id, fields := prev.fields + c.fields + map[kv.0 := kv.1]);
      var kv1 := MergedName(id, c, chat1);
      chat1.(id := id, fields := chat1.fields + c.fields + map[kv1.0 := kv1.1]) == chat1
  {
    var kv := MergedName(id, c, prev);
    var chat1 := prev.(id := id, fields := prev.fields + c.fields + map[kv.0 := kv.1]);
    MergedNameStable(id, c, prev);
    assert MergedName(id, c, chat1) == kv;
    assert chat1.fields + c.fields + map[kv.0 := kv.1] == chat1.fields;
  }

  /** Merging the same contact twice is merging it once. */
  lemma MergeContactIdempotent(env: Env, st: Chats, c: Contact)
    ensures MergeContact(env, MergeContact(env, st, c), c) == MergeContact(env, st, c)
  {
    var id := DecodeJid(env, c.id);
    if id != "" {
      var st1 := MergeContact(env, st, c);
      var prev := ChatOr(st, id);
      var kv := MergedName(id, c, prev);
      var chat1 := prev.(id := id, fields := prev.fields + c.fields + map[kv.0 := kv.1]);
      assert Get(st1, id) == Some(chat1);
      MergedRecordStable(id, c, prev);
      SetSame(st1, id, chat1);
    }
  }

  // ---------------------------------------------------------------------
  // group-participants.update and groups.update: metadata refresh

  /** The refresh after a successful provider call: subject and metadata are
      replaced, everything else kept. */
  function WithMetadata(c: Chat, m: Metadata): (r: Chat)
    ensures r.fields == c.fields["subject" := m.subject]
    ensures r.metadata == Some(m)
    ensures r.id == c.id && r.isChats == c.isChats && r.messages == c.messages
  {
    c.(fields := c.fields["subject" := m.subject], metadata := Some(m))
  }

  /** The refresh every group path performs (lib/simple.js:99-107, 117-122
      and 1134-1141): the record is created if absent and flagged as a
      conversation; a successful fetch then replaces its subject and metadata,
      a failed one leaves the cached ones. Nothing else changes. */
  function RefreshGroup(st: Chats, id: string, fetched: Option<Metadata>): (r: Chats)
    ensures Get(r, id).Some? && Get(r, id).value.isChats
    ensures Get(r, id).value.messages == ChatOr(st, id).messages
    ensures fetched.Some? ==> Get(r, id).value.metadata == fetched
                              && Get(r, id).value.fields == ChatOr(st, id).fields["subject" := fetched.value.subject]
    ensures fetched.None? ==> Get(r, id).value.metadata == ChatOr(st, id).metadata
                              && Get(r, id).value.fields == ChatOr(st, id).fields
    ensures Get(r, id) == Some(Refreshed(ChatOr(st, id), fetched))
    ensures forall k {:trigger Get(r, k)} :: k != id ==> Get(r, k) == Get(st, k)
    ensures Valid(st) ==> Valid(r)
  {
    var c' := Refreshed(ChatOr(st, id), fetched);
    ValidSet(st, id, c');
    Set(st, id, c')
  }

  /** One group record after the refresh: flagged as a conversation, then
      given the fetched subject and metadata when the fetch succeeded. */
  function Refreshed(c: Chat, fetched: Option<Metadata>): (r: Chat)
    ensures r.id == c.id && r.isChats && r.messages == c.messages
    ensures fetched.Some? ==> r.metadata == fetched && r.fields == c.fields["subject" := fetched.value.subject]
    ensures fetched.None? ==> r.metadata == c.metadata && r.fields == c.fields
  {
    var c1 := c.(isChats := true);
    if fetched.Some? then WithMetadata(c1, fetched.value) else c1
  }

  /** Refreshing a record twice with the same answer is refreshing it once. */
  lemma RefreshedTwice(c: Chat, fetched: Option<Metadata>)
    ensures Refreshed(Refreshed(c, fetched), fetched) == Refreshed(c, fetched)
  {
    if fetched.Some? {
      var f := c.fields["subject" := fetched.value.subject];
      assert f["subject" := fetched.value.subject] == f;
    }
  }

  /** `group-participants.update` (lib/simple.js:97-108): the refresh, on the
      decoded id, which is not checked for emptiness. */
  function ParticipantsUpdate(env: Env, st: Chats, id: string, fetched: Option<Metadata>): (r: Chats)
    ensures r == RefreshGroup(st, DecodeJid(env, id), fetched)
  {
    RefreshGroup(st, DecodeJid(env, id), fetched)
  }

  /** One update of `groupUpdatePushToDb` (lib/simple.js:111-123): the refresh,
      for group ids only. */
  function GroupUpdatePush(env: Env, st: Chats, u: Contact, fetch: string -> Option<Metadata>): (r: Chats)
    ensures !IsGroupJid(DecodeJid(env, u.id)) ==> r == st
    ensures IsGroupJid(DecodeJid(env, u.id)) ==>
      r == RefreshGroup(st, DecodeJid(env, u.id), fetch(DecodeJid(env, u.id)))
    ensures Valid(st) ==> Valid(r)
  {
    var id := DecodeJid(env, u.id);
    if id == "" || !IsGroupJid(id) then st
    else RefreshGroup(st, id, fetch(id))
  }

  function GroupsUpdatePush(env: Env, st: Chats, updates: seq<Contact>, fetch: string -> Option<Metadata>): (r: Chats)
    ensures Valid(st) ==> Valid(r)
    decreases |updates|
  {
    if |updates| == 0 then st
    else GroupsUpdatePush(env, GroupUpdatePush(env, st, updates[0], fetch), updates[1..], fetch)
  }

  /** Some update of the batch decodes to the group id `k`. */
  predicate RefreshesGroup(env: Env, updates: seq<Contact>, k: string)
    decreases |updates|
  {
    IsGroupJid(k) && |updates| > 0 && (DecodeJid(env, updates[0].id) == k || RefreshesGroup(env, updates[1..], k))
  }

  /** The batch for one id: a group some update names ends up refreshed with
      its own fetch, however often it is named; every other record is
      untouched. */
  lemma {:induction false} GroupsUpdatePushSpec(env: Env, st: Chats, updates: seq<Contact>,
                                                fetch: string -> Option<Metadata>, k: string)
    ensures !RefreshesGroup(env, updates, k) ==> Get(GroupsUpdatePush(env, st, updates, fetch), k) == Get(st, k)
    ensures RefreshesGroup(env, updates, k) ==>
      Get(GroupsUpdatePush(env, st, updates, fetch), k) == Some(Refreshed(ChatOr(st, k), fetch(k)))
    decreases |updates|
  {
    if |updates| > 0 {
      var st1 := GroupUpdatePush(env, st, updates[0], fetch);
      assert GroupsUpdatePush(env, st, updates, fetch) == GroupsUpdatePush(env, st1, updates[1..], fetch);
      GroupsUpdatePushSpec(env, st1, updates[1..], fetch, k);
      var hit := IsGroupJid(k) && DecodeJid(env, updates[0].id) == k;
      if hit {
        assert Get(st1, k) == Some(Refreshed(ChatOr(st, k), fetch(k)));
        RefreshedTwice(ChatOr(st, k), fetch(k));
      } else {
        assert Get(st1, k) == Get(st, k);
      }
    }
  }

  /** The batch over every id at once. */
  lemma GroupsUpdatePushAll(env: Env, st: Chats, updates: seq<Contact>, fetch: string -> Option<Metadata>)
    ensures forall k {:trigger Get(GroupsUpdatePush(env, st, updates, fetch), k)} ::
      !RefreshesGroup(env, updates, k) ==> Get(GroupsUpdatePush(env, st, updates, fetch), k) == Get(st, k)
    ensures forall k {:trigger Get(GroupsUpdatePush(env, st, updates, fetch), k)} ::
      RefreshesGroup(env, updates, k) ==>
        Get(GroupsUpdatePush(env, st, updates, fetch), k) == Some(Refreshed(ChatOr(st, k), fetch(k)))
  {
    forall k ensures !RefreshesGroup(env, updates, k) ==> Get(GroupsUpdatePush(env, st, updates, fetch), k) == Get(st, k)
                 ensures RefreshesGroup(env, updates, k) ==>
                   Get(GroupsUpdatePush(env, st, updates, fetch), k) == Some(Refreshed(ChatOr(st, k), fetch(k)))
    {
      GroupsUpdatePushSpec(env, st, updates, fetch, k);
    }
  }

  /** A `groups.update` event runs both of its listeners in registration
      order: `updateNameToDb` (lib/simple.js:79), then `groupUpdatePushToDb`
      (lib/simple.js:110). A group an update names ends up as its merged
      record, flagged as a conversation and, when the fetch succeeds, with
      the fetched subject and metadata; the merged properties are kept.
      Every other record is as the name merge left it. */
  function OnGroupsUpdate(env: Env, st: Chats, updates: seq<Contact>, fetch: string -> Option<Metadata>): (r: Chats)
    ensures forall k {:trigger Get(r, k)} :: !RefreshesGroup(env, updates, k) ==>
      Get(r, k) == Get(UpdateNameToDb(env, st, updates), k)
    ensures forall k {:trigger Get(r, k)} :: RefreshesGroup(env, updates, k) ==>
      && Get(r, k).Some?
      && Get(r, k).value.isChats
      && Get(r, k).value.messages == ChatOr(UpdateNameToDb(env, st, updates), k).messages
      && (fetch(k).Some? ==>
            && Get(r, k).value.metadata == fetch(k)
            && Get(r, k).value.fields == ChatOr(UpdateNameToDb(env, st, updates), k).fields["subject" := fetch(k).value.subject])
      && (fetch(k).None? ==>
            && Get(r, k).value.metadata == ChatOr(UpdateNameToDb(env, st, updates), k).metadata
            && Get(r, k).value.fields == ChatOr(UpdateNameToDb(env, st, updates), k).fields)
    ensures Valid(st) ==> Valid(r)
  {
    GroupsUpdatePushAll(env, UpdateNameToDb(env, st, updates), updates, fetch);
    GroupsUpdatePush(env, UpdateNameToDb(env, st, updates), updates, fetch)
  }

  // ---------------------------------------------------------------------
  // chats.upsert and insertAllGroup

  /** No entry of `groups` is named `k`. */
  predicate Absent(groups: OMap<Metadata>, k: string) {
    forall i :: 0 <= i < |groups| ==> groups[i].0 != k
  }

  /** Entry `i` is the last one of `groups` under its name: a later write
      under that name would overwrite it. */
  predicate LastEntry(groups: OMap<Metadata>, i: int) {
    0 <= i < |groups| && forall j :: i < j < |groups| ==> groups[j].0 != groups[i].0
  }

  /** The record `chats.upsert` writes for a participating group
      (lib/simple.js:138): built from scratch, so the group's history and
      other properties are gone. */
  function FreshGroup(g: string, m: Metadata): Chat {
    Chat(g, map["subject" := m.subject], true, Some(m), [])
  }

  /** The resync of lib/simple.js:137-138: every participating group written
      afresh, in order. */
  function ResyncGroups(st: Chats, groups: OMap<Metadata>): (r: Chats)
    ensures forall i :: 0 <= i < |groups| ==> Get(r, groups[i].0).Some?
    ensures forall k {:trigger Get(r, k)} :: Get(st, k).Some? ==> Get(r, k).Some?
    ensures Valid(st) ==> Valid(r)
    decreases |groups|
  {
    if |groups| == 0 then st
    else
      var g := groups[0].0;
      var c := FreshGroup(g, groups[0].1);
      var st1 := Set(st, g, c);
      ValidSet(st, g, c);
      var r := ResyncGroups(st1, groups[1..]);
      assert forall i :: 1 <= i < |groups| ==> groups[i] == groups[1..][i - 1];
      r
  }

  /** After the resync, a participating group's record is the fresh one built
      from its last entry. */
  lemma {:induction false} ResyncGroupsLast(st: Chats, groups: OMap<Metadata>, k: string)
    ensures forall i {:trigger LastEntry(groups, i)} :: LastEntry(groups, i) && groups[i].0 == k ==>
      Get(ResyncGroups(st, groups), k) == Some(FreshGroup(k, groups[i].1))
    decreases |groups|
  {
    if |groups| > 0 {
      var g := groups[0].0;
      var st1 := Set(st, g, FreshGroup(g, groups[0].1));
      ResyncGroupsLast(st1, groups[1..], k);
      forall i | LastEntry(groups, i) && groups[i].0 == k
        ensures Get(ResyncGroups(st, groups), k) == Some(FreshGroup(k, groups[i].1))
      {
        if i > 0 {
          assert groups[1..][i - 1] == groups[i];
          assert LastEntry(groups[1..], i - 1);
        } else {
          assert forall j :: 0 <= j < |groups[1..]| ==> groups[1..][j] == groups[j + 1];
          ResyncUntouched(st1, groups[1..], k);
        }
      }
    }
  }

  /** `chatsUpsertPushToDb` (lib/simple.js:125-140). The payload is merged into
      the record under its raw (undecoded) id and flagged as a conversation;
      for a group the fetched metadata refreshes it (the payload's `name`
      taking precedence as subject) and then every participating group is
      written afresh. */
  function ChatsUpsert(st: Chats, u: Contact, fetched: Option<Metadata>, all: Option<OMap<Metadata>>): (r: Chats)
    ensures u.id == "" ==> r == st
    ensures u.id != "" && !IsGroupJid(u.id) ==>
      && Get(r, u.id).Some?
      && Get(r, u.id).value.isChats
      && Get(r, u.id).value.fields == ChatOr(st, u.id).fields + u.fields
      && Get(r, u.id).value.messages == ChatOr(st, u.id).messages
      && (forall k {:trigger Get(r, k)} :: k != u.id ==> Get(r, k) == Get(st, k))
    ensures u.id != "" && IsGroupJid(u.id) && Absent(all.GetOr([]), u.id) ==>
      var prev := ChatOr(st, u.id);
      && Get(r, u.id).Some?
      && Get(r, u.id).value.isChats
      && Get(r, u.id).value.messages == prev.messages
      && (fetched.None? ==> Get(r, u.id).value.fields == prev.fields + u.fields
                            && Get(r, u.id).value.metadata == prev.metadata)
      && (fetched.Some? ==> Get(r, u.id).value.metadata == fetched
                            && Get(r, u.id).value.fields == (prev.fields + u.fields)["subject" :=
                                 Or(ContactField(u, "name"), fetched.value.subject)])
    ensures u.id != "" && IsGroupJid(u.id) ==>
      forall i {:trigger LastEntry(all.GetOr([]), i)} :: LastEntry(all.GetOr([]), i) ==>
        Get(r, all.GetOr([])[i].0) == Some(FreshGroup(all.GetOr([])[i].0, all.GetOr([])[i].1))
    ensures u.id != "" && IsGroupJid(u.id) ==>
      forall k {:trigger Get(r, k)} :: k != u.id && Absent(all.GetOr([]), k) ==> Get(r, k) == Get(st, k)
    ensures Valid(st) ==> Valid(r)
  {
    if u.id == "" then st
    else
      var prev := ChatOr(st, u.id);
      var c := Chat(u.id, prev.fields + u.fields, true, prev.metadata, prev.messages);
      ValidSet(st, u.id, c);
      var st1 := Set(st, u.id, c);
      if !IsGroupJid(u.id) then st1
      else
        var c' := if fetched.None? then c
          else c.(fields := c.fields["subject" := Or(ContactField(u, "name"), fetched.value.subject)],
                  metadata := fetched);
        ValidSet(st1, u.id, c');
        var st2 := Set(st1, u.id, c');
        ResyncAll(st2, all.GetOr([]));
        ResyncGroups(st2, all.GetOr([]))
  }

  /** The resync over every key at once. */
  lemma ResyncAll(st: Chats, groups: OMap<Metadata>)
    ensures forall k {:trigger Get(ResyncGroups(st, groups), k)} :: Absent(groups, k) ==>
      Get(ResyncGroups(st, groups), k) == Get(st, k)
    ensures forall i {:trigger LastEntry(groups, i)} :: LastEntry(groups, i) ==>
      Get(ResyncGroups(st, groups), groups[i].0) == Some(FreshGroup(groups[i].0, groups[i].1))
  {
    forall k | Absent(groups, k) ensures Get(ResyncGroups(st, groups), k) == Get(st, k) {
      ResyncUntouched(st, groups, k);
    }
    forall i | LastEntry(groups, i)
      ensures Get(ResyncGroups(st, groups), groups[i].0) == Some(FreshGroup(groups[i].0, groups[i].1))
    {
      ResyncGroupsLast(st, groups, groups[i].0);
    }
  }

  /** The record `insertAllGroup` writes for group `g` over its previous
      record (lib/simple.js:1146): everything kept but the subject, the
      metadata and the conversation flag. */
  function InsertedChat(prev: Chat, g: string, m: Metadata): Chat {
    prev.(id := g, fields := prev.fields["subject" := m.subject], isChats := true, metadata := Some(m))
  }

  /** One write of `insertAllGroup` (lib/simple.js:1146): merged over the
      existing record. */
  function InsertGroup(st: Chats, g: string, m: Metadata): (r: Chats)
    ensures Get(r, g).Some?
    ensures Get(r, g).value.id == g && Get(r, g).value.isChats && Get(r, g).value.metadata == Some(m)
    ensures Get(r, g).value.fields == ChatOr(st, g).fields["subject" := m.subject]
    ensures Get(r, g).value.messages == ChatOr(st, g).messages
    ensures forall k {:trigger Get(r, k)} :: k != g ==> Get(r, k) == Get(st, k)
    ensures Valid(st) ==> Valid(r)
  {
    var c := InsertedChat(ChatOr(st, g), g, m);
    ValidSet(st, g, c);
    Set(st, g, c)
  }

  /** `conn.insertAllGroup()` (lib/simple.js:1144-1148); a failed fetch is an
      empty list. Each participating group's record ends up merged with its
      last entry; every other record is untouched. */
  function InsertAllGroup(st: Chats, groups: Option<OMap<Metadata>>): (r: Chats)
    ensures groups.None? ==> r == st
    ensures forall k {:trigger Get(r, k)} :: Absent(groups.GetOr([]), k) ==> Get(r, k) == Get(st, k)
    ensures forall i {:trigger LastEntry(groups.GetOr([]), i)} :: LastEntry(groups.GetOr([]), i) ==>
      var g := groups.GetOr([])[i].0;
      var m := groups.GetOr([])[i].1;
      && Get(r, g).Some?
      && Get(r, g).value.id == g && Get(r, g).value.isChats && Get(r, g).value.metadata == Some(m)
      && Get(r, g).value.fields == ChatOr(st, g).fields["subject" := m.subject]
      && Get(r, g).value.messages == ChatOr(st, g).messages
    ensures Valid(st) ==> Valid(r)
  {
    InsertAll(st, groups.GetOr([]));
    InsertGroups(st, groups.GetOr([]))
  }

  /** The writes of `insertAllGroup`, one per participating group in order. */
  function InsertGroups(st: Chats, groups: OMap<Metadata>): (r: Chats)
    ensures forall k {:trigger Get(r, k)} :: Get(st, k).Some? ==> Get(r, k).Some?
    ensures Valid(st) ==> Valid(r)
    decreases |groups|
  {
    if |groups| == 0 then st
    else InsertGroups(InsertGroup(st, groups[0].0, groups[0].1), groups[1..])
  }

  /** Names absent from the entries after the first are absent from the tail. */
  lemma AbsentTail(groups: OMap<Metadata>, k: string)
    requires |groups| > 0 && forall j :: 1 <= j < |groups| ==> groups[j].0 != k
    ensures Absent(groups[1..], k)
  {
    forall j | 0 <= j < |groups[1..]| ensures groups[1..][j].0 != k {
      assert groups[1..][j] == groups[j + 1];
    }
  }

  /** A second write for the same group overrides the first. */
  lemma InsertedChatTwice(p: Chat, g: string, m1: Metadata, m2: Metadata)
    ensures InsertedChat(InsertedChat(p, g, m1), g, m2) == InsertedChat(p, g, m2)
  {
    assert p.fields["subject" := m1.subject]["subject" := m2.subject] == p.fields["subject" := m2.subject];
  }

  /** A record no entry names is untouched by the batch of writes. */
  lemma {:induction false} InsertGroupsAbsent(st: Chats, groups: OMap<Metadata>, k: string)
    requires Absent(groups, k)
    ensures Get(InsertGroups(st, groups), k) == Get(st, k)
    decreases |groups|
  {
    if |groups| > 0 {
      AbsentTail(groups, k);
      InsertGroupsAbsent(InsertGroup(st, groups[0].0, groups[0].1), groups[1..], k);
    }
  }

  /** The last entry under a name, past the first entry, is the last one
      under that name in the tail. */
  lemma LastEntryTail(groups: OMap<Metadata>, i: int)
    requires LastEntry(groups, i) && i > 0
    ensures LastEntry(groups[1..], i - 1) && groups[1..][i - 1] == groups[i]
  {
  }

  /** An earlier write of one group is invisible once a later write of `k`
      is merged over the record. */
  lemma InsertGroupOverwritten(st: Chats, g: string, m: Metadata, k: string, m2: Metadata)
    ensures InsertedChat(ChatOr(InsertGroup(st, g, m), k), k, m2) == InsertedChat(ChatOr(st, k), k, m2)
  {
    if g == k {
      InsertedChatTwice(ChatOr(st, k), k, m, m2);
    }
  }

  /** A group's record after the batch is its previous record merged with the
      group's last entry. */
  lemma {:induction false} InsertGroupsLast(st: Chats, groups: OMap<Metadata>, i: int)
    requires LastEntry(groups, i)
    ensures Get(InsertGroups(st, groups), groups[i].0)
            == Some(InsertedChat(ChatOr(st, groups[i].0), groups[i].0, groups[i].1))
    decreases |groups|
  {
    var k := groups[i].0;
    var st1 := InsertGroup(st, groups[0].0, groups[0].1);
    assert InsertGroups(st, groups) == InsertGroups(st1, groups[1..]);
    if i > 0 {
      LastEntryTail(groups, i);
      InsertGroupsLast(st1, groups[1..], i - 1);
      InsertGroupOverwritten(st, groups[0].0, groups[0].1, k, groups[i].1);
    } else {
      AbsentTail(groups, k);
      InsertGroupsAbsent(st1, groups[1..], k);
    }
  }

  /** The batch of writes: a group's record is its previous record merged
      with the group's last entry, and a record no entry names is untouched. */
  lemma InsertGroupsSpec(st: Chats, groups: OMap<Metadata>, k: string)
    ensures Absent(groups, k) ==> Get(InsertGroups(st, groups), k) == Get(st, k)
    ensures forall i {:trigger LastEntry(groups, i)} :: LastEntry(groups, i) && groups[i].0 == k ==>
      Get(InsertGroups(st, groups), k) == Some(InsertedChat(ChatOr(st, k), k, groups[i].1))
  {
    if Absent(groups, k) {
      InsertGroupsAbsent(st, groups, k);
    }
    forall i | LastEntry(groups, i) && groups[i].0 == k
      ensures Get(InsertGroups(st, groups), k) == Some(InsertedChat(ChatOr(st, k), k, groups[i].1))
    {
      InsertGroupsLast(st, groups, i);
    }
  }

  /** The batch over every key at once. */
  lemma InsertAll(st: Chats, groups: OMap<Metadata>)
    ensures forall k {:trigger Get(InsertGroups(st, groups), k)} :: Absent(groups, k) ==>
      Get(InsertGroups(st, groups), k) == Get(st, k)
    ensures forall i {:trigger LastEntry(groups, i)} :: LastEntry(groups, i) ==>
      Get(InsertGroups(st, groups), groups[i].0) == Some(InsertedChat(ChatOr(st, groups[i].0), groups[i].0, groups[i].1))
  {
    forall k | Absent(groups, k) ensures Get(InsertGroups(st, groups), k) == Get(st, k) {
      InsertGroupsSpec(st, groups, k);
    }
    forall i | LastEntry(groups, i)
      ensures Get(InsertGroups(st, groups), groups[i].0) == Some(InsertedChat(ChatOr(st, groups[i].0), groups[i].0, groups[i].1))
    {
      InsertGroupsSpec(st, groups, groups[i].0);
    }
  }

  /** `insertAllGroup` keeps every record's history. */
  lemma {:induction false} InsertKeepsHistory(st: Chats, groups: OMap<Metadata>, k: string)
    ensures Get(InsertGroups(st, groups), k).Some? ==>
      Get(InsertGroups(st, groups), k).value.messages == ChatOr(st, k).messages
    decreases |groups|
  {
    if |groups| > 0 {
      var g := groups[0].0;
      var st1 := InsertGroup(st, g, groups[0].1);
      assert InsertGroups(st, groups) == InsertGroups(st1, groups[1..]);
      InsertKeepsHistory(st1, groups[1..], k);
      if k != g {
        assert ChatOr(st1, k) == ChatOr(st, k);
      }
    }
  }

  /** The `chats.upsert` resync replaces a named group's record outright, so
      its history is emptied. */
  lemma {:induction false} ResyncDropsHistory(st: Chats, groups: OMap<Metadata>, k: string)
    requires exists i :: 0 <= i < |groups| && groups[i].0 == k
    ensures Get(ResyncGroups(st, groups), k).Some? && Get(ResyncGroups(st, groups), k).value.messages == []
    decreases |groups|
  {
    var g := groups[0].0;
    var c := FreshGroup(g, groups[0].1);
    var i :| 0 <= i < |groups| && groups[i].0 == k;
    if i > 0 {
      assert groups[1..][i - 1].0 == k;
      ResyncDropsHistory(Set(st, g, c), groups[1..], k);
    } else if exists j :: 0 <= j < |groups[1..]| && groups[1..][j].0 == k {
      ResyncDropsHistory(Set(st, g, c), groups[1..], k);
    } else {
      ResyncUntouched(Set(st, g, c), groups[1..], k);
    }
  }

  /** `insertAllGroup` keeps every record's history; the `chats.upsert`
      resync replaces the record outright, so a group's history is emptied. */
  lemma InsertKeepsHistoryResyncDropsIt(st: Chats, groups: OMap<Metadata>, k: string)
    ensures Get(InsertGroups(st, groups), k).Some? ==>
      Get(InsertGroups(st, groups), k).value.messages == ChatOr(st, k).messages
    ensures (exists i :: 0 <= i < |groups| && groups[i].0 == k) ==>
      Get(ResyncGroups(st, groups), k).Some? && Get(ResyncGroups(st, groups), k).value.messages == []
  {
    InsertKeepsHistory(st, groups, k);
    if exists i :: 0 <= i < |groups| && groups[i].0 == k {
      ResyncDropsHistory(st, groups, k);
    }
  }

  /** A record the resync does not name is left alone. */
  lemma {:induction false} ResyncUntouched(st: Chats, groups: OMap<Metadata>, k: string)
    requires forall i :: 0 <= i < |groups| ==> groups[i].0 != k
    ensures Get(ResyncGroups(st, groups), k) == Get(st, k)
    decreases |groups|
  {
    if |groups| > 0 {
      var g := groups[0].0;
      var c := FreshGroup(g, groups[0].1);
      assert forall i :: 0 <= i < |groups[1..]| ==> groups[1..][i] == groups[i + 1];
      ResyncUntouched(Set(st, g, c), groups[1..], k);
    }
  }

  // ---------------------------------------------------------------------
  // loadMessage

  /** A history holds `id` as a key or as the id inside a stored key. */
  predicate MentionsId(h: History, id: string) {
    exists j :: 0 <= j < |h| && (h[j].0 == id || h[j].1.key.id == id)
  }

  /** The first chat, in table order, whose history mentions `id`. */
  function FirstChatWith(st: Chats, id: string): (r: Option<nat>)
    ensures r.Some? ==> r.value < |st| && MentionsId(st[r.value].1.messages, id)
    ensures r.Some? ==> forall j :: 0 <= j < r.value ==> !MentionsId(st[j].1.messages, id)
    ensures r.None? ==> forall j :: 0 <= j < |st| ==> !MentionsId(st[j].1.messages, id)
  {
    if |st| == 0 then None
    else if MentionsId(st[0].1.messages, id) then Some(0)
    else match FirstChatWith(st[1..], id)
      case None => None
      case Some(i) => Some(i + 1)
  }

  /** `conn.loadMessage(id)` (lib/simple.js:1007-1013): a scan of every chat,
      not scoped to any one, that returns `messages[id]` of the first chat
      whose history mentions `id`, even when that chat mentions it only
      inside a stored key and so has no entry under `id`. */
  function LoadMessage(st: Chats, id: string): (r: Option<Envelope>)
    ensures r.Some? ==> exists i :: 0 <= i < |st| && Get(st[i].1.messages, id) == r
    ensures (forall i :: 0 <= i < |st| ==> !MentionsId(st[i].1.messages, id)) ==> r.None?
    ensures FirstChatWith(st, id).Some? ==> r == Get(st[FirstChatWith(st, id).value].1.messages, id)
  {
    match FirstChatWith(st, id)
    case None => None
    case Some(i) => Get(st[i].1.messages, id)
  }

  /** A match found only through a stored key's id yields nothing, even when a
      later chat holds the message under that very id. */
  lemma LoadMessageMissesByInnerId()
    ensures
      var k := MsgKey("a@s.whatsapp.net", false, "ID1", "");
      var e := Envelope(k, None, "", "", 0, []);
      var st := [("a@s.whatsapp.net", Chat("a@s.whatsapp.net", map[], true, None, [("OTHER", e)])),
                 ("b@s.whatsapp.net", Chat("b@s.whatsapp.net", map[], true, None, [("ID1", e)]))];
      LoadMessage(st, "ID1").None?
  {
    var k := MsgKey("a@s.whatsapp.net", false, "ID1", "");
    var e := Envelope(k, None, "", "", 0, []);
    var st := [("a@s.whatsapp.net", Chat("a@s.whatsapp.net", map[], true, None, [("OTHER", e)])),
               ("b@s.whatsapp.net", Chat("b@s.whatsapp.net", map[], true, None, [("ID1", e)]))];
    assert MentionsId(st[0].1.messages, "ID1") by {
      assert st[0].1.messages[0].1.key.id == "ID1";
    }
    assert FirstChatWith(st, "ID1") == Some(0);
    assert IndexOf(st[0].1.messages, "ID1") == None;
  }

  // ---------------------------------------------------------------------
  // getName

  const WhatsAppJid: string := "0@s.whatsapp.net"

  /** The properties `getName` tries, in order, for an ordinary id. */
  const NameKeys: seq<string> := ["name", "subject", "vname", "notify", "verifiedName"]

  /** `record[name]`, "" when unset. */
  function Lookup(fields: map<string, string>, name: string): string {
    if name in fields then fields[name] else ""
  }

  /** `record[names[0]] || record[names[1]] || ...`: the first non-empty of
      the properties, or "" when all are empty. */
  function FirstField(fields: map<string, string>, names: seq<string>): (r: string)
    ensures r != "" ==> exists i :: 0 <= i < |names| && Lookup(fields, names[i]) == r
                          && forall j :: 0 <= j < i ==> Lookup(fields, names[j]) == ""
    ensures r == "" <==> forall i :: 0 <= i < |names| ==> Lookup(fields, names[i]) == ""
  {
    if |names| == 0 then ""
    else if Lookup(fields, names[0]) != "" then Lookup(fields, names[0])
    else
      var r := FirstField(fields, names[1..]);
      assert forall i :: 1 <= i < |names| ==> names[i] == names[1..][i - 1];
      assert r != "" ==> exists i :: 1 <= i < |names| && Lookup(fields, names[i]) == r
                          && forall j :: 0 <= j < i ==> Lookup(fields, names[j]) == "" by {
        if r != "" {
          var i :| 0 <= i < |names[1..]| && Lookup(fields, names[1..][i]) == r
                    && forall j :: 0 <= j < i ==> Lookup(fields, names[1..][j]) == "";
          assert Lookup(fields, names[i + 1]) == r;
          assert forall j :: 0 <= j < i + 1 ==> Lookup(fields, names[j]) == "" by {
            forall j | 0 <= j < i + 1 ensures Lookup(fields, names[j]) == "" {
              if j > 0 { assert names[j] == names[1..][j - 1]; }
            }
          }
        }
      }
      r
  }

  /** The record `getName` reads for a non-group id (lib/simple.js:1093-1098):
      a fixed record for the WhatsApp service id, the session's own user for
      the session's id, else the stored chat or `{}`. */
  function NameSource(env: Env, st: Chats, jid: string): map<string, string> {
    if jid == WhatsAppJid then map["vname" := "WhatsApp"]
    else if env.sameUser(jid, env.ownId) then env.user
    else ChatOr(st, jid).fields
  }

  /** `PhoneNumber('+' + jid.replace('@s.whatsapp.net', '')).getNumber('international')`. */
  function PhoneFallback(env: Env, jid: string): string {
    env.phoneNumber("+" + ReplaceFirst(jid, UserServer, ""))
  }

  /** `conn.getName(jid, withoutContact)` (lib/simple.js:1084-1100), on the
      decoded id. `fetched` is the provider's answer for a group, `None` when it
      rejects; in that case the returned promise never settles, which is the
      `None` result. */
  function GetName(env: Env, st: Chats, jid0: string, withoutContact: bool, fetched: Option<Metadata>): (r: Option<string>)
    ensures var jid := DecodeJid(env, jid0);
      !IsGroupJid(jid) ==> (
        && r.Some?
        && var names := if withoutContact then NameKeys[1..] else NameKeys;
           var v := NameSource(env, st, jid);
           if forall i :: 0 <= i < |names| ==> Lookup(v, names[i]) == "" then r.value == PhoneFallback(env, jid)
           else exists i :: 0 <= i < |names| && Lookup(v, names[i]) == r.value != ""
                  && forall j :: 0 <= j < i ==> Lookup(v, names[j]) == "")
    ensures var jid := DecodeJid(env, jid0);
      IsGroupJid(jid) && FirstField(ChatOr(st, jid).fields, ["name", "subject"]) != "" ==>
        r == Some(FirstField(ChatOr(st, jid).fields, ["name", "subject"]))
    ensures var jid := DecodeJid(env, jid0);
      IsGroupJid(jid) && FirstField(ChatOr(st, jid).fields, ["name", "subject"]) == "" ==>
        && (r.None? <==> fetched.None?)
        && (fetched.Some? ==> r.value == Or(fetched.value.subject, PhoneFallback(env, jid)))
  {
    var jid := DecodeJid(env, jid0);
    if IsGroupJid(jid) then
      var known := FirstField(ChatOr(st, jid).fields, ["name", "subject"]);
      if known != "" then Some(known)
      else if fetched.None? then None
      else Some(Or(fetched.value.subject, PhoneFallback(env, jid)))
    else
      var names := if withoutContact then NameKeys[1..] else NameKeys;
      Some(Or(FirstField(NameSource(env, st, jid), names), PhoneFallback(env, jid)))
  }

  /** The WhatsApp service id is named without any lookup. */
  lemma GetNameOfService(env: Env, st: Chats, withoutContact: bool, fetched: Option<Metadata>)
    ensures GetName(env, st, WhatsAppJid, withoutContact, fetched) == Some("WhatsApp")
  {
    PlainJidFixed(env, "0", "s.whatsapp.net");
    assert !IsGroupJid(WhatsAppJid);
    var names := if withoutContact then NameKeys[1..] else NameKeys;
    assert "vname" in names;
  }

  /** A stored non-empty name wins for an ordinary contact, and is skipped
      with `withoutContact` in favour of the next property. */
  lemma GetNamePrefersStoredName(env: Env, st: Chats, jid: string, c: Chat)
    requires DecodeJid(env, jid) == jid && !IsGroupJid(jid) && jid != WhatsAppJid
    requires !env.sameUser(jid, env.ownId)
    requires Get(st, jid) == Some(c) && Field(c, "name") != ""
    ensures GetName(env, st, jid, false, None) == Some(Field(c, "name"))
    ensures Field(c, "subject") != "" ==> GetName(env, st, jid, true, None) == Some(Field(c, "subject"))
  {
    assert NameKeys[1..][0] == "subject";
  }
}

=== FILE: strings.dfy ===
/** The JavaScript string operations the core relies on: decimal rendering of
    integral numbers, `trim`, `split`/`join` on one character, `startsWith`,
    `endsWith`, `includes`, `replace` with a string pattern, and ASCII
    upper-casing. */
module Strings {

  predicate IsDigit(c: char) {
    '0' <= c <= '9'
  }

  predicate AllDigits(s: string) {
    forall i :: 0 <= i < |s| ==> IsDigit(s[i])
  }

  function DigitChar(d: nat): (c: char)
    requires d < 10
    ensures IsDigit(c)
  {
    ['0', '1', '2', '3', '4', '5', '6', '7', '8', '9'][d]
  }

  function DigitValue(c: char): (d: nat)
    requires IsDigit(c)
    ensures d < 10
  {
    (c as int - '0' as int) as nat
  }

  /** `String(n)` for a non-negative integral number: decimal, no leading zero. */
  function NatToString(n: nat): (s: string)
    ensures |s| >= 1 && AllDigits(s)
    ensures |s| > 1 ==> s[0] != '0'
    decreases n
  {
    if n < 10 then [DigitChar(n)] else NatToString(n / 10) + [DigitChar(n % 10)]
  }

  /** The number a string of decimal digits denotes. */
  function DigitsValue(s: string): nat
    requires AllDigits(s)
  {
    if |s| == 0 then 0 else 10 * DigitsValue(s[..|s| - 1]) + DigitValue(s[|s| - 1])
  }

  /** Reading a rendered number back gives the number. */
  lemma {:induction false} NatToStringRoundTrip(n: nat)
    ensures DigitsValue(NatToString(n)) == n
    decreases n
  {
    var s := NatToString(n);
    if n < 10 {
      assert DigitValue(DigitChar(n)) == n;
    } else {
      NatToStringRoundTrip(n / 10);
      assert s[..|s| - 1] == NatToString(n / 10);
      assert DigitValue(DigitChar(n % 10)) == n % 10;
    }
  }

  /** Distinct numbers render differently. */
  lemma NatToStringInjective(a: nat, b: nat)
    requires NatToString(a) == NatToString(b)
    ensures a == b
  {
    NatToStringRoundTrip(a);
    NatToStringRoundTrip(b);
  }

  /** The characters `String.prototype.trim` removes: ECMAScript WhiteSpace
      and LineTerminator. */
  predicate IsJsSpace(c: char) {
    || c == ' ' || c == '\t' || c == '\n' || c == '\r'
    || c == '\U{000B}' || c == '\U{000C}' || c == '\U{00A0}' || c == '\U{1680}'
    || ('\U{2000}' <= c <= '\U{200A}')
    || c == '\U{2028}' || c == '\U{2029}' || c == '\U{202F}' || c == '\U{205F}'
    || c == '\U{3000}' || c == '\U{FEFF}'
  }

  /** `s` without its trailing white space. */
  function TrimEnd(s: string): (r: string)
    ensures |r| <= |s| && r == s[..|r|]
    ensures |r| > 0 ==> !IsJsSpace(r[|r| - 1])
    ensures forall i :: |r| <= i < |s| ==> IsJsSpace(s[i])
  {
    if |s| == 0 || !IsJsSpace(s[|s| - 1]) then s else TrimEnd(s[..|s| - 1])
  }

  /** `s` without its leading white space. */
  function TrimStart(s: string): (r: string)
    ensures |r| <= |s| && r == s[|s| - |r|..]
    ensures |r| > 0 ==> !IsJsSpace(r[0])
    ensures forall i :: 0 <= i < |s| - |r| ==> IsJsSpace(s[i])
  {
    if |s| == 0 || !IsJsSpace(s[0]) then s else TrimStart(s[1..])
  }

  /** `a || b`, for strings. */
  function Or(a: string, b: string): (r: string)
    ensures r == "" <==> a == "" && b == ""
  {
    if a != "" then a else b
  }

  /** `s.trim()`. */
  function Trim(s: string): string {
    TrimStart(TrimEnd(s))
  }

  /** A string with white space at neither end. */
  predicate IsTrimmed(s: string) {
    |s| == 0 || (!IsJsSpace(s[0]) && !IsJsSpace(s[|s| - 1]))
  }

  /** `trim` leaves a trimmed string, keeps everything between the first and
      last non-space character, and changes nothing in a trimmed string. */
  lemma TrimSpec(s: string)
    ensures IsTrimmed(Trim(s))
    ensures IsTrimmed(s) ==> Trim(s) == s
    ensures Trim(Trim(s)) == Trim(s)
  {
    var e := TrimEnd(s);
    var r := TrimStart(e);
    if |r| > 0 {
      assert r[|r| - 1] == e[|e| - 1];
    }
    if IsTrimmed(s) && |s| > 0 {
      assert TrimEnd(s) == s;
    }
    if |r| > 0 {
      assert TrimEnd(r) == r;
    }
  }

  /** `s.split(c)` for a one-character separator. */
  function Split(s: string, c: char): (parts: seq<string>)
    ensures |parts| >= 1
    ensures forall i :: 0 <= i < |parts| ==> c !in parts[i]
  {
    if |s| == 0 then [""]
    else
      var rest := Split(s[1..], c);
      if s[0] == c then [""] + rest
      else [[s[0]] + rest[0]] + rest[1..]
  }

  /** `parts.join(c)`. */
  function Join(parts: seq<string>, c: char): string {
    if |parts| == 0 then ""
    else if |parts| == 1 then parts[0]
    else parts[0] + [c] + Join(parts[1..], c)
  }

  /** Joining what was split restores the string. */
  lemma {:induction false} JoinSplit(s: string, c: char)
    ensures Join(Split(s, c), c) == s
  {
    if |s| > 0 {
      JoinSplit(s[1..], c);
      var rest := Split(s[1..], c);
      if s[0] != c {
        if |rest| == 1 {
          assert s == [s[0]] + s[1..];
        } else {
          assert Join(rest, c) == rest[0] + [c] + Join(rest[1..], c);
          assert s == [s[0]] + s[1..];
        }
      }
    }
  }

  /** Splitting a string that starts with a part free of the separator. */
  lemma {:induction false} SplitPrefix(a: string, c: char, b: string)
    requires c !in a
    ensures Split(a + [c] + b, c) == [a] + Split(b, c)
  {
    if |a| == 0 {
      assert a + [c] + b == [c] + b;
      assert ([c] + b)[1..] == b;
    } else {
      assert (a + [c] + b)[1..] == a[1..] + [c] + b;
      SplitPrefix(a[1..], c, b);
      assert [a[0]] + a[1..] == a;
    }
  }

  /** A string without the separator is one part. */
  lemma {:induction false} SplitNone(a: string, c: char)
    requires c !in a
    ensures Split(a, c) == [a]
  {
    if |a| > 0 {
      SplitNone(a[1..], c);
      assert [a[0]] + a[1..] == a;
    }
  }

  /** Splitting what was joined restores the parts. */
  lemma {:induction false} SplitJoin(parts: seq<string>, c: char)
    requires |parts| >= 1
    requires forall i :: 0 <= i < |parts| ==> c !in parts[i]
    ensures Split(Join(parts, c), c) == parts
  {
    if |parts| == 1 {
      SplitNone(parts[0], c);
    } else {
      SplitJoin(parts[1..], c);
      SplitPrefix(parts[0], c, Join(parts[1..], c));
    }
  }

  predicate StartsWith(s: string, prefix: string) {
    |prefix| <= |s| && s[..|prefix|] == prefix
  }

  predicate EndsWith(s: string, suffix: string) {
    |suffix| <= |s| && s[|s| - |suffix|..] == suffix
  }

  /** `s.includes(sub)`. */
  predicate Includes(s: string, sub: string)
    decreases |s|
  {
    StartsWith(s, sub) || (|s| > 0 && Includes(s[1..], sub))
  }

  /** `s.replace(pattern, replacement)` with a string pattern: only the first
      occurrence is replaced. */
  function ReplaceFirst(s: string, pattern: string, replacement: string): (r: string)
    ensures !Includes(s, pattern) ==> r == s
    ensures StartsWith(s, pattern) ==> r == replacement + s[|pattern|..]
  {
    if StartsWith(s, pattern) then replacement + s[|pattern|..]
    else if |s| == 0 then s
    else [s[0]] + ReplaceFirst(s[1..], pattern, replacement)
  }

  /** `c.toUpperCase()` on the ASCII range. */
  function AsciiUpper(c: char): (u: char)
    ensures 'a' <= c <= 'z' ==> 'A' <= u <= 'Z' && u as int == c as int - 32
    ensures !('a' <= c <= 'z') ==> u == c
  {
    if 'a' <= c <= 'z' then (c as int - 32) as char else c
  }
}

=== FILE: stub.dfy ===
/** `conn.processMessageStubType` (lib/simple.js:1106-1143): a protocol stub
    on a group turns into a synthetic `groups.update` event and a metadata
    refresh of the group's record.

    The stub kinds are the transport library's `WAMessageStubType` codes; only
    the four this core distinguishes are named. */
module Stub {
  import opened Wrappers
  import opened OrderedMap
  import opened Strings
  import opened Jid
  import opened Payload
  import opened Store

  const Revoke: nat := 1
  const Ciphertext: nat := 2
  const GroupChangeIcon: nat := 22
  const GroupChangeInviteLink: nat := 23

  /** `messageStubParameters[0]`, "" when there is none. */
  function FirstParameter(params: seq<string>): string {
    if |params| > 0 then params[0] else ""
  }

  /** The update the stub emits on `groups.update` (lib/simple.js:1114-1131):
      a revoked or changed invite link carries the new code as `revoke`, a
      changed icon carries it as `icon`; any other kind emits nothing. */
  function StubEvent(chat: string, stubType: nat, params: seq<string>): (u: Option<Contact>)
    ensures u.Some? <==> stubType == Revoke || stubType == GroupChangeInviteLink || stubType == GroupChangeIcon
    ensures u.Some? ==> u.value.id == chat && |u.value.fields| == 1
    ensures stubType == Revoke || stubType == GroupChangeInviteLink ==>
      u.Some? && "revoke" in u.value.fields && u.value.fields["revoke"] == FirstParameter(params)
    ensures stubType == GroupChangeIcon ==>
      u.Some? && "icon" in u.value.fields && u.value.fields["icon"] == FirstParameter(params)
  {
    if stubType == Revoke || stubType == GroupChangeInviteLink then
      Some(Contact(chat, map["revoke" := FirstParameter(params)]))
    else if stubType == GroupChangeIcon then
      Some(Contact(chat, map["icon" := FirstParameter(params)]))
    else None
  }

  /** Whether the stub is acted on at all: a stub kind is set and the envelope
      belongs to a real chat. */
  predicate StubApplies(env: Env, e: Envelope) {
    var chat := EnvelopeChat(env, e);
    e.stubType != 0 && chat != "" && chat != StatusBroadcast
  }

  /** The stub's effect on the store: the emitted update runs through both
      `groups.update` listeners, then a group's record is refreshed. A
      non-group chat only receives the emitted update. */
  function ApplyStub(env: Env, st: Chats, e: Envelope, fetch: string -> Option<Metadata>): (r: Chats)
    ensures !StubApplies(env, e) ==> r == st
    ensures StubApplies(env, e) && IsGroupJid(EnvelopeChat(env, e)) ==>
      var chat := EnvelopeChat(env, e);
      && Get(r, chat).Some?
      && Get(r, chat).value.isChats
      && (fetch(chat).Some? ==> Get(r, chat).value.metadata == fetch(chat)
                                && Field(Get(r, chat).value, "subject") == fetch(chat).value.subject)
    ensures var chat := EnvelopeChat(env, e);
      StubApplies(env, e) && StubEvent(chat, e.stubType, e.stubParameters).None? && !IsGroupJid(chat) ==> r == st
    ensures var chat := EnvelopeChat(env, e);
      var u := StubEvent(chat, e.stubType, e.stubParameters);
      StubApplies(env, e) && u.Some? && DecodeJid(env, chat) == chat ==>
        && Get(r, chat).Some?
        && forall k :: k in u.value.fields ==> Field(Get(r, chat).value, k) == u.value.fields[k]
    ensures Valid(st) ==> Valid(r)
  {
    if !StubApplies(env, e) then st
    else
      var chat := EnvelopeChat(env, e);
      match StubEvent(chat, e.stubType, e.stubParameters)
      case None => if IsGroupJid(chat) then RefreshGroup(st, chat, fetch(chat)) else st
      case Some(u) =>
        StubFieldsLand(env, st, chat, e.stubType, e.stubParameters, fetch);
        var st1 := OnGroupsUpdate(env, st, [u], fetch);
        if IsGroupJid(chat) then RefreshGroup(st1, chat, fetch(chat)) else st1
  }

  /** The emitted update's own property lands in the chat's record and
      survives the refreshes, which touch only the subject. */
  lemma StubFieldsLand(env: Env, st: Chats, chat: string, stubType: nat, params: seq<string>,
                       fetch: string -> Option<Metadata>)
    requires StubEvent(chat, stubType, params).Some?
    ensures var u := StubEvent(chat, stubType, params).value;
      var st1 := OnGroupsUpdate(env, st, [u], fetch);
      var r := if IsGroupJid(chat) then RefreshGroup(st1, chat, fetch(chat)) else st1;
      chat != "" && DecodeJid(env, chat) == chat ==>
        && Get(r, chat).Some?
        && forall k :: k in u.fields ==> Field(Get(r, chat).value, k) == u.fields[k]
  {
    var u := StubEvent(chat, stubType, params).value;
    if chat != "" && DecodeJid(env, chat) == chat {
      assert "subject" !in u.fields;
      StubMergeLands(env, st, chat, u);
      GroupsUpdateKeepsFields(env, st, u, fetch, chat);
      if IsGroupJid(chat) {
        RefreshGroupKeepsFields(OnGroupsUpdate(env, st, [u], fetch), chat, fetch(chat), u.fields);
      }
    }
  }

  /** Both `groups.update` listeners leave every property but the subject as
      the name merge set it. */
  lemma GroupsUpdateKeepsFields(env: Env, st: Chats, u: Contact, fetch: string -> Option<Metadata>, chat: string)
    requires DecodeJid(env, u.id) == chat && "subject" !in u.fields
    requires Get(UpdateNameToDb(env, st, [u]), chat).Some?
    ensures var st1 := OnGroupsUpdate(env, st, [u], fetch);
      && Get(st1, chat).Some?
      && forall k :: k in u.fields ==>
           Field(Get(st1, chat).value, k) == Field(Get(UpdateNameToDb(env, st, [u]), chat).value, k)
  {
    if IsGroupJid(chat) {
      assert RefreshesGroup(env, [u], chat);
    } else {
      assert !RefreshesGroup(env, [u], chat);
    }
  }

  /** A refresh of a record keeps its properties other than the subject. */
  lemma RefreshGroupKeepsFields(st: Chats, id: string, fetched: Option<Metadata>, fields: map<string, string>)
    requires "subject" !in fields
    ensures forall k :: k in fields ==> Field(Get(RefreshGroup(st, id, fetched), id).value, k) == Field(ChatOr(st, id), k)
  {
  }

  /** The name merge writes the update's properties into the chat's record,
      above which only the merged name or subject is set. */
  lemma StubMergeLands(env: Env, st: Chats, chat: string, u: Contact)
    requires u.id == chat && chat != "" && DecodeJid(env, chat) == chat
    requires "subject" !in u.fields && "name" !in u.fields
    ensures var st0 := UpdateNameToDb(env, st, [u]);
      && Get(st0, chat).Some?
      && forall k :: k in u.fields ==> Field(Get(st0, chat).value, k) == u.fields[k]
  {
    var st0 := MergeContact(env, st, u);
    assert UpdateNameToDb(env, st, [u]) == st0 by {
      assert UpdateNameToDb(env, st0, []) == st0;
    }
  }

  /** The invite-link stub on group g1@g.us with the code "newcode" is about
      that group and carries the code under `revoke`. */
  lemma InviteLinkStubEvent(env: Env)
    ensures
      var e := Envelope(MsgKey("g1@g.us", false, "S1", ""), None, "", "", GroupChangeInviteLink, ["newcode"]);
      && EnvelopeChat(env, e) == "g1@g.us"
      && IsGroupJid("g1@g.us")
      && StubEvent("g1@g.us", GroupChangeInviteLink, ["newcode"]) == Some(Contact("g1@g.us", map["revoke" := "newcode"]))
  {
    var g := "g1@g.us";
    PlainJidFixed(env, "g1", "g.us");
    assert IsGroupJid(g) by { assert g[|g| - 5..] == GroupServer; }
  }

  /** The invite-link stub on group g1@g.us with the code "newcode": the
      group's record ends up carrying `revoke` = "newcode", the fetched subject
      and metadata, and the conversation flag. */
  lemma InviteLinkStubExample(env: Env, st: Chats, fetch: string -> Option<Metadata>, m: Metadata)
    requires fetch("g1@g.us") == Some(m)
    ensures
      var e := Envelope(MsgKey("g1@g.us", false, "S1", ""), None, "", "", GroupChangeInviteLink, ["newcode"]);
      var r := ApplyStub(env, st, e, fetch);
      && Get(r, "g1@g.us").Some?
      && Field(Get(r, "g1@g.us").value, "revoke") == "newcode"
      && Field(Get(r, "g1@g.us").value, "subject") == m.subject
      && Get(r, "g1@g.us").value.metadata == Some(m)
      && Get(r, "g1@g.us").value.isChats
  {
    var e := Envelope(MsgKey("g1@g.us", false, "S1", ""), None, "", "", GroupChangeInviteLink, ["newcode"]);
    var g := "g1@g.us";
    var u := Contact(g, map["revoke" := "newcode"]);
    InviteLinkStubEvent(env);
    var st1 := MergeContact(env, st, u);
    assert UpdateNameToDb(env, st, [u]) == st1 by {
      assert UpdateNameToDb(env, st1, []) == st1;
    }
    assert Field(Get(st1, g).value, "revoke") == "newcode" by {
      assert "revoke" in u.fields;
      assert "revoke" != "subject";
    }
    var st2 := RefreshGroup(st1, g, fetch(g));
    assert GroupUpdatePush(env, st1, u, fetch) == st2;
    assert GroupsUpdatePush(env, st1, [u], fetch) == st2 by {
      assert GroupsUpdatePush(env, st2, [], fetch) == st2;
    }
    assert Field(Get(st2, g).value, "revoke") == "newcode";
    assert ApplyStub(env, st, e, fetch) == RefreshGroup(st2, g, fetch(g));
  }
}

=== FILE: wrappers.dfy ===
/** Option and Result values used across the model in place of JavaScript's
    `undefined`/`null` and thrown exceptions. */
module Wrappers {

  /** A value that may be absent (`undefined` or `null` in the source). */
  datatype Option<+T> = None | Some(value: T) {

    /** The value, or `default` when absent: the `x || default` idiom for
        values that are never falsy when present. */
    function GetOr(default: T): (r: T)
      ensures Some? ==> r == value
      ensures None? ==> r == default
    {
      match this
      case Some(v) => v
      case None => default
    }
  }

  /** The outcome of an operation that may throw in the source. */
  datatype Result<+R, +E> = Ok(value: R) | Err(error: E)

  /** The exceptions the modelled code can raise. */
  datatype Failure =
    | ReferenceError(name: string)   // an identifier that is not defined
    | TypeError(what: string)        // a property read on `undefined`
    | InputOutputMismatch            // `logic` called with lists of different lengths
}
